=== FILE: README.md ===
# gltfparse.js loader core, modelled in Dafny

This project models the data-shaping core of the gltfparse.js glTF 2.0 loader. It covers two files:

- `src/gl3GLTF.js`, the newer `GLTFParse` loader with its `GLTFNode` and `Node` classes;
- `src/gltf.js`, the older loader.

It leaves out network access, images and the GPU, and states what each loader promises about
the data it builds.

The model has these parts:

- **Wrappers** and **JsValues**. Wrappers holds `Option` and `Result`. JsValues holds the
  JavaScript semantics the loaders lean on:
  - `ArrayBuffer.prototype.slice`, with its clamping of out-of-range bounds, modelled rather than
    assumed away;
  - `NaN` from arithmetic on `undefined`;
  - `array[i]`, which gives `undefined` out of range;
  - arrays versus plain objects as key/value collections.
- **Tables**:
  - the component-type codes 5120–5126 and `getTypedArrayFunctionFromComponent`;
  - the typed-array widths;
  - the `STRIDE_TYPE` table SCALAR=1 … MAT4=16.
- **Glb**: `getChunkInGlb`, which reads the 20-byte GLB header and the JSON chunk, plus the buffer
  carving loop of `fetchGlb`. The layout is that of chapter 4 of the Khronos glTF 2.0
  specification, with little-endian `uint32` words. An encoder is included so that a round trip
  can be stated.
- **BufferViews**:
  - `splitBinary` of the newer loader, one entry per buffer view, with the default `byteOffset`
    written back into the document;
  - the accessor loop of `parse`, which builds one typed-array view per accessor.
- **Materials**: the material part of the `GLTFNode` constructor, with the loader's own defaults.
  Metallic and roughness default to 0.5.
- **SceneGraph** and **Scenes**:
  - the rest of the `GLTFNode` constructor: primitives, attributes, and the recursion over
    `nodes`/`children`;
  - the two name-keyed multimaps `data.nodes` and `data.materials`;
  - `getScene`, as the class `Scenes.SceneData`.
- **Transform**: the `Node` class, as `Transform.Node`. It covers the dirty flag, the setters,
  `updateMatrix` with its force propagation and parent-matrix handoff, and `generate` /
  `generateNodeFromGltf`. Matrices are a free term datatype (`Mat`), so only the control behaviour
  is proved, never matrix numerics.
- **Paths**: path validation and splitting in `load` of both loaders, as the class `Paths.Loader`.
- **Legacy**: the older loader:
  - `getKeys`;
  - its accessor-keyed `splitBinary`, with element widths;
  - the descriptor decisions of `generateMesh`;
  - the attribute-stride and uniform-type lists of `generateProgram`.

Where code works by updating state, the model is imperative Dafny. This covers:

- the `Node` and loader objects;
- the `data` object of `getScene`;
- the `forEach` loops that fill `binaries`, `parsedBuffers`, meshes and stride lists.

Each such method is proved against a specification function, and the properties are proved about
that function.

Where the code departs from the Khronos glTF 2.0 specification, the model follows the code:

- metallic and roughness default to 0.5, where the specification gives 1;
- `primitiveType` is `undefined` when `mode` is absent in the newer loader, where the
  specification defaults `mode` to 4 (TRIANGLES);
- `node.matrix` is multiplied after the `compose` of translation, rotation and scaling, where
  the specification makes the two alternatives;
- a texture's image is `images[textureIndex]`, not `images[textures[textureIndex].source]`;
- a node's initial scaling is always [1,1,1], and a path's directory is the path with the first
  occurrence of the file name removed (both under "## Findings").

The model follows the evidently intended code in one place only: the uniform-type list of the
older loader is kept aligned with the uniforms (`Legacy.UniformTypes`), and the list as written
is `Legacy.UniformTypesAsWritten`.

## Model

| member | source | states |
|---|---|---|
| Tables.CodeOf | src/gl3GLTF.js:510-517 | every typed-array kind stands for one of the seven component codes BYTE (5120) … FLOAT (5126) |
| Tables.BytesPerElement | src/gl3GLTF.js:984-1012 | each typed array the loader builds has 1-, 2- or 4-byte elements |
| Tables.TypedArrayFor | src/gl3GLTF.js:984-1012 | a constructor is chosen exactly for codes 5120..5126, and it is the one whose code is the argument; any other code gives null |
| Tables.TypedArrayForCodeOf | src/gl3GLTF.js:984-1012 | the code table and the constructor switch are inverse: the constructor chosen for a kind's own code is that kind |
| Tables.ParseElementType | src/gl3GLTF.js:542-552 | a recognised accessor `type` string is exactly the name of the element type it denotes |
| Tables.ParseElementTypeName | src/gl3GLTF.js:542-552 | every element type's name is recognised as that element type (round trip) |
| Tables.Components | src/gl3GLTF.js:542-552 | component counts lie in 1..16; 1 exactly for SCALAR, 4 exactly for VEC4 and MAT2 |
| Tables.StrideOf | src/gl3GLTF.js:542-552 | `STRIDE_TYPE[type]` is defined exactly for the seven type names and equals that type's component count (own names only; names inherited from `Object.prototype` are not modelled) |
| JsValues.ArrayBufferSlice | src/gl3GLTF.js:907 | `slice` never returns more than the buffer; in-range bounds give exactly those bytes; an end past the buffer is clamped to it; a NaN end or an empty range gives no bytes |
| JsValues.NumAdd | src/gltf.js:310 | a sum is a number exactly when both operands are (NaN propagates) |
| JsValues.NumMul | src/gltf.js:311 | a product is a number exactly when both operands are (NaN propagates) |
| JsValues.ItemAt | src/gl3GLTF.js:318-321 | `a[i]` is a value exactly when `i` is an index in range, and then it is that element; otherwise `undefined`, never `null` |
| JsValues.DecimalIndex | src/gltf.js:287-290 | the numeral `String(n)` of every index is canonical (digits, no leading zero) and reads back as `n` |
| JsValues.IndexDecimal | src/gltf.js:287-290 | a canonical numeral is the numeral of its value, so a property name denotes an array index exactly when it is the numeral of that index |
| JsValues.SameProperty | src/gltf.js:287-290 | the number `i` and the string `s` name the same property exactly when `s` is the canonical numeral of `i` |
| JsValues.LookupByName | src/gltf.js:287-290 | `c[k]` depends on `k` only through `String(k)` |
| JsValues.ArrayLookup | src/gltf.js:287-290 | an array answers index `i`, and equally the string `String(i)`, with its element `i` when `i` is in range and `undefined` otherwise |
| JsValues.ObjectNumericKey | src/gltf.js:287-290 | a plain object answers the number `i` with its member named `String(i)`: `obj[0]` is `obj["0"]` |
| BufferViews.WithOffset | src/gl3GLTF.js:902-904 | a view without `byteOffset` gets offset 0; buffer and length are untouched; a view with an offset is left as it was |
| BufferViews.ViewBytesInRange | src/gl3GLTF.js:905-908 | when the view fits its buffer, its bytes are exactly the `byteLength` bytes from its offset (offset 0 when absent) |
| BufferViews.ViewBytesDefaultOffset | src/gl3GLTF.js:902-907 | a view with no offset and length N holds the first N bytes of its buffer |
| BufferViews.ViewBytesNoLength | src/gl3GLTF.js:907 | a view with no `byteLength` yields no bytes (`slice(k, NaN)`) |
| BufferViews.ViewBytesWrittenBack | src/gl3GLTF.js:902-907 | writing the default offset back does not change the bytes a view denotes, and writing it twice is the same as once |
| BufferViews.RewrittenUpTo | src/gl3GLTF.js:901-904 | after n steps of the loop the first n views carry an explicit offset and the rest are unchanged |
| BufferViews.SplitBinary | src/gl3GLTF.js:895-911 | null unless gltf and an array of buffers are given and `accessors`/`bufferViews` exist; otherwise it succeeds exactly when every view's buffer exists, giving one entry per view in order, holding the view with its offset and the view's bytes, and it leaves the document with every offset written back; on failure, the document keeps the offsets written up to and including the first view whose buffer is missing |
| BufferViews.ElementCount | src/gl3GLTF.js:841 | a view holds `count * STRIDE_TYPE[type]` elements when both are known, and none otherwise (NaN length) |
| BufferViews.AccessorView | src/gl3GLTF.js:834-847 | a view succeeds exactly when its binary exists, its component code has a constructor, its offset (default 0) is a multiple of the element width and its elements end within the buffer; each failure (missing binary, no constructor, misaligned offset, view past the buffer) occurs exactly when the checks before it pass and its own fails; on success the typed array's code is the accessor's `componentType`, it has `ElementCount` elements starting at the accessor's offset (default 0), which is a multiple of the element width, and it holds exactly those bytes; `componentType`, `type` and `count` are copied |
| BufferViews.AccessorLength | src/gl3GLTF.js:841 | a successful view of an accessor of known type has `count × components` elements |
| BufferViews.ByteAccessorsAligned | src/gl3GLTF.js:841 | a BYTE or UNSIGNED_BYTE accessor never fails on alignment |
| BufferViews.ParseAccessors | src/gl3GLTF.js:832-849 | no `parsedBuffers` when `accessors` is absent or empty; otherwise it succeeds exactly when every accessor's view succeeds, and entry i is accessor i's view; a failure is the error of the first failing accessor |
| Glb.U32At | src/gl3GLTF.js:712-714 | a little-endian `uint32` word is below 2^32 |
| Glb.U32Bytes | src/gl3GLTF.js:712-714 | a word is encoded in four bytes |
| Glb.U32RoundTrip | src/gl3GLTF.js:712-714 | reading back an encoded word gives the word |
| Glb.GetChunkInGlb | src/gl3GLTF.js:706-741 | null input throws; fewer than 20 bytes is out of range; success exactly when the magic lower-cases to "gltf" and the first chunk type to "json", the version is 2, the chunk length is non-zero and the chunk fits; then version, length and chunkLength are the header words, the JSON text is bytes [20, 20+chunkLength) and `bufferBegin` is 20+chunkLength |
| Glb.LowerMatchesEitherCase | src/gl3GLTF.js:716 | the magic and chunk-type checks ignore case: a four-byte tag matches a lower-case literal exactly when each byte is that letter in either case |
| Glb.GlbErrorPrecedence | src/gl3GLTF.js:716-727 | the magic/type check is made before the version check, which is made before the chunk-length check: a bad magic, or a good magic with a bad chunk type, is invalid chunk data whatever the version |
| Glb.GlbHeader | src/gl3GLTF.js:711-715 | the GLB header plus first chunk header is 20 bytes |
| Glb.EncodeGlb | src/gl3GLTF.js:711-715 | an encoded container is 28 bytes of headers plus the JSON and binary payloads |
| Glb.HeaderWords | src/gl3GLTF.js:711-715 | an encoded header passes the magic and type checks and its words read back as version 2, the total length and the JSON length |
| Glb.GlbRoundTrip | src/gl3GLTF.js:706-741 | reading an encoded container succeeds, returns its JSON payload as the chunk and its total length, and the binary payload starts 8 bytes after `bufferBegin` |
| Glb.RejectsWrongMagic | src/gl3GLTF.js:716-718 | a container whose magic reads "glTX" is refused as invalid chunk data |
| Glb.PrefixSumMonotone | src/gl3GLTF.js:806-812 | the carving cursor never moves backwards |
| Glb.CarvedPrefix | src/gl3GLTF.js:806-812 | after n steps the carving loop has produced n buffers |
| Glb.CarvedPrefixAt | src/gl3GLTF.js:806-812 | buffer i is `data.slice(begin_i, begin_i + byteLength_i)`, where `begin_i` is 8 + bufferBegin plus the earlier lengths |
| Glb.CarveBuffers | src/gl3GLTF.js:800-812 | a document without `buffers` is rejected; otherwise one buffer per entry, buffer i carved at the cursor after buffers 0..i-1 |
| Glb.CarvedContiguous | src/gl3GLTF.js:806-812 | when the buffers fit in the container, buffer i has exactly `byteLength_i` bytes, and joined in order the buffers are exactly the bytes from 8 + bufferBegin to the final cursor: adjacent and disjoint |
| Materials.ResolveSlot | src/gl3GLTF.js:342-349 | no texture gives the unused slot (image null, index 0, texCoord 0); a texture resolves exactly when `images` and `samplers` exist and `textures[index]` does (no lookup throws); no images at all is the first error; a resolved slot holds `images[index]` and `samplers[textures[index].sampler]` (each `undefined` when out of range, never null), the index and its texCoord (default 0) |
| Materials.DefaultsWhenEmpty | src/gl3GLTF.js:330-382 | a material without textures or factors resolves to the defaults: base colour [1,1,1,1], metallic and roughness 0.5, normal scale 1, occlusion strength 1, emissive [0,0,0], every slot unused |
| Materials.ResolveMaterial | src/gl3GLTF.js:341-412 | a material resolves exactly when each of its five referenced textures does |
| Materials.BaseColorFactorOverrideOnly | src/gl3GLTF.js:334-352 | setting `baseColorFactor` gives that factor in the result and clearing it gives [1,1,1,1]; every other field is unchanged |
| Materials.MetallicOverrideOnly | src/gl3GLTF.js:339-363 | setting `metallicFactor` gives that factor and clearing it gives 0.5; every other field is unchanged |
| Materials.RoughnessOverrideOnly | src/gl3GLTF.js:340-366 | setting `roughnessFactor` gives that factor and clearing it gives 0.5; every other field is unchanged |
| Materials.EmissiveFactorOverrideOnly | src/gl3GLTF.js:382-415 | setting `emissiveFactor` gives that factor and clearing it gives [0,0,0]; every other field is unchanged |
| Materials.BaseColorTextureOverrideOnly | src/gl3GLTF.js:330-349 | setting a resolvable base colour texture, or removing it, changes only the base colour slot, to that texture's slot or the unused slot |
| Materials.MetallicRoughnessTextureOverrideOnly | src/gl3GLTF.js:335-360 | setting a resolvable metallic-roughness texture, or removing it, changes only that slot |
| Materials.NormalTextureOverrideOnly | src/gl3GLTF.js:368-393 | setting a resolvable normal texture, or removing it, changes only the normal slot and the normal scale (the texture's `scale`, else 1) |
| Materials.OcclusionTextureOverrideOnly | src/gl3GLTF.js:373-404 | setting a resolvable occlusion texture, or removing it, changes only the occlusion slot and the strength (the texture's `strength`, else 1) |
| Materials.EmissiveTextureOverrideOnly | src/gl3GLTF.js:378-412 | setting a resolvable emissive texture, or removing it, changes only the emissive slot; the emissive factor is independent of it |
| SceneGraph.PrimitiveTypeName | src/gl3GLTF.js:280-291 | `PRIMITIVE_TYPE[mode]` is defined exactly for modes 0..6, and mode 4 is TRIANGLES |
| SceneGraph.AttributeKey | src/gl3GLTF.js:263-276 | a semantic outside `ATTRIBUTE_TYPE` (or missing) is stored under the key "undefined", and only such a semantic is (own names of `ATTRIBUTE_TYPE` only; inherited `Object.prototype` names are not modelled) |
| SceneGraph.AttributeKeyInjective | src/gl3GLTF.js:263-276 | distinct known semantics are stored under distinct keys |
| SceneGraph.AttributeMapKeys | src/gl3GLTF.js:316-319 | the keys of a primitive's attribute object are exactly the keys of its attributes |
| SceneGraph.AttributeMapLast | src/gl3GLTF.js:316-319 | when several attributes share a key, the last one wins and holds `parsedBuffers[accessor]` |
| SceneGraph.AttributeMapKeep | src/gl3GLTF.js:316-319 | a key that no remaining attribute writes keeps its value |
| SceneGraph.BuildPrimitive | src/gl3GLTF.js:312-459 | a primitive is built exactly when it has `attributes` and any material it names exists and resolves; a texture error arises only for a primitive with attributes and a material |
| SceneGraph.BuildPrimitiveShape | src/gl3GLTF.js:312-459 | a primitive without `attributes` throws; a dangling material index throws; on success the primitive type is `PRIMITIVE_TYPE[mode]`, indices are present exactly when `indices` is and are that parsed buffer, and a material (with its filing key) is present exactly when `material` is, resolved from `materials[material]` |
| SceneGraph.PrimitiveAttribute | src/gl3GLTF.js:316-319 | an attribute with a known semantic that occurs once is stored under its `ATTRIBUTE_TYPE` name with its accessor's parsed buffer |
| SceneGraph.PushAllAppend | src/gl3GLTF.js:454-459 | pushing two runs of entries is pushing the first and then the second |
| SceneGraph.PushAllAt | src/gl3GLTF.js:454-459 | after a run of pushes a name is present exactly when it was before or was pushed, and its list is the old list followed by the pushed values in order |
| SceneGraph.PushAllKeys | src/gl3GLTF.js:454-459 | the names after a run of pushes are the old names plus the pushed ones |
| SceneGraph.BuildPrimitivesKeepNodes | src/gl3GLTF.js:312-459 | the primitive loop leaves `data.nodes` unchanged |
| SceneGraph.BuildPrimitivesEffects | src/gl3GLTF.js:312-459 | the primitive loop keeps what it built, adds one primitive per entry, and appends each primitive's material exactly once, in primitive order |
| SceneGraph.BuildPrimitivesIgnoresNames | src/gl3GLTF.js:312-459 | the primitives built do not depend on what the name indexes held |
| SceneGraph.BuildNodeIgnoresNames | src/gl3GLTF.js:296-499 | the node tree built does not depend on what the name indexes held |
| SceneGraph.BuildChildrenIgnoresNames | src/gl3GLTF.js:483-497 | the children built do not depend on what the name indexes held |
| SceneGraph.BuildNode | src/gl3GLTF.js:296-499 | an exhausted depth bound fails; a built node copies name, matrix, translation, rotation and scale, has a mesh exactly when the JSON has one, and has one child per entry of its child list |
| SceneGraph.BuildChildren | src/gl3GLTF.js:483-497 | the child loop adds one child per remaining entry, and any entry outside `gltf.nodes` makes it throw |
| SceneGraph.BuildChildrenPrefix | src/gl3GLTF.js:483-497 | the child loop keeps the children already built in front and adds one child per remaining entry |
| SceneGraph.BuildChildrenMirror | src/gl3GLTF.js:483-497 | child j is the node the constructor builds from `gltf.nodes[list[j]]` |
| SceneGraph.BuildNodeMirror | src/gl3GLTF.js:296-499 | a built node copies name, matrix, translation, rotation and scale, has a mesh exactly when the JSON has one, and its children mirror its child list (a scene's non-empty `nodes`, else `children`) in order |
| SceneGraph.BuildNodeNames | src/gl3GLTF.js:463-497 | the constructor's side effects on `data.nodes` and `data.materials` are exactly the pushes of a traversal of the built tree: named nodes after their own subtree (post-order), each material once |
| SceneGraph.BuildChildrenNames | src/gl3GLTF.js:483-497 | the child loop's side effects on the name indexes are the traversals of the children it built, in order |
| SceneGraph.BuildPrimitivesNotTooDeep | src/gl3GLTF.js:312-459 | the primitive loop never fails for lack of depth |
| SceneGraph.BuildNodeNotTooDeep | src/gl3GLTF.js:296-499 | on a ranked (acyclic) hierarchy, a node whose children rank below the bound minus one never fails for lack of depth |
| SceneGraph.BuildChildrenNotTooDeep | src/gl3GLTF.js:483-497 | on a ranked hierarchy, a child loop whose remaining entries rank below the bound never fails for lack of depth |
| SceneGraph.AcyclicWithinBound | src/gl3GLTF.js:296-499 | on a hierarchy without cycles, any depth bound above `|gltf.nodes|` never yields `TooDeep`, so the bound decides only cyclic documents |
| Scenes.ScenesWithinBound | src/gl3GLTF.js:942-944 | on a hierarchy without cycles, building every scene with a depth bound above `|gltf.nodes|` never yields `TooDeep` |
| Scenes.BuildScenes | src/gl3GLTF.js:942-944 | the scene loop keeps the scenes built so far and adds at most one per entry; it succeeds exactly when it has built one scene per entry |
| Scenes.BuildScenesMirror | src/gl3GLTF.js:942-944 | after the scene loop there is one scene per entry of `scenes`, each the tree the constructor builds from it |
| Scenes.BuildScenesNames | src/gl3GLTF.js:942-944 | the name indexes hold exactly the traversal of all scenes, in order |
| Scenes.SceneData.constructor | src/gl3GLTF.js:938-941 | the `data` object starts with no scenes, empty name indexes and active scene 0 |
| Scenes.SceneData.BuildPrimitiveAt | src/gl3GLTF.js:312-459 | one primitive of a mesh, built by the attribute loop, is the primitive specified by `BuildPrimitive` |
| Scenes.SceneData.BuildMeshAt | src/gl3GLTF.js:308-461 | the mesh part of the constructor yields the specified primitives and updates `data.materials` as specified, leaving scenes, nodes and the active scene alone |
| Scenes.SceneData.NewGltfNode | src/gl3GLTF.js:296-499 | `new GLTFNode(current, data)` returns the specified tree and leaves the name indexes as the specification says |
| Scenes.SceneData.GetScene | src/gl3GLTF.js:918-945 | throws without touching `data` unless `scenes` is a non-empty array, `binaries` and `accessors` are non-empty and `images` is not an empty array; otherwise `activeScene` is `gltf.scene` or 0 and scenes and name indexes are those of the scene loop |
| Transform.InitialFrame | src/gl3GLTF.js:162-172 | the constructor's frame is clean, with the translation or the origin, the unit scaling of the code as written, the parent matrix or the identity, and a default matrix exactly when the node has `matrix` |
| Transform.ConstructedAtUnitScale | src/gl3GLTF.js:169 | whatever `scale` the document gives, a constructed node starts at unit scale |
| Transform.InitialScaling | src/gl3GLTF.js:169 | corrected: a node's scaling is its `scale` when present, else [1,1,1]; the constructor keeps the code as written |
| Transform.ScaleIgnoredAsWritten | src/gl3GLTF.js:169 | with the property misspelt `sclae`, some node with a `scale` gets a scaling other than that scale |
| Transform.SpawnedSettled | src/gl3GLTF.js:689-700 | a freshly generated node tree is consistent, clean and settled, every node was recomputed, and it has one child per JSON child |
| Transform.UpdateTree | src/gl3GLTF.js:215-253 | after an update the node is clean, holds the given parent matrix and keeps its children; a given view or projection is taken and a null one keeps the cached one; every child's parent matrix is this node's model matrix and it gets this node's view and projection |
| Transform.UpdateConsistent | src/gl3GLTF.js:215-253 | after `updateMatrix`, whatever the state before, every node in the tree is clean (flag false) and consistent: its derived matrices agree with its model, view and projection matrices, and each child holds this node's model, view and projection matrices. Freshness of the model matrices is `SettledUpdateFresh` |
| Transform.SettledUpdateFresh | src/gl3GLTF.js:215-253 | from a settled tree (every clean node's model matrix is its parent matrix times its local matrix and is its children's parent matrix), an update under the node's own parent matrix, or a forced one, leaves every model matrix its parent's times its local matrix |
| Transform.FreshConsistentSettled | src/gl3GLTF.js:215-253 | a tree that is consistent and fresh throughout is settled |
| Transform.UpdateKeepsSettled | src/gl3GLTF.js:215-253 | `updateMatrix` keeps the settled invariant, and its result is also fresh and consistent |
| Transform.ConsistentFixedPoint | src/gl3GLTF.js:215-253 | on a consistent tree, an unforced update with cached or equal view and projection changes nothing |
| Transform.UpdateIdempotent | src/gl3GLTF.js:215-253 | a second unforced update with the same arguments changes nothing |
| Transform.ForcedUpdateFresh | src/gl3GLTF.js:217-252 | a forced update, or one on a dirty node, recomputes every node of the subtree |
| Transform.CleanKeepsModel | src/gl3GLTF.js:217-230 | an unforced update of a clean tree keeps every model matrix |
| Transform.Node.constructor | src/gl3GLTF.js:162-187 | `new Node(node, parentMatrix, root)` records name and root flag and its state is the initial frame (unit scaling, as written) after the forced `updateMatrix(null, null, true)` |
| Transform.Node.SetPosition | src/gl3GLTF.js:188-196 | an argument of length 3 replaces the position and sets the dirty flag; anything else leaves the node unchanged; the settled invariant is kept |
| Transform.Node.SetRotate | src/gl3GLTF.js:197-205 | with an angle and an axis of length 3 the rotation becomes the quaternion for `angle` about the axis and the node is dirty; anything else leaves the node unchanged; the settled invariant is kept |
| Transform.Node.SetScale | src/gl3GLTF.js:206-214 | an argument of length 3 replaces the scaling and sets the dirty flag; anything else leaves the node unchanged; the settled invariant is kept |
| Transform.Node.RecomputeSelf | src/gl3GLTF.js:216-229 | the model matrix is recomputed exactly when dirty or forced, and the flag is left false |
| Transform.Node.DeriveSelf | src/gl3GLTF.js:231-247 | a null view or projection reuses the cached one, a given one is cached; the derived matrices follow |
| Transform.Node.RefreshSelf | src/gl3GLTF.js:215-247 | the node's own step of `updateMatrix`, and whether its children must be forced (dirty or forced) |
| Transform.Node.UpdateMatrix | src/gl3GLTF.js:215-253 | the new state of the node and its subtree is `UpdateTree` of the old one, which hands this node's model matrix to every child and forces them when it recomputed; from a settled tree the result is settled and every model matrix is its parent's times its local matrix |
| Transform.Node.UpdateChildren | src/gl3GLTF.js:248-251 | the child loop leaves the node's own frame alone and replaces each child, in place, by its update under this node's model matrix and the given view and projection |
| Transform.Node.AddChild | src/gl3GLTF.js:695-696 | a child is appended after the existing children; a settled child whose parent matrix is this node's model matrix (or added under a dirty node) keeps the tree settled |
| Transform.GenerateNode | src/gl3GLTF.js:689-700 | `generateNodeFromGltf` returns a fresh node whose tree is the generated tree of the scene node, children given the parent's model matrix; that tree is settled and every model matrix is its parent's times its local matrix |
| Transform.Generate | src/gl3GLTF.js:682-688 | `generate` yields one root node per scene, in order, each the generated tree of its scene |
| Paths.SegmentStart | src/gl3GLTF.js:614 | the last path segment starts after the last `/` (or at 0) and contains no `/` |
| Paths.MatchFileName | src/gl3GLTF.js:614 | `path.match(/[^\/]+(\.gltf\|\.glb)$/)` finds the leftmost suffix without `/` ending in `.gltf` or `.glb`, and finds nothing exactly when no suffix has that form |
| Paths.IndexFrom | src/gl3GLTF.js:618 | the search returns the first occurrence at or after the start, or none when there is no occurrence |
| Paths.RemoveFirst | src/gl3GLTF.js:618 | `replace` with a string pattern removes only the first occurrence, and leaves a string without one unchanged |
| Paths.DirectoryAsWritten | src/gl3GLTF.js:618 | `path.replace(fileName, '')` is as long as the path less the name when the name ends the path, and is the prefix before the name when the name first occurs at the end |
| Paths.Directory | src/gl3GLTF.js:618 | corrected: the directory is the path with the trailing file name removed, so directory + name is the path; the loaders keep the code as written |
| Paths.NameParts | src/gl3GLTF.js:614-625 | for a matched path, the directory is empty or ends in `/`, directory + name is the path, and the name ends in `.glb` exactly when the path does |
| Paths.AsWrittenWhenUnique | src/gl3GLTF.js:618 | when the file name occurs only at the end of the path, removing its first occurrence gives the correct directory |
| Paths.SampleName | src/gl3GLTF.js:614 | the file name matched in "ab.gltf/b.gltf" is "b.gltf" |
| Paths.SampleIndex | src/gl3GLTF.js:618 | "b.gltf" first occurs at index 1 of "ab.gltf/b.gltf" |
| Paths.AsWrittenMisplacesDirectory | src/gl3GLTF.js:618 | for "ab.gltf/b.gltf", removing the first occurrence of the name gives "a/b.gltf" instead of the directory "ab.gltf/" |
| Paths.StripSuffix | src/gl3GLTF.js:621-625 | removing a trailing extension gives a base name that, with the extension, is the name again; a name without it is unchanged |
| Paths.SplitPath | src/gl3GLTF.js:608-629 | null, non-strings and the empty string are invalid paths; a split records the full path, is binary exactly when the path ends in `.glb`, and its directory is as long as the path less the matched name |
| Paths.AsWrittenMisplacesRequest | src/gl3GLTF.js:616-662 | given "ab.gltf/b.gltf", the newer loader records directory "a/b.gltf" and base name "b", and asks for "a/b.gltf" followed by "b.gltf" |
| Paths.SplitAccepts | src/gl3GLTF.js:608-629 | `load` accepts exactly the strings with a suffix matching the file-name pattern; null, non-strings, the empty string and paths without such a last segment are rejected, in both loaders |
| Paths.Gl3RequestsPath | src/gl3GLTF.js:616-662 | the newer loader records the full path, its base name plus the extension is the matched name, and it asks for the computed directory followed by that name, which is the path it was given when the name first occurs at the path's end |
| Paths.LegacyRequestsPath | src/gltf.js:143-171 | the older loader strips only `.gltf`: it asks for directory + name for a `.gltf` path, and for a `.glb` path, whose `fileName` keeps `.glb`, for directory + name + `.glb`; when the name first occurs at the end, that is the given path, or the path with `.glb` appended again |
| Paths.Loader.constructor | src/gl3GLTF.js:571-581 | a new loader has empty `path`, `fullPath` and `fileName` |
| Paths.Loader.Load | src/gl3GLTF.js:605-635 | an invalid path is rejected before any field changes; otherwise `fullPath`, `path` and `fileName` are the path's parts as the code computes them (the directory with the first occurrence of the name removed) and the request is for the `.glb` or `.gltf` file |
| Legacy.GetKeys | src/gltf.js:594-610 | an array gives one key per element, a plain object one key per member, `null` or any other value null |
| Legacy.GetKeysComplete | src/gltf.js:594-610 | a key finds a value in an array or plain object exactly when its property name is the name of some key `getKeys` lists, and every listed key finds one |
| Legacy.GetKeysEmptyArray | src/gltf.js:597-601 | an empty array gives an empty key list |
| Legacy.ElementBytes | src/gltf.js:291-309 | bytes per element are the stride times the width of the component code's typed array (1, 2 or 4); 0 for a missing or unknown code |
| Legacy.AccessorSlice | src/gltf.js:286-313 | the buffer is looked up in `bin` by its property name, so `buffer: 0` finds `bin["0"]`; throws exactly when the accessor exists and `bufferViews` is `null`; otherwise an accessor gets bytes exactly when its view and the view's buffer exist; they are `bin[buffer].slice(k, k+j)` with k the two offsets and j the element width times `count`, empty when any of them is NaN |
| Legacy.AccessorSliceByName | src/gltf.js:286-313 | an accessor key and any key with the same property name (`0` and `"0"`) give the same slice |
| Legacy.SplitBinary | src/gltf.js:279-316 | null unless gltf, a plain-object `bin`, `accessors` and `bufferViews` are given; throws (a `TypeError`) exactly when `accessors` is neither array nor object, or when `bufferViews` is `null` and there is at least one accessor key; otherwise, under each key's property name, an accessor has an entry exactly when it is not skipped, holding its slice |
| Legacy.SplitStep | src/gltf.js:286-314 | one pass of the accessor loop keeps both loop facts: every stored entry is the slice of the accessor under that property name, and every key visited so far is stored or skipped |
| Legacy.SplitCovers | src/gltf.js:284-315 | after the loop, every key (array index or name) has its slice stored under its property name exactly when the accessor is not skipped |
| Legacy.IndexKind | src/gltf.js:348-365 | an index code gets a typed array exactly when it is 5120..5125, always Uint8, Uint16 or Uint32, of the width of that code |
| Legacy.DescribedPrimitive | src/gltf.js:335-403 | a described primitive lists its attribute names with one stride each, in order; has an index kind and length exactly when it has `indices`, the length being that accessor's count; its mode defaults to POINTS and its material index is `material` or null |
| Legacy.AbandonedPrimitive | src/gltf.js:348-369 | a primitive is abandoned exactly when its index accessor exists and has a code outside 5120..5125 |
| Legacy.DescribePrimitive | src/gltf.js:335-392 | a primitive without attributes is skipped; describing one throws exactly when an accessor it reaches is missing |
| Legacy.DescribeMesh | src/gltf.js:331-404 | a mesh throws exactly when its primitive list is missing or one of its primitives throws; an empty list gives null |
| Legacy.MeshEntriesIndependent | src/gltf.js:335-404 | a mesh's entry j is the description of its primitive j alone |
| Legacy.AttributeStrides | src/gltf.js:380-392 | the attribute loop yields the specified stride list |
| Legacy.DescribePrimitiveAt | src/gltf.js:336-403 | one primitive, built step by step, is the specified description |
| Legacy.DescribeMeshAt | src/gltf.js:331-404 | one mesh, built step by step, is the specified list of entries |
| Legacy.GenerateMesh | src/gltf.js:324-409 | null unless gltf, a plain-object `bin`, `nodes`, `meshes`, `accessors` and `bufferViews` are given; throws when `meshes` is neither array nor object; otherwise succeeds exactly when every mesh can be described, with one entry per mesh key, under its property name, holding that mesh's description |
| Legacy.AttributeStride | src/gltf.js:484-497 | the stride is 2, 3 or 4 exactly for FLOAT_VEC2, FLOAT_VEC3 and FLOAT_VEC4 and 1 otherwise |
| Legacy.TypedStridesLength | src/gltf.js:480-500 | the stride list is never longer than the attribute list, one stride per parameter that has a `type` |
| Legacy.TypedStridesAligned | src/gltf.js:480-500 | when every parameter has a type, stride j is that of attribute j |
| Legacy.TypedStridesAppend | src/gltf.js:480-500 | each attribute appends its stride only when its parameter has a type |
| Legacy.AttributeStrideList | src/gltf.js:480-500 | the attribute loop yields the specified stride list |
| Legacy.UniformTypeFrom | src/gltf.js:510-517 | the search over the uniform-type table finds a suffix exactly when some entry has the parameter's code, and returns that entry's suffix |
| Legacy.UniformCodesDistinct | src/gltf.js:103-124 | no two entries of the uniform-type table share a code |
| Legacy.IntUniformUntyped | src/gltf.js:103-124 | INT has no uniform type |
| Legacy.FloatUniformTyped | src/gltf.js:103-124 | FLOAT has uniform type "1f" |
| Legacy.UniformTypeLookup | src/gltf.js:510-517 | the table scan for one parameter yields the specified uniform type |
| Legacy.UniformTypesAsWritten | src/gltf.js:503-516 | as written, the type list is never longer than the uniform list |
| Legacy.UniformTypesAsWrittenPresent | src/gltf.js:503-516 | as written, the type list is the aligned per-uniform list with its holes closed up: each type moves forward past every untyped uniform before it |
| Legacy.UniformTypesMisaligned | src/gltf.js:503-516 | for uniforms typed [INT, FLOAT] the list as written is ["1f"]: FLOAT's type lands at INT's position |
| Legacy.UniformTypes | src/gltf.js:503-516 | corrected: one entry per uniform, entry j being uniform j's type or none |

## Left out

- Network access and the Promise orchestration of `load`, `fetchGltf`, `fetchGlb`, `parse` and `fetch` are not modelled: they are I/O and asynchronous sequencing. Fetched bytes and parsed JSON are parameters, and `load` returns the request it would issue.
- Image decoding through `Blob`, `Image` and object URLs is not modelled, being browser I/O. Images are an input sequence of opaque handles.
- `JSON.parse` and `String.fromCharCode` are not modelled: JSON documents are Dafny records and the JSON chunk stays bytes.
- The `Mesh` class, every WebGL call (`createBuffer`, `bufferData`, textures) and the typed-array objects `generateMesh` creates are not modelled. Those constructors' `RangeError` on misaligned buffers is therefore not captured; the descriptors carry the index kind instead.
- The numerics of `mat4`, `qtn` and `vec3` are not modelled: they are floating point in a library outside this code. Matrices are terms, so only which matrices are combined and cached is proved.
- Transform.Node: descendants are values (`Tree`) held in a `seq`, not `Node` objects. Aliasing between the flat `gltfNode` list and each node's `children`, and in-place updates through such aliases, are not captured.
- Transform.Generate: the flat `this.gltfNode` list is not kept; only the returned roots and their trees are.
- SceneGraph.BuildNode: a `fuel` depth bound stands for the JavaScript call stack. A node graph with a cycle, or deeper than the bound, ends in an error rather than a stack overflow. `AcyclicWithinBound` shows that a bound above `|gltf.nodes|` never decides an acyclic document.
- `nodes` or `children` that are not arrays are not modelled on the renderer side: its documents are typed records with array fields.
- Bytes are a `Byte` newtype over 0..255 rather than `bv8`. The values are the same.
- Legacy `generateProgram` is modelled only through its two lists, attribute strides and uniform types. The walk over techniques and programs, `states`, values, semantics, nodes and shader URIs is not modelled: it copies fields. A missing technique or parameter record, which throws a `TypeError`, is also not modelled.
- `generateAnimation` and `generateMaterial` of the older loader are not modelled: the first only re-wraps bytes and the second is empty.
- BufferViews.AccessorView: the accessor's `min` and `max`, which `parse` copies into each parsed buffer, are not carried: they are passed through unread.
- Glb.CarveBuffers: byte lengths are naturals, so a buffer without `byteLength` is not expressed. In the code its `NaN` moves the cursor to `NaN`, making that buffer and every later one empty.
- JsValues.Lookup: `Object.keys` lists a plain object's integer-like names first, in ascending order, then the others in insertion order; `Legacy.GetKeys` and the attribute lists keep insertion order. The results of `Legacy.SplitBinary` and `Legacy.GenerateMesh` are maps and every failure is the same `TypeError`, so the order does not show there. It does show in the order of a described primitive's `attributeName` (src/gltf.js:379) and in which of two unknown semantics wins the "undefined" key (src/gl3GLTF.js:316), when an attribute semantic is a numeral.
- JsValues.Lookup: a `JsObject` may list a member name twice, which a parsed JSON object cannot. A lookup then takes the first such member. That choice is arbitrary, and no lemma of the model assumes the names are distinct.
- JsValues.Collection: a string standing where the older loader expects a table is `JsOther`, and indexing it answers `undefined`. In JavaScript, `"abc"[0]` is `"a"`, whose fields are then `undefined`; that character indexing is not modelled.
- SceneGraph.AttributeKey: lookups in `ATTRIBUTE_TYPE`, `STRIDE_TYPE` and the other constant tables see only the tables' own names. Names inherited from `Object.prototype` (`constructor`, `toString`, `__proto__` and the like) yield functions or objects in JavaScript rather than `undefined`; that is not modelled, so such a semantic or type counts as unknown here.
- SceneGraph.BuildNodeNames: a node or material named `__proto__` or `hasOwnProperty` is recorded like any other name. In JavaScript, `data.nodes["__proto__"] = []` replaces the index's prototype instead of adding a member, and a member named `hasOwnProperty` makes the next `hasOwnProperty` call throw (src/gl3GLTF.js:456-459, 488-493).
- Console logging, `isConsoleOutput` and the `window` globals are not modelled: they have no effect on the data.

## Findings

The loaders as modelled keep the first two defects as written; the corrected definitions stand
beside them with their intended property proved. For the third, the uniform list the model
builds is the corrected one.

| source | as written | input that shows it | evidently intended | confidence | as-written member | corrected member |
|---|---|---|---|---|---|---|
| src/gl3GLTF.js:169 | the scaling is taken from `node.scale` only when `node.sclae` (a misspelling) is present, so it is always [1,1,1] | a node with `scale: [2,2,2]` | use `node.scale` when present, else [1,1,1] | high, not executed | Transform.ScaleIgnoredAsWritten | Transform.InitialScaling |
| src/gl3GLTF.js:618 | the directory is the path with the FIRST occurrence of the file name removed | "ab.gltf/b.gltf" gives directory "a/b.gltf" and a request for "a/b.gltfb.gltf" | remove the trailing file name, giving "ab.gltf/" | high, not executed | Paths.AsWrittenMisplacesDirectory | Paths.NameParts |
| src/gltf.js:510-517 | a uniform type is pushed only when the parameter's code is in the table, so the list falls out of step with `uniformName` | uniforms typed [INT, FLOAT] give ["1f"], placing FLOAT's type at INT's index | one entry per uniform, aligned by index | medium, not executed | Legacy.UniformTypesMisaligned | Legacy.UniformTypes |

=== FILE: bufferviews.dfy ===
/**
 * Buffer-view and accessor resolution of the current loader (section 3.6.2, "Accessors", of
 * the Khronos glTF 2.0 specification): `splitBinary` copies one byte range per buffer view out
 * of the fetched buffers, and the accessor loop of `parse` lays a typed-array view over the
 * range of each accessor.
 */
module BufferViews {
  import opened Wrappers
  import opened JsValues
  import opened Tables
  import opened GltfDoc

  /** What `splitBinary` stores per buffer view: the (rewritten) view record and its bytes. */
  datatype BinaryEntry = BinaryEntry(bufferView: BufferViewJson, arrayBuffer: Bytes)

  /** The exceptions the two loops can throw. */
  datatype ParseError =
    | MissingBuffer      // `bin[v.buffer]` is undefined: TypeError on `.slice`
    | MissingBinary      // `data.binaries` is null or has no entry for the accessor's view: TypeError
    | NotAConstructor    // an unknown component type selects `null`: TypeError on `new`
    | MisalignedOffset   // the accessor offset is not a multiple of the element size: RangeError
    | ViewOutOfBounds    // the view runs past the end of the bytes: RangeError

  /** A buffer view after `splitBinary` has written a default `byteOffset` of 0 into it. */
  function WithOffset(v: BufferViewJson): (w: BufferViewJson)
    ensures w.byteOffset == Some(v.byteOffset.GetOr(0))
    ensures w.buffer == v.buffer && w.byteLength == v.byteLength
    ensures v.byteOffset.Some? ==> w == v
  {
    v.(byteOffset := Some(v.byteOffset.GetOr(0)))
  }

  /** The bytes of view `v` in buffer `buf`: `buf.slice(offset, offset + byteLength)`. */
  function ViewBytes(buf: Bytes, v: BufferViewJson): Bytes {
    var offset := v.byteOffset.GetOr(0);
    ArrayBufferSlice(buf, Some(offset), NumAdd(Some(offset), v.byteLength))
  }

  /** A view that lies inside its buffer is exactly its byte range, of its declared length. */
  lemma ViewBytesInRange(buf: Bytes, v: BufferViewJson)
    requires v.byteLength.Some? && v.byteOffset.GetOr(0) + v.byteLength.value <= |buf|
    ensures |ViewBytes(buf, v)| == v.byteLength.value
    ensures ViewBytes(buf, v) == buf[v.byteOffset.GetOr(0)..v.byteOffset.GetOr(0) + v.byteLength.value]
  {
  }

  /** With no `byteOffset` and a length `n` within the buffer, the view is the first `n` bytes. */
  lemma ViewBytesDefaultOffset(buf: Bytes, v: BufferViewJson)
    requires v.byteOffset.None? && v.byteLength.Some? && v.byteLength.value <= |buf|
    ensures ViewBytes(buf, v) == buf[..v.byteLength.value]
  {
  }

  /** A view without `byteLength` slices to `NaN`, which clamps to an empty range. */
  lemma ViewBytesNoLength(buf: Bytes, v: BufferViewJson)
    requires v.byteLength.None?
    ensures ViewBytes(buf, v) == []
  {
  }

  /** Writing the default offset back does not change what the view selects. */
  lemma ViewBytesWrittenBack(buf: Bytes, v: BufferViewJson)
    ensures ViewBytes(buf, WithOffset(v)) == ViewBytes(buf, v)
    ensures WithOffset(WithOffset(v)) == WithOffset(v)
  {
  }

  /** The guards of `splitBinary`: a document, an array `bin`, and both `accessors` and `bufferViews`. */
  predicate SplitGuard(gltf: Option<Gltf>, bin: BinArg) {
    gltf.Some? && bin.BinArray? && gltf.value.accessors.Some? && gltf.value.bufferViews.Some?
  }

  /** The view list with the first `n` views rewritten by `WithOffset`. */
  function RewrittenUpTo(views: seq<BufferViewJson>, n: nat): (r: seq<BufferViewJson>)
    ensures |r| == |views|
    ensures forall i :: 0 <= i < |views| ==> r[i] == if i < n then WithOffset(views[i]) else views[i]
  {
    seq(|views|, i requires 0 <= i < |views| => if i < n then WithOffset(views[i]) else views[i])
  }

  /**
   * `splitBinary`: one entry per buffer view, in order, each the view's byte range of its
   * buffer. A missing `byteOffset` is set to 0 in the document before the slice is taken, so
   * `written` is the document as the loop leaves it, also when a missing buffer throws.
   */
  method SplitBinary(gltf: Option<Gltf>, bin: BinArg) returns (r: Result<Option<seq<BinaryEntry>>, ParseError>, written: Option<Gltf>)
    ensures !SplitGuard(gltf, bin) ==> r == Success(None) && written == gltf
    ensures SplitGuard(gltf, bin) ==>
      var views := gltf.value.bufferViews.value;
      (r.Success? <==> forall i :: 0 <= i < |views| ==> views[i].buffer < |bin.buffers|)
    ensures SplitGuard(gltf, bin) && r.Success? ==>
      var views := gltf.value.bufferViews.value;
      && r.value.Some? && |r.value.value| == |views|
      && (forall i :: 0 <= i < |views| ==>
            r.value.value[i] == BinaryEntry(WithOffset(views[i]), ViewBytes(bin.buffers[views[i].buffer], views[i])))
      && written == Some(gltf.value.(bufferViews := Some(RewrittenUpTo(views, |views|))))
    ensures r.Failure? ==>
      var views := gltf.value.bufferViews.value;
      && SplitGuard(gltf, bin) && r.error == MissingBuffer
      && (exists k :: 0 <= k < |views| && views[k].buffer >= |bin.buffers|
           && (forall j :: 0 <= j < k ==> views[j].buffer < |bin.buffers|)
           && written == Some(gltf.value.(bufferViews := Some(RewrittenUpTo(views, k + 1)))))
  {
    if !SplitGuard(gltf, bin) {
      return Success(None), gltf;
    }
    var views := gltf.value.bufferViews.value;
    var buffers := bin.buffers;
    var current := views;
    var binaries: seq<BinaryEntry> := [];
    var i := 0;
    while i < |views|
      invariant 0 <= i <= |views|
      invariant current == RewrittenUpTo(views, i)
      invariant |binaries| == i
      invariant forall j :: 0 <= j < i ==> views[j].buffer < |buffers|
      invariant forall j :: 0 <= j < i ==>
        binaries[j] == BinaryEntry(WithOffset(views[j]), ViewBytes(buffers[views[j].buffer], views[j]))
    {
      var v := views[i];
      if v.byteOffset.None? {
        v := v.(byteOffset := Some(0));
      }
      current := current[i := v];
      assert current == RewrittenUpTo(views, i + 1);
      if v.buffer >= |buffers| {
        return Failure(MissingBuffer), Some(gltf.value.(bufferViews := Some(current)));
      }
      binaries := binaries + [BinaryEntry(v, ArrayBufferSlice(buffers[v.buffer], v.byteOffset, NumAdd(v.byteOffset, v.byteLength)))];
      i := i + 1;
    }
    return Success(Some(binaries)), Some(gltf.value.(bufferViews := Some(current)));
  }

  /** A typed-array view: its constructor, its element count, and the bytes it covers. */
  datatype TypedArray = TypedArray(kind: TypedKind, length: nat, bytes: Bytes)

  /** A `parsedBuffers` entry: the view plus the accessor members copied beside it. */
  datatype ParsedBuffer = ParsedBuffer(data: TypedArray, componentType: int, elementType: Option<string>, count: Option<nat>)

  /** `v.count * STRIDE_TYPE[v.type]`, where `NaN` becomes a length of 0 in the typed-array constructor. */
  function ElementCount(a: AccessorJson): (n: nat)
    ensures a.count.Some? && a.elementType.Some? && StrideOf(a.elementType.value).Some? ==>
      n == a.count.value * StrideOf(a.elementType.value).value
    ensures a.count.None? || a.elementType.None? || StrideOf(a.elementType.value).None? ==> n == 0
  {
    var stride := if a.elementType.Some? then StrideOf(a.elementType.value) else None;
    NumMul(a.count, stride).GetOr(0)
  }

  /** The accessor's view was carved and its component code names a typed-array constructor. */
  predicate ViewFound(binaries: Option<seq<BinaryEntry>>, a: AccessorJson) {
    && binaries.Some? && a.bufferView.Some? && a.bufferView.value < |binaries.value|
    && TypedArrayFor(a.componentType).Some?
  }

  /** The accessor's byte offset is a multiple of its element size. */
  predicate OffsetAligned(a: AccessorJson)
    requires TypedArrayFor(a.componentType).Some?
  {
    a.byteOffset.GetOr(0) % BytesPerElement(TypedArrayFor(a.componentType).value) == 0
  }

  /** The accessor's elements end within its view's buffer. */
  predicate ViewFits(binaries: Option<seq<BinaryEntry>>, a: AccessorJson)
    requires ViewFound(binaries, a)
  {
    a.byteOffset.GetOr(0) + ElementCount(a) * BytesPerElement(TypedArrayFor(a.componentType).value)
      <= |binaries.value[a.bufferView.value].arrayBuffer|
  }

  /**
   * One step of the accessor loop of `parse`: `new func(binaries[bufferView].arrayBuffer,
   * byteOffset or 0, count * stride)`. The arguments are evaluated before `func` is found
   * not to be a constructor, and the typed-array constructor checks alignment before bounds.
   */
  function AccessorView(binaries: Option<seq<BinaryEntry>>, a: AccessorJson): (r: Result<ParsedBuffer, ParseError>)
    ensures r.Failure? && r.error == MissingBinary <==>
      binaries.None? || a.bufferView.None? || a.bufferView.value >= |binaries.value|
    ensures r.Failure? && r.error == NotAConstructor <==>
      binaries.Some? && a.bufferView.Some? && a.bufferView.value < |binaries.value| &&
      TypedArrayFor(a.componentType).None?
    ensures r.Failure? && r.error == MisalignedOffset <==> ViewFound(binaries, a) && !OffsetAligned(a)
    ensures r.Failure? && r.error == ViewOutOfBounds <==>
      ViewFound(binaries, a) && OffsetAligned(a) && !ViewFits(binaries, a)
    ensures r.Success? <==> ViewFound(binaries, a) && OffsetAligned(a) && ViewFits(binaries, a)
    ensures r.Success? ==>
      var buf := binaries.value[a.bufferView.value].arrayBuffer;
      var begin := a.byteOffset.GetOr(0);
      var kind := r.value.data.kind;
      && CodeOf(kind) == a.componentType
      && r.value.data.length == ElementCount(a)
      && begin % BytesPerElement(kind) == 0
      && begin + ElementCount(a) * BytesPerElement(kind) <= |buf|
      && |r.value.data.bytes| == ElementCount(a) * BytesPerElement(kind)
      && r.value.data.bytes == buf[begin..begin + ElementCount(a) * BytesPerElement(kind)]
      && r.value.componentType == a.componentType && r.value.elementType == a.elementType
      && r.value.count == a.count
  {
    if binaries.None? || a.bufferView.None? || a.bufferView.value >= |binaries.value| then Failure(MissingBinary)
    else
      match TypedArrayFor(a.componentType)
      case None => Failure(NotAConstructor)
      case Some(kind) =>
        var buf := binaries.value[a.bufferView.value].arrayBuffer;
        var begin := a.byteOffset.GetOr(0);
        var size := BytesPerElement(kind);
        if begin % size != 0 then Failure(MisalignedOffset)
        else if begin + ElementCount(a) * size > |buf| then Failure(ViewOutOfBounds)
        else Success(ParsedBuffer(TypedArray(kind, ElementCount(a), buf[begin..begin + ElementCount(a) * size]),
          a.componentType, a.elementType, a.count))
  }

  /** A known element type with a count always yields `count * components` elements when the view fits. */
  lemma AccessorLength(binaries: Option<seq<BinaryEntry>>, a: AccessorJson, e: ElementType)
    requires a.elementType == Some(ElementTypeName(e)) && a.count.Some?
    requires AccessorView(binaries, a).Success?
    ensures AccessorView(binaries, a).value.data.length == a.count.value * Components(e)
  {
    ParseElementTypeName(e);
  }

  /** A byte-typed accessor never fails on alignment: every offset is a multiple of 1. */
  lemma ByteAccessorsAligned(binaries: Option<seq<BinaryEntry>>, a: AccessorJson)
    requires a.componentType == BYTE || a.componentType == UNSIGNED_BYTE
    ensures AccessorView(binaries, a) != Failure(MisalignedOffset)
  {
  }

  /**
   * The accessor loop of `parse`: when the document has a non-empty `accessors` list, one
   * parsed buffer per accessor in order, the first failing accessor aborting the loop.
   */
  method ParseAccessors(accessors: Option<seq<AccessorJson>>, binaries: Option<seq<BinaryEntry>>)
    returns (r: Result<Option<seq<ParsedBuffer>>, ParseError>)
    ensures accessors.None? || |accessors.value| == 0 ==> r == Success(None)
    ensures accessors.Some? && |accessors.value| > 0 ==>
      (r.Success? <==> forall i :: 0 <= i < |accessors.value| ==> AccessorView(binaries, accessors.value[i]).Success?)
    ensures r.Success? && r.value.Some? ==>
      && |r.value.value| == |accessors.value|
      && forall i :: 0 <= i < |accessors.value| ==> r.value.value[i] == AccessorView(binaries, accessors.value[i]).value
    ensures r.Failure? ==>
      exists k :: 0 <= k < |accessors.value| &&
        AccessorView(binaries, accessors.value[k]) == Failure(r.error) &&
        forall j :: 0 <= j < k ==> AccessorView(binaries, accessors.value[j]).Success?
  {
    if accessors.None? || |accessors.value| == 0 {
      return Success(None);
    }
    var list := accessors.value;
    var parsed: seq<ParsedBuffer> := [];
    var i := 0;
    while i < |list|
      invariant 0 <= i <= |list|
      invariant |parsed| == i
      invariant forall j :: 0 <= j < i ==> AccessorView(binaries, list[j]).Success?
      invariant forall j :: 0 <= j < i ==> parsed[j] == AccessorView(binaries, list[j]).value
    {
      var a := list[i];
      var begin := if a.byteOffset.Some? then a.byteOffset.value else 0;
      var func := TypedArrayFor(a.componentType);
      if binaries.None? || a.bufferView.None? || a.bufferView.value >= |binaries.value| {
        return Failure(MissingBinary);
      }
      var buf := binaries.value[a.bufferView.value].arrayBuffer;
      var length := ElementCount(a);
      if func.None? {
        return Failure(NotAConstructor);
      }
      var size := BytesPerElement(func.value);
      if begin % size != 0 {
        return Failure(MisalignedOffset);
      }
      if begin + length * size > |buf| {
        return Failure(ViewOutOfBounds);
      }
      parsed := parsed + [ParsedBuffer(TypedArray(func.value, length, buf[begin..begin + length * size]),
        a.componentType, a.elementType, a.count)];
      i := i + 1;
    }
    return Success(Some(parsed));
  }
}

=== FILE: glb.dfy ===
/**
 * The binary glTF container (chapter 4, "GLB File Format Specification", of the Khronos
 * glTF 2.0 specification) as `getChunkInGlb` and `fetchGlb` read it: a 12-byte header
 * (magic, version, total length), a first chunk header (length, type) at bytes 12..19, the
 * JSON text from byte 20, and the buffers carved one after another from 8 bytes past the
 * end of the JSON chunk (the second chunk's own length and type words are skipped).
 */
module Glb {
  import opened Wrappers
  import opened JsValues

  const TWO_32: nat := 0x1_0000_0000

  /** A little-endian `uint32` at byte `off`, as a `Uint32Array` view reads it. */
  function U32At(s: Bytes, off: nat): (n: nat)
    requires off + 4 <= |s|
    ensures n < TWO_32
  {
    s[off] as nat + 0x100 * (s[off + 1] as nat) + 0x1_0000 * (s[off + 2] as nat)
      + 0x100_0000 * (s[off + 3] as nat)
  }

  /** The four little-endian bytes of a `uint32`. */
  function U32Bytes(n: nat): (r: Bytes)
    requires n < TWO_32
    ensures |r| == 4
  {
    [(n % 0x100) as Byte, (n / 0x100 % 0x100) as Byte, (n / 0x1_0000 % 0x100) as Byte, (n / 0x100_0000) as Byte]
  }

  lemma U32RoundTrip(n: nat)
    requires n < TWO_32
    ensures U32At(U32Bytes(n), 0) == n
  {
    var b := U32Bytes(n);
    assert b[0] as nat == n % 0x100;
    assert b[1] as nat == n / 0x100 % 0x100;
    assert b[2] as nat == n / 0x1_0000 % 0x100;
    assert b[3] as nat == n / 0x100_0000;
    assert n / 0x1_0000 == n / 0x100 / 0x100;
    assert n / 0x100_0000 == n / 0x1_0000 / 0x100;
  }

  /** Reading a word depends only on the four bytes it covers. */
  lemma U32AtWindow(s: Bytes, off: nat, t: Bytes)
    requires off + 4 <= |s| && s[off..off + 4] == t
    ensures U32At(s, off) == U32At(t, 0)
  {
    assert forall i :: 0 <= i < 4 ==> s[off + i] == t[i];
  }

  /** `toLowerCase` on a character decoded from one byte: only `A`..`Z` change. */
  function LowerAscii(b: Byte): Byte {
    if 0x41 <= b <= 0x5A then b + 0x20 else b
  }

  /** The four bytes at `off`, decoded one character per byte and lower-cased, spell `lit`. */
  predicate LowerMatches(s: Bytes, off: nat, lit: string)
    requires off + |lit| <= |s|
  {
    forall i :: 0 <= i < |lit| ==> LowerAscii(s[off + i]) as int == lit[i] as int
  }

  /** The tag check ignores case: a lower-case literal is matched by each of its letters in either case, and by nothing else. */
  lemma LowerMatchesEitherCase(s: Bytes, off: nat, lit: string)
    requires off + |lit| <= |s|
    requires forall i :: 0 <= i < |lit| ==> 'a' <= lit[i] <= 'z'
    ensures LowerMatches(s, off, lit) <==>
      forall i :: 0 <= i < |lit| ==> s[off + i] as int == lit[i] as int || s[off + i] as int == lit[i] as int - 0x20
  {
  }

  datatype GlbError =
    | NullGlb             // `data == null`
    | OutOfRange          // a typed-array view past the end of the buffer (a RangeError)
    | InvalidChunkData    // magic is not "gltf" or the first chunk is not "json", ignoring case
    | UnsupportedVersion(version: nat)
    | InvalidChunkLength  // the JSON chunk length is 0
    | NoBuffers           // the parsed JSON has no `buffers` member

  /** What `getChunkInGlb` returns; `json` itself is left to `JSON.parse` on `chunk`. */
  datatype GlbChunk = GlbChunk(
    magic: Bytes,
    version: nat,
    length: nat,
    chunk: Bytes,
    chunkLength: nat,
    bufferBegin: nat,
    chunkType: Bytes,
    data: Bytes)

  /**
   * `getChunkInGlb`. All five header views are taken before any check, so a buffer shorter
   * than 20 bytes fails with a RangeError first; then magic and chunk type are checked
   * together, then the version, then the chunk length, and last the JSON view must fit.
   */
  function GetChunkInGlb(data: Option<Bytes>): (r: Result<GlbChunk, GlbError>)
    ensures data.None? ==> r == Failure(NullGlb)
    ensures data.Some? && |data.value| < 20 ==> r == Failure(OutOfRange)
    ensures r.Success? <==>
      && data.Some? && |data.value| >= 20
      && LowerMatches(data.value, 0, "gltf") && LowerMatches(data.value, 16, "json")
      && U32At(data.value, 4) == 2
      && U32At(data.value, 12) != 0
      && 20 + U32At(data.value, 12) <= |data.value|
    ensures r.Success? ==>
      && r.value.version == U32At(data.value, 4)
      && r.value.length == U32At(data.value, 8)
      && r.value.chunkLength == U32At(data.value, 12)
      && r.value.chunk == data.value[20..20 + r.value.chunkLength]
      && r.value.bufferBegin == 20 + r.value.chunkLength
      && r.value.data == data.value
  {
    if data.None? then Failure(NullGlb)
    else
      var d := data.value;
      if |d| < 20 then Failure(OutOfRange)
      else if !LowerMatches(d, 0, "gltf") || !LowerMatches(d, 16, "json") then Failure(InvalidChunkData)
      else if U32At(d, 4) != 2 then Failure(UnsupportedVersion(U32At(d, 4)))
      else if U32At(d, 12) == 0 then Failure(InvalidChunkLength)
      else if 20 + U32At(d, 12) > |d| then Failure(OutOfRange)
      else
        var chunkLength := U32At(d, 12);
        Success(GlbChunk(d[0..4], U32At(d, 4), U32At(d, 8), d[20..20 + chunkLength], chunkLength,
          20 + chunkLength, d[16..20], d))
  }

  /**
   * The checks run in the source's order: a bad magic, or a good magic with a bad chunk type,
   * wins over a bad version, which wins over a zero length.
   */
  lemma GlbErrorPrecedence(d: Bytes)
    requires |d| >= 20
    ensures !LowerMatches(d, 0, "gltf") ==> GetChunkInGlb(Some(d)) == Failure(InvalidChunkData)
    ensures LowerMatches(d, 0, "gltf") && !LowerMatches(d, 16, "json") ==>
      GetChunkInGlb(Some(d)) == Failure(InvalidChunkData)
    ensures LowerMatches(d, 0, "gltf") && LowerMatches(d, 16, "json") && U32At(d, 4) != 2 ==>
      GetChunkInGlb(Some(d)) == Failure(UnsupportedVersion(U32At(d, 4)))
    ensures LowerMatches(d, 0, "gltf") && LowerMatches(d, 16, "json") && U32At(d, 4) == 2 && U32At(d, 12) == 0 ==>
      GetChunkInGlb(Some(d)) == Failure(InvalidChunkLength)
  {
  }

  const MAGIC: Bytes := [0x67, 0x6C, 0x54, 0x46]     // "glTF"
  const JSON_TAG: Bytes := [0x4A, 0x53, 0x4F, 0x4E]  // "JSON"
  const BIN_TAG: Bytes := [0x42, 0x49, 0x4E, 0x00]   // "BIN\0"

  /** The 20 bytes before the JSON text: magic, version 2, total length, chunk length, "JSON". */
  function GlbHeader(jsonLength: nat, totalLength: nat): (r: Bytes)
    requires jsonLength < TWO_32 && totalLength < TWO_32
    ensures |r| == 20
  {
    MAGIC + U32Bytes(2) + U32Bytes(totalLength) + U32Bytes(jsonLength) + JSON_TAG
  }

  /** A version-2 container holding `json` as its first chunk and `bin` as its second. */
  function EncodeGlb(json: Bytes, bin: Bytes): (r: Bytes)
    requires 28 + |json| + |bin| < TWO_32
    ensures |r| == 28 + |json| + |bin|
  {
    GlbHeader(|json|, 28 + |json| + |bin|) + json + (U32Bytes(|bin|) + BIN_TAG + bin)
  }

  lemma HeaderWords(jsonLength: nat, totalLength: nat)
    requires jsonLength < TWO_32 && totalLength < TWO_32
    ensures var h := GlbHeader(jsonLength, totalLength);
      && LowerMatches(h, 0, "gltf") && LowerMatches(h, 16, "json")
      && U32At(h, 4) == 2 && U32At(h, 8) == totalLength && U32At(h, 12) == jsonLength
  {
    var h := GlbHeader(jsonLength, totalLength);
    assert h[0..4] == MAGIC && h[16..20] == JSON_TAG;
    assert h[4..8] == U32Bytes(2);
    assert h[8..12] == U32Bytes(totalLength);
    assert h[12..16] == U32Bytes(jsonLength);
    U32AtWindow(h, 4, U32Bytes(2));
    U32AtWindow(h, 8, U32Bytes(totalLength));
    U32AtWindow(h, 12, U32Bytes(jsonLength));
    U32RoundTrip(2);
    U32RoundTrip(totalLength);
    U32RoundTrip(jsonLength);
  }

  /** The header checks only look at the first 20 bytes. */
  lemma HeaderPrefix(d: Bytes, h: Bytes)
    requires |h| == 20 && |d| >= 20 && d[..20] == h
    ensures LowerMatches(d, 0, "gltf") == LowerMatches(h, 0, "gltf")
    ensures LowerMatches(d, 16, "json") == LowerMatches(h, 16, "json")
    ensures U32At(d, 4) == U32At(h, 4) && U32At(d, 8) == U32At(h, 8) && U32At(d, 12) == U32At(h, 12)
  {
    assert forall i :: 0 <= i < 20 ==> d[i] == h[i];
  }

  /** Reading back an encoded container recovers the JSON chunk and locates the binary chunk's payload. */
  lemma GlbRoundTrip(json: Bytes, bin: Bytes)
    requires |json| > 0 && 28 + |json| + |bin| < TWO_32
    ensures GetChunkInGlb(Some(EncodeGlb(json, bin))).Success?
    ensures var c := GetChunkInGlb(Some(EncodeGlb(json, bin))).value;
      && c.version == 2
      && c.chunk == json
      && c.chunkLength == |json|
      && c.length == |EncodeGlb(json, bin)|
      && c.data[8 + c.bufferBegin..] == bin
  {
    var d := EncodeGlb(json, bin);
    var h := GlbHeader(|json|, 28 + |json| + |bin|);
    assert d[..20] == h;
    HeaderWords(|json|, 28 + |json| + |bin|);
    HeaderPrefix(d, h);
    assert d[20..20 + |json|] == json;
    assert d[28 + |json|..] == bin;
  }

  /** A container whose magic reads "glTX" is refused before any JSON is read. */
  lemma RejectsWrongMagic(d: Bytes)
    requires |d| >= 20 && d[0..4] == [0x67, 0x6C, 0x54, 0x58]
    ensures GetChunkInGlb(Some(d)) == Failure(InvalidChunkData)
  {
    assert LowerAscii(d[3]) as int != "gltf"[3] as int;
  }

  /** The sum of the first `n` lengths. */
  function PrefixSum(s: seq<nat>, n: nat): nat
    requires n <= |s|
  {
    if n == 0 then 0 else PrefixSum(s, n - 1) + s[n - 1]
  }


  lemma {:induction false} PrefixSumMonotone(s: seq<nat>, i: nat, j: nat)
    requires i <= j <= |s|
    ensures PrefixSum(s, i) <= PrefixSum(s, j)
    decreases j
  {
    if i < j {
      PrefixSumMonotone(s, i, j - 1);
    }
  }

  /** Where `fetchGlb` starts buffer `i`: 8 bytes past the JSON chunk, plus the earlier buffers' lengths. */
  function BufferStart(bufferBegin: nat, byteLengths: seq<nat>, i: nat): nat
    requires i <= |byteLengths|
  {
    8 + bufferBegin + PrefixSum(byteLengths, i)
  }

  /** Buffer `i` as `fetchGlb` slices it: `byteLength` bytes from its start, clamped to the container. */
  function CarvedBuffer(data: Bytes, bufferBegin: nat, byteLengths: seq<nat>, i: nat): Bytes
    requires i < |byteLengths|
  {
    ArrayBufferSlice(data, Some(BufferStart(bufferBegin, byteLengths, i)),
      Some(BufferStart(bufferBegin, byteLengths, i) + byteLengths[i]))
  }

  /** The first `n` buffers carved in order. */
  function CarvedPrefix(data: Bytes, bufferBegin: nat, byteLengths: seq<nat>, n: nat): (r: seq<Bytes>)
    requires n <= |byteLengths|
    ensures |r| == n
  {
    if n == 0 then [] else CarvedPrefix(data, bufferBegin, byteLengths, n - 1) + [CarvedBuffer(data, bufferBegin, byteLengths, n - 1)]
  }

  /** Buffer `i` of any longer carving is the slice at its own start offset. */
  lemma {:induction false} CarvedPrefixAt(data: Bytes, bufferBegin: nat, byteLengths: seq<nat>, n: nat, i: nat)
    requires i < n <= |byteLengths|
    ensures CarvedPrefix(data, bufferBegin, byteLengths, n)[i] == CarvedBuffer(data, bufferBegin, byteLengths, i)
    decreases n
  {
    if i < n - 1 {
      CarvedPrefixAt(data, bufferBegin, byteLengths, n - 1, i);
    }
  }

  /**
   * The carving loop of `fetchGlb`: each buffer is the next `byteLength` bytes after a cursor
   * that starts 8 bytes after the JSON chunk. A `buffers` member that is missing rejects.
   */
  method CarveBuffers(glb: GlbChunk, byteLengths: Option<seq<nat>>) returns (r: Result<seq<Bytes>, GlbError>)
    ensures byteLengths.None? <==> r.Failure?
    ensures r.Failure? ==> r.error == NoBuffers
    ensures r.Success? ==> r.value == CarvedPrefix(glb.data, glb.bufferBegin, byteLengths.value, |byteLengths.value|)
  {
    if byteLengths.None? {
      return Failure(NoBuffers);
    }
    var lens := byteLengths.value;
    var begin := 8 + glb.bufferBegin;
    var buffers: seq<Bytes> := [];
    var i := 0;
    while i < |lens|
      invariant 0 <= i <= |lens|
      invariant begin == BufferStart(glb.bufferBegin, lens, i)
      invariant buffers == CarvedPrefix(glb.data, glb.bufferBegin, lens, i)
    {
      buffers := buffers + [ArrayBufferSlice(glb.data, Some(begin), Some(begin + lens[i]))];
      begin := begin + lens[i];
      i := i + 1;
    }
    return Success(buffers);
  }

  /** All pieces joined in order. */
  function Concat(pieces: seq<Bytes>): (r: Bytes)
  {
    if pieces == [] then [] else Concat(pieces[..|pieces| - 1]) + pieces[|pieces| - 1]
  }

  /**
   * When the buffers fit in the container, the carved buffers have their declared lengths and
   * lie back to back: joined in order they are exactly the region after the JSON chunk.
   */
  lemma {:induction false} CarvedContiguous(data: Bytes, bufferBegin: nat, byteLengths: seq<nat>, n: nat)
    requires n <= |byteLengths|
    requires BufferStart(bufferBegin, byteLengths, n) <= |data|
    ensures forall i :: 0 <= i < n ==> |CarvedPrefix(data, bufferBegin, byteLengths, n)[i]| == byteLengths[i]
    ensures Concat(CarvedPrefix(data, bufferBegin, byteLengths, n)) == data[8 + bufferBegin..BufferStart(bufferBegin, byteLengths, n)]
    decreases n
  {
    if n > 0 {
      var pieces := CarvedPrefix(data, bufferBegin, byteLengths, n);
      var a := BufferStart(bufferBegin, byteLengths, n - 1);
      var b := BufferStart(bufferBegin, byteLengths, n);
      PrefixSumMonotone(byteLengths, n - 1, n);
      CarvedContiguous(data, bufferBegin, byteLengths, n - 1);
      assert pieces[..n - 1] == CarvedPrefix(data, bufferBegin, byteLengths, n - 1);
      assert pieces[n - 1] == data[a..b];
      assert data[8 + bufferBegin..a] + data[a..b] == data[8 + bufferBegin..b];
    }
  }
}

=== FILE: gltfdoc.dfy ===
/**
 * The parsed glTF 2.0 JSON document as the loader reads it. Each member the loader tests
 * with `hasOwnProperty` or `!= null` is an `Option`; members it only passes through are
 * kept as opaque values. `JSON.parse` itself is not modelled: a document is given.
 */
module GltfDoc {
  import opened Wrappers

  /** A `bufferViews` entry: which buffer, where in it, and how many bytes. */
  datatype BufferViewJson = BufferViewJson(buffer: nat, byteOffset: Option<nat>, byteLength: Option<nat>)

  /** An `accessors` entry; `elementType` is the JSON member `type` ("SCALAR", "VEC3", ...). */
  datatype AccessorJson = AccessorJson(
    bufferView: Option<nat>,
    byteOffset: Option<nat>,
    componentType: int,
    count: Option<nat>,
    elementType: Option<string>)

  /** A texture reference inside a material; `scale` belongs to normal maps, `strength` to occlusion maps. */
  datatype TextureRef = TextureRef(index: Option<nat>, texCoord: Option<nat>, scale: Option<real>, strength: Option<real>)

  datatype PbrJson = PbrJson(
    baseColorTexture: Option<TextureRef>,
    baseColorFactor: Option<seq<real>>,
    metallicRoughnessTexture: Option<TextureRef>,
    metallicFactor: Option<real>,
    roughnessFactor: Option<real>)

  datatype MaterialJson = MaterialJson(
    name: Option<string>,
    pbrMetallicRoughness: Option<PbrJson>,
    normalTexture: Option<TextureRef>,
    occlusionTexture: Option<TextureRef>,
    emissiveTexture: Option<TextureRef>,
    emissiveFactor: Option<seq<real>>)

  /** A `textures` entry: only its `sampler` index is read. */
  datatype TextureJson = TextureJson(sampler: Option<nat>)

  /** A `samplers` entry, handed on unchanged. */
  datatype SamplerJson = SamplerJson(magFilter: Option<int>, minFilter: Option<int>, wrapS: Option<int>, wrapT: Option<int>)

  /** A mesh primitive; `attributes` lists the members of the attribute object in key order. */
  datatype PrimitiveJson = PrimitiveJson(
    mode: Option<int>,
    attributes: Option<seq<(string, nat)>>,
    indices: Option<nat>,
    material: Option<nat>)

  datatype MeshJson = MeshJson(primitives: Option<seq<PrimitiveJson>>)

  /**
   * A `nodes` entry or a `scenes` entry: the loader reads both through the same constructor,
   * a scene being recognised by a non-empty `nodes` list.
   */
  datatype NodeJson = NodeJson(
    name: Option<string>,
    mesh: Option<nat>,
    matrix: Option<seq<real>>,
    translation: Option<seq<real>>,
    rotation: Option<seq<real>>,
    scale: Option<seq<real>>,
    children: Option<seq<nat>>,
    nodes: Option<seq<nat>>)

  /** The document's top-level members the loader reads. */
  datatype Gltf = Gltf(
    scenes: Option<seq<NodeJson>>,
    scene: Option<nat>,
    nodes: Option<seq<NodeJson>>,
    meshes: Option<seq<MeshJson>>,
    materials: Option<seq<MaterialJson>>,
    textures: Option<seq<TextureJson>>,
    samplers: Option<seq<SamplerJson>>,
    accessors: Option<seq<AccessorJson>>,
    bufferViews: Option<seq<BufferViewJson>>)
}

=== FILE: jsvalues.dfy ===
/**
 * The few JavaScript runtime behaviours the loader leans on: `ArrayBuffer.prototype.slice`
 * (which clamps its bounds instead of throwing), property keys of arrays and plain
 * objects, and the shapes a `bin` argument can take.
 */
module JsValues {
  import opened Wrappers

  /** One octet of an `ArrayBuffer`. */
  newtype Byte = b: int | 0 <= b < 0x100
  type Bytes = seq<Byte>

  function Min(a: nat, b: nat): nat {
    if a <= b then a else b
  }

  /**
   * `buffer.slice(start, end)` for non-negative bounds. A bound that is `NaN` (the result
   * of arithmetic on `undefined`) is written `None`; `ToIntegerOrInfinity(NaN)` is 0.
   * Both bounds are clamped to the buffer length and an empty range gives `[]`.
   */
  function ArrayBufferSlice(s: Bytes, start: Option<nat>, end: Option<nat>): (r: Bytes)
    ensures |r| <= |s|
    ensures start.Some? && end.Some? && start.value <= end.value <= |s| ==> r == s[start.value..end.value]
    ensures start.Some? && end.Some? && start.value <= |s| <= end.value ==> r == s[start.value..]
    ensures end.None? || (start.Some? && end.value <= start.value) || (start.Some? && |s| <= start.value) ==> r == []
  {
    var first := if start.Some? then Min(start.value, |s|) else 0;
    var final := if end.Some? then Min(end.value, |s|) else 0;
    if final <= first then [] else s[first..final]
  }

  /** `a + b` on numbers that may be `NaN` (`None`): `NaN` absorbs. */
  function NumAdd(a: Option<nat>, b: Option<nat>): (r: Option<nat>)
    ensures r.Some? <==> a.Some? && b.Some?
  {
    if a.Some? && b.Some? then Some(a.value + b.value) else None
  }

  /** `a * b` on numbers that may be `NaN` (`None`). */
  function NumMul(a: Option<nat>, b: Option<nat>): (r: Option<nat>)
    ensures r.Some? <==> a.Some? && b.Some?
  {
    if a.Some? && b.Some? then Some(a.value * b.value) else None
  }

  /** A property that may hold `null`, hold `undefined`, or hold a value. */
  datatype JsRef<+T> = Null | Undefined | Val(v: T)

  /** `a[i]` on an array: `undefined` past its end. */
  function ItemAt<T>(a: seq<T>, i: Option<nat>): (r: JsRef<T>)
    ensures r.Val? <==> i.Some? && i.value < |a|
    ensures r.Val? ==> r.v == a[i.value]
    ensures !r.Null?
  {
    if i.Some? && i.value < |a| then Val(a[i.value]) else Undefined
  }

  /** A property key as the document writes it: a number or a string. */
  datatype Key = Index(i: nat) | Name(s: string)

  predicate IsDigit(c: char) {
    '0' <= c <= '9'
  }

  predicate AllDigits(s: string) {
    forall i :: 0 <= i < |s| ==> IsDigit(s[i])
  }

  function DigitChar(d: nat): (c: char)
    requires d < 10
    ensures IsDigit(c)
  {
    ('0' as int + d) as char
  }

  /** `String(n)`: the decimal numeral of `n`, without leading zeros. */
  function Decimal(n: nat): string
    decreases n
  {
    if n < 10 then [DigitChar(n)] else Decimal(n / 10) + [DigitChar(n % 10)]
  }

  /** The value of a string of decimal digits. */
  function DigitsValue(s: string): nat
    requires AllDigits(s)
  {
    if s == [] then 0 else DigitsValue(s[..|s| - 1]) * 10 + (s[|s| - 1] as int - '0' as int)
  }

  /** A numeral as `String` writes one: at least one digit, and no leading zero unless it is "0". */
  predicate Canonical(s: string) {
    |s| >= 1 && AllDigits(s) && (s[0] == '0' ==> |s| == 1)
  }

  /** The array index a property name denotes, if it is the canonical numeral of one. */
  function ArrayIndex(s: string): Option<nat> {
    if Canonical(s) then Some(DigitsValue(s)) else None
  }

  /** The numeral of every index is canonical, and reads back as that index. */
  lemma {:induction false} DecimalIndex(n: nat)
    ensures Canonical(Decimal(n)) && DigitsValue(Decimal(n)) == n
    ensures ArrayIndex(Decimal(n)) == Some(n)
    decreases n
  {
    if n >= 10 {
      DecimalIndex(n / 10);
      var d := Decimal(n / 10);
      var s := d + [DigitChar(n % 10)];
      assert s[..|s| - 1] == d;
      assert s[0] == d[0];
    }
  }

  /** Digits whose value is 0 are all zeros. */
  lemma {:induction false} ZeroDigits(s: string)
    requires AllDigits(s) && DigitsValue(s) == 0
    ensures forall i :: 0 <= i < |s| ==> s[i] == '0'
    decreases |s|
  {
    if s != [] {
      ZeroDigits(s[..|s| - 1]);
      assert forall i :: 0 <= i < |s| - 1 ==> s[i] == s[..|s| - 1][i];
    }
  }

  /** A canonical numeral is the numeral of its value: `ArrayIndex` and `Decimal` are inverse. */
  lemma {:induction false} IndexDecimal(s: string)
    requires Canonical(s)
    ensures Decimal(DigitsValue(s)) == s
    decreases |s|
  {
    var n := DigitsValue(s);
    if |s| > 1 {
      var p := s[..|s| - 1];
      assert p[0] == s[0];
      assert Canonical(p);
      if DigitsValue(p) == 0 {
        ZeroDigits(p);
        assert false;
      }
      IndexDecimal(p);
      assert n / 10 == DigitsValue(p) && n % 10 == s[|s| - 1] as int - '0' as int;
      assert s == p + [s[|s| - 1]];
    }
  }

  /**
   * `String(k)`: the property name JavaScript looks a key up by. A number and its numeral
   * name the same property: `obj[0]` is `obj["0"]`.
   */
  function PropertyName(k: Key): string {
    match k
    case Index(i) => Decimal(i)
    case Name(s) => s
  }

  /** Two keys name the same property exactly when their names agree, whatever form each takes. */
  lemma SameProperty(i: nat, s: string)
    ensures PropertyName(Index(i)) == PropertyName(Name(s)) <==> ArrayIndex(s) == Some(i)
  {
    DecimalIndex(i);
    if ArrayIndex(s) == Some(i) {
      IndexDecimal(s);
    }
  }

  /**
   * A JSON collection as the old loader sees it: an array, a plain object with its members
   * in insertion order, `null`, or any other value (a number, a string, a boolean).
   */
  datatype Collection<T> = JsArray(items: seq<T>) | JsObject(members: seq<(string, T)>) | JsNull | JsOther

  /** The collections `getKeys` lists keys for: arrays and plain objects. */
  predicate Keyed<T>(c: Collection<T>) {
    c.JsArray? || c.JsObject?
  }

  /**
   * `c[k]` on anything but `null`: `None` where JavaScript yields `undefined`. The key is
   * looked up by its property name; an array holds its elements under the canonical numerals
   * of their indices. The first member of that name wins. `null[k]` throws instead; callers
   * that can reach it test `JsNull` first, and it answers `None` here only to keep the lookup total.
   */
  function Lookup<T>(c: Collection<T>, k: Key): Option<T> {
    match c
    case JsArray(items) =>
      var i := ArrayIndex(PropertyName(k));
      if i.Some? && i.value < |items| then Some(items[i.value]) else None
    case JsObject(members) => LookupMember(members, PropertyName(k))
    case JsNull => None
    case JsOther => None
  }

  /** A lookup depends on the key only through its property name. */
  lemma LookupByName<T>(c: Collection<T>, k: Key)
    ensures Lookup(c, k) == Lookup(c, Name(PropertyName(k)))
  {
  }

  /** An array answers a numeric key with the element at that index, and `undefined` past its end. */
  lemma ArrayLookup<T>(items: seq<T>, i: nat)
    ensures Lookup(JsArray(items), Index(i)).Some? <==> i < |items|
    ensures i < |items| ==> Lookup(JsArray(items), Index(i)) == Some(items[i])
    ensures i < |items| ==> Lookup(JsArray(items), Name(Decimal(i))) == Some(items[i])
  {
    DecimalIndex(i);
  }

  /** A plain object answers a numeric key with its member named by the numeral, as `obj[0]` reads `obj["0"]`. */
  lemma ObjectNumericKey<T>(members: seq<(string, T)>, i: nat)
    ensures Lookup(JsObject(members), Index(i)) == Lookup(JsObject(members), Name(Decimal(i)))
  {
  }

  function LookupMember<T>(members: seq<(string, T)>, name: string): Option<T> {
    if members == [] then None
    else if members[0].0 == name then Some(members[0].1)
    else LookupMember(members[1..], name)
  }

  /** The `bin` argument of `splitBinary`: `null`, an array of buffers, or a plain object of them by property name. */
  datatype BinArg = BinNull | BinArray(buffers: seq<Bytes>) | BinObject(named: map<string, Bytes>)
}

=== FILE: legacy.dfy ===
/**
 * The older loader, `src/gltf.js`, written for glTF 1.0 documents whose top-level members may
 * be arrays or objects keyed by id: `getKeys`, its accessor-keyed `splitBinary`, the
 * descriptor decisions of `generateMesh`, and the attribute-stride and uniform-type lists of
 * `generateProgram`. WebGL buffer creation is not part of this model.
 */
module Legacy {
  import opened Wrappers
  import opened JsValues
  import opened Tables

  /** An `accessors` entry as the older loader reads it. */
  datatype LegacyAccessor = LegacyAccessor(
    bufferView: Option<Key>,
    byteOffset: Option<nat>,
    componentType: Option<int>,
    count: Option<nat>,
    elementType: Option<string>)

  /** A `bufferViews` entry: the key of its buffer in `bin`, and its offset. */
  datatype LegacyBufferView = LegacyBufferView(buffer: Option<Key>, byteOffset: Option<nat>)

  /** A mesh primitive: `attributes` maps semantics to accessor keys, in member order. */
  datatype LegacyPrimitive = LegacyPrimitive(
    attributes: Option<seq<(string, Key)>>,
    indices: Option<Key>,
    mode: Option<int>,
    material: Option<Key>)

  datatype LegacyMesh = LegacyMesh(primitives: Option<seq<LegacyPrimitive>>)

  /** The members the older loader tests with `hasOwnProperty`. */
  datatype LegacyDoc = LegacyDoc(
    accessors: Option<Collection<LegacyAccessor>>,
    bufferViews: Option<Collection<LegacyBufferView>>,
    meshes: Option<Collection<LegacyMesh>>,
    hasNodes: bool)

  /** The one exception these functions can raise: a `TypeError` on `undefined` or `null`. */
  datatype LegacyError = TypeError

  // ---------------------------------------------------------------------------------------
  // getKeys

  /** `getKeys(any)`: the indices of an array, the member names of a plain object, else `null`. */
  function GetKeys<T>(c: Collection<T>): (r: Option<seq<Key>>)
    ensures c.JsArray? ==> r.Some? && |r.value| == |c.items|
    ensures c.JsObject? ==> r.Some? && |r.value| == |c.members|
    ensures !Keyed(c) ==> r.None?
  {
    match c
    case JsArray(items) => Some(seq(|items|, i requires 0 <= i => Index(i)))
    case JsObject(members) => Some(seq(|members|, i requires 0 <= i < |members| => Name(members[i].0)))
    case JsNull => None
    case JsOther => None
  }

  /** A member name is found exactly when some member carries it. */
  lemma {:induction false} LookupMemberFound<T>(members: seq<(string, T)>, name: string)
    ensures LookupMember(members, name).Some? <==> exists i :: 0 <= i < |members| && members[i].0 == name
  {
    if members != [] && members[0].0 != name {
      LookupMemberFound(members[1..], name);
      if exists i :: 0 <= i < |members| && members[i].0 == name {
        var i :| 0 <= i < |members| && members[i].0 == name;
        assert members[1..][i - 1].0 == name;
      }
    }
  }

  /** The keys `getKeys` lists name exactly the properties under which the collection holds a value. */
  lemma GetKeysComplete<T>(c: Collection<T>, k: Key)
    requires Keyed(c)
    ensures Lookup(c, k).Some? <==> exists j :: 0 <= j < |GetKeys(c).value| && PropertyName(GetKeys(c).value[j]) == PropertyName(k)
    ensures k in GetKeys(c).value ==> Lookup(c, k).Some?
  {
    match c
    case JsArray(items) => ArrayKeysComplete(items, k);
    case JsObject(members) => ObjectKeysComplete(members, k);
  }

  lemma ArrayKeysComplete<T>(items: seq<T>, k: Key)
    ensures var keys := GetKeys(JsArray(items)).value;
      Lookup(JsArray(items), k).Some? <==> exists j :: 0 <= j < |keys| && PropertyName(keys[j]) == PropertyName(k)
    ensures k in GetKeys(JsArray(items)).value ==> Lookup(JsArray(items), k).Some?
  {
    var keys := GetKeys(JsArray(items)).value;
    var p := PropertyName(k);
    if Lookup(JsArray(items), k).Some? {
      var i := ArrayIndex(p).value;
      IndexDecimal(p);
      assert PropertyName(keys[i]) == p;
    }
    if exists j :: 0 <= j < |keys| && PropertyName(keys[j]) == p {
      var j :| 0 <= j < |keys| && PropertyName(keys[j]) == p;
      DecimalIndex(j);
    }
    if k in keys {
      var j :| 0 <= j < |keys| && keys[j] == k;
      DecimalIndex(j);
    }
  }

  lemma ObjectKeysComplete<T>(members: seq<(string, T)>, k: Key)
    ensures var keys := GetKeys(JsObject(members)).value;
      Lookup(JsObject(members), k).Some? <==> exists j :: 0 <= j < |keys| && PropertyName(keys[j]) == PropertyName(k)
    ensures k in GetKeys(JsObject(members)).value ==> Lookup(JsObject(members), k).Some?
  {
    var keys := GetKeys(JsObject(members)).value;
    var p := PropertyName(k);
    LookupMemberFound(members, p);
    if exists i :: 0 <= i < |members| && members[i].0 == p {
      var i :| 0 <= i < |members| && members[i].0 == p;
      assert PropertyName(keys[i]) == p;
    }
    if exists j :: 0 <= j < |keys| && PropertyName(keys[j]) == p {
      var j :| 0 <= j < |keys| && PropertyName(keys[j]) == p;
      assert members[j].0 == p;
    }
  }

  /** An empty array has no keys, although `getKeys` treats it as its own case. */
  lemma GetKeysEmptyArray<T>(c: Collection<T>)
    requires c == JsArray([])
    ensures GetKeys(c) == Some([])
  {
  }

  // ---------------------------------------------------------------------------------------
  // splitBinary (accessor-keyed)

  /**
   * Bytes per element: the stride times 1 for the byte codes, 2 for the short codes and 4 for
   * the int and float codes; 0 for any other code. An unknown `type` (`NaN` stride) gives `NaN`.
   */
  function ElementBytes(stride: Option<nat>, component: Option<int>): (w: Option<nat>)
    ensures component.None? || TypedArrayFor(component.value).None? ==> w == Some(0)
    ensures component.Some? && TypedArrayFor(component.value).Some? ==>
      w == NumMul(stride, Some(BytesPerElement(TypedArrayFor(component.value).value)))
  {
    if component.None? then Some(0)
    else
      var c := component.value;
      if c == BYTE || c == UNSIGNED_BYTE then NumMul(stride, Some(1))
      else if c == SHORT || c == UNSIGNED_SHORT then NumMul(stride, Some(2))
      else if c == INT || c == UNSIGNED_INT || c == FLOAT then NumMul(stride, Some(4))
      else Some(0)
  }

  /** `strideType[type]`, `undefined` when the accessor has no `type` or an unknown one. */
  function StrideOfType(t: Option<string>): Option<nat> {
    if t.None? then None else StrideOf(t.value)
  }

  /**
   * The bytes of accessor `key`: `bin[buffer].slice(k, k + j)` with `k` the view's offset plus
   * the accessor's and `j` the element width times `count`, or `None` when the accessor's view
   * or the view's buffer is missing and the accessor is skipped. With `bufferViews` `null`,
   * `gltf.bufferViews[viewindex]` throws for every accessor.
   */
  function AccessorSlice(accessors: Collection<LegacyAccessor>, views: Collection<LegacyBufferView>,
                         named: map<string, Bytes>, key: Key): (r: Result<Option<Bytes>, LegacyError>)
    ensures r.Failure? <==> Lookup(accessors, key).Some? && views.JsNull?
    ensures r.Success? ==> (r.value.Some? <==>
      && Lookup(accessors, key).Some?
      && Lookup(accessors, key).value.bufferView.Some?
      && Lookup(views, Lookup(accessors, key).value.bufferView.value).Some?
      && Lookup(views, Lookup(accessors, key).value.bufferView.value).value.buffer.Some?
      && PropertyName(Lookup(views, Lookup(accessors, key).value.bufferView.value).value.buffer.value) in named)
    ensures r.Success? && r.value.Some? ==>
      var a := Lookup(accessors, key).value;
      var v := Lookup(views, a.bufferView.value).value;
      var buf := named[PropertyName(v.buffer.value)];
      var w := ElementBytes(StrideOfType(a.elementType), a.componentType);
      && |r.value.value| <= |buf|
      && (v.byteOffset.None? || a.byteOffset.None? || w.None? || a.count.None? ==> r.value.value == [])
      && (v.byteOffset.Some? && a.byteOffset.Some? && w.Some? && a.count.Some? &&
          v.byteOffset.value + a.byteOffset.value + w.value * a.count.value <= |buf| ==>
            r.value.value == buf[v.byteOffset.value + a.byteOffset.value..
                                 v.byteOffset.value + a.byteOffset.value + w.value * a.count.value])
  {
    match Lookup(accessors, key)
    case None => Success(None)
    case Some(a) =>
      if views.JsNull? then Failure(TypeError)
      else if a.bufferView.None? then Success(None)
      else
        match Lookup(views, a.bufferView.value)
        case None => Success(None)
        case Some(v) =>
          if v.buffer.None? || PropertyName(v.buffer.value) !in named then Success(None)
          else
            var k := NumAdd(v.byteOffset, a.byteOffset);
            var j := NumMul(ElementBytes(StrideOfType(a.elementType), a.componentType), a.count);
            Success(Some(ArrayBufferSlice(named[PropertyName(v.buffer.value)], k, NumAdd(k, j))))
  }

  /** `splitBinary` answers `null` unless the document is given, `bin` is a plain object and both tables exist. */
  predicate SplitGuard(gltf: Option<LegacyDoc>, bin: BinArg) {
    gltf.Some? && bin.BinObject? && gltf.value.accessors.Some? && gltf.value.bufferViews.Some?
  }

  /** An accessor's slice depends on its key only through the key's property name. */
  lemma AccessorSliceByName(accessors: Collection<LegacyAccessor>, views: Collection<LegacyBufferView>,
                            named: map<string, Bytes>, k: Key)
    ensures AccessorSlice(accessors, views, named, k) == AccessorSlice(accessors, views, named, Name(PropertyName(k)))
  {
    LookupByName(accessors, k);
  }

  /**
   * `splitBinary(gltf, bin)`: for every accessor key, in `getKeys` order, the accessor's bytes
   * are stored under its property name; skipped accessors get no entry. When `accessors` is
   * neither an array nor an object, `getKeys` answers `null` and the call on it throws; when
   * `bufferViews` is `null`, the first accessor's view lookup throws.
   */
  method SplitBinary(gltf: Option<LegacyDoc>, bin: BinArg) returns (r: Result<Option<map<string, Bytes>>, LegacyError>)
    ensures !SplitGuard(gltf, bin) ==> r == Success(None)
    ensures SplitGuard(gltf, bin) ==>
      (r.Failure? <==> || !Keyed(gltf.value.accessors.value)
                       || (gltf.value.bufferViews.value.JsNull? && |GetKeys(gltf.value.accessors.value).value| > 0))
    ensures r.Failure? ==> r.error == TypeError
    ensures SplitGuard(gltf, bin) && r.Success? ==> r.value.Some?
    ensures SplitGuard(gltf, bin) && r.Success? ==>
      var doc, named, out := gltf.value, bin.named, r.value.value;
      forall k :: && (PropertyName(k) in out ==>
                        AccessorSlice(doc.accessors.value, doc.bufferViews.value, named, k) == Success(Some(out[PropertyName(k)])))
                  && (PropertyName(k) !in out ==>
                        AccessorSlice(doc.accessors.value, doc.bufferViews.value, named, k) == Success(None))
  {
    if !SplitGuard(gltf, bin) {
      return Success(None);
    }
    var accessors, views, named := gltf.value.accessors.value, gltf.value.bufferViews.value, bin.named;
    var keys := GetKeys(accessors);
    if keys.None? {
      return Failure(TypeError);
    }
    var binaries: map<string, Bytes> := map[];
    var i := 0;
    while i < |keys.value|
      invariant 0 <= i <= |keys.value|
      invariant views.JsNull? ==> i == 0
      invariant Filed(accessors, views, named, binaries)
      invariant Visited(accessors, views, named, binaries, i)
    {
      var key := keys.value[i];
      if views.JsNull? {
        GetKeysComplete(accessors, key);
      }
      var slice := AccessorSlice(accessors, views, named, key);
      if slice.Failure? {
        return Failure(TypeError);
      }
      SplitStep(accessors, views, named, binaries, i);
      if slice.value.Some? {
        binaries := binaries[PropertyName(key) := slice.value.value];
      }
      i := i + 1;
    }
    forall k
      ensures PropertyName(k) in binaries ==> AccessorSlice(accessors, views, named, k) == Success(Some(binaries[PropertyName(k)]))
      ensures PropertyName(k) !in binaries ==> AccessorSlice(accessors, views, named, k) == Success(None)
    {
      SplitCovers(accessors, views, named, binaries, k);
    }
    r := Success(Some(binaries));
  }

  /** Every entry of the map holds the slice of the accessor under that property name. */
  predicate Filed(accessors: Collection<LegacyAccessor>, views: Collection<LegacyBufferView>,
                  named: map<string, Bytes>, binaries: map<string, Bytes>)
  {
    forall n :: n in binaries ==> AccessorSlice(accessors, views, named, Name(n)) == Success(Some(binaries[n]))
  }

  /** Each of the first `i` keys `getKeys` lists has an entry or is skipped. */
  predicate Visited(accessors: Collection<LegacyAccessor>, views: Collection<LegacyBufferView>,
                    named: map<string, Bytes>, binaries: map<string, Bytes>, i: nat)
    requires Keyed(accessors) && i <= |GetKeys(accessors).value|
  {
    var keys := GetKeys(accessors).value;
    forall j :: 0 <= j < i ==>
      PropertyName(keys[j]) in binaries || AccessorSlice(accessors, views, named, Name(PropertyName(keys[j]))) == Success(None)
  }

  /** One step of the loop of `splitBinary`: storing key `i`'s slice, when there is one, keeps both invariants. */
  lemma SplitStep(accessors: Collection<LegacyAccessor>, views: Collection<LegacyBufferView>,
                  named: map<string, Bytes>, binaries: map<string, Bytes>, i: nat)
    requires Keyed(accessors) && i < |GetKeys(accessors).value|
    requires Filed(accessors, views, named, binaries) && Visited(accessors, views, named, binaries, i)
    requires AccessorSlice(accessors, views, named, GetKeys(accessors).value[i]).Success?
    ensures var key := GetKeys(accessors).value[i];
      var slice := AccessorSlice(accessors, views, named, key).value;
      var next := if slice.Some? then binaries[PropertyName(key) := slice.value] else binaries;
      Filed(accessors, views, named, next) && Visited(accessors, views, named, next, i + 1)
  {
    var keys := GetKeys(accessors).value;
    var key, p := keys[i], PropertyName(keys[i]);
    var slice := AccessorSlice(accessors, views, named, key).value;
    var next := if slice.Some? then binaries[p := slice.value] else binaries;
    AccessorSliceByName(accessors, views, named, key);
    assert AccessorSlice(accessors, views, named, Name(p)) == Success(slice);
    forall n | n in next
      ensures AccessorSlice(accessors, views, named, Name(n)) == Success(Some(next[n]))
    {
      if n != p || slice.None? {
        assert n in binaries && next[n] == binaries[n];
      }
    }
    forall j | 0 <= j < i + 1
      ensures PropertyName(keys[j]) in next || AccessorSlice(accessors, views, named, Name(PropertyName(keys[j]))) == Success(None)
    {
      if j < i && PropertyName(keys[j]) in binaries {
        assert PropertyName(keys[j]) in next;
      }
    }
  }

  /** Once every key is visited, each key's slice is in the map under its property name or is skipped. */
  lemma SplitCovers(accessors: Collection<LegacyAccessor>, views: Collection<LegacyBufferView>,
                    named: map<string, Bytes>, binaries: map<string, Bytes>, k: Key)
    requires Keyed(accessors)
    requires Filed(accessors, views, named, binaries)
    requires Visited(accessors, views, named, binaries, |GetKeys(accessors).value|)
    ensures PropertyName(k) in binaries ==> AccessorSlice(accessors, views, named, k) == Success(Some(binaries[PropertyName(k)]))
    ensures PropertyName(k) !in binaries ==> AccessorSlice(accessors, views, named, k) == Success(None)
  {
    var keys := GetKeys(accessors).value;
    AccessorSliceByName(accessors, views, named, k);
    GetKeysComplete(accessors, k);
    if PropertyName(k) !in binaries && Lookup(accessors, k).Some? {
      var j :| 0 <= j < |keys| && PropertyName(keys[j]) == PropertyName(k);
    }
  }

  // ---------------------------------------------------------------------------------------
  // generateMesh

  const POINTS: int := 0

  /** The index array kind: each signed code shares the unsigned kind of its width; other codes have none. */
  function IndexKind(component: Option<int>): (r: Option<TypedKind>)
    ensures r.Some? <==> component.Some? && BYTE <= component.value <= UNSIGNED_INT
    ensures r.Some? ==> r.value == Uint8 || r.value == Uint16 || r.value == Uint32
    ensures r.Some? ==> BytesPerElement(r.value) == BytesPerElement(TypedArrayFor(component.value).value)
  {
    if component.None? then None
    else
      var c := component.value;
      if c == BYTE || c == UNSIGNED_BYTE then Some(Uint8)
      else if c == SHORT || c == UNSIGNED_SHORT then Some(Uint16)
      else if c == INT || c == UNSIGNED_INT then Some(Uint32)
      else None
  }

  /** What `generateMesh` records for a described primitive, without its WebGL buffers. */
  datatype PrimitiveDescriptor = PrimitiveDescriptor(
    indexKind: Option<TypedKind>,   // `null` without `indices`
    indexLength: JsRef<nat>,        // `null` without `indices`, else the index accessor's `count`
    attributeName: seq<string>,
    attributeStride: seq<Option<nat>>,
    primitiveType: int,
    materialIndex: Option<Key>)

  /** `meshes[v][j]`: `null` without attributes, abandoned at an unknown index code, or described. */
  datatype PrimitiveEntry = NoAttributes | Abandoned | Described(d: PrimitiveDescriptor)

  /** `meshes[v]`: `null` for an empty primitive list, else one entry per primitive. */
  datatype MeshEntry = NullMesh | Primitives(entries: seq<PrimitiveEntry>)

  /** `strideType[accessors[index].type]` per attribute; a missing accessor throws. */
  function AttributeStridesOf(accessors: Collection<LegacyAccessor>, attrs: seq<(string, Key)>): (r: Result<seq<Option<nat>>, LegacyError>)
  {
    if forall l :: 0 <= l < |attrs| ==> Lookup(accessors, attrs[l].1).Some? then
      Success(seq(|attrs|, l requires 0 <= l < |attrs| => StrideOfType(Lookup(accessors, attrs[l].1).value.elementType)))
    else Failure(TypeError)
  }

  /**
   * The decisions `generateMesh` makes for one primitive: without attributes it is skipped,
   * and it throws exactly when an accessor it reaches is missing.
   */
  function DescribePrimitive(accessors: Collection<LegacyAccessor>, p: LegacyPrimitive): (r: Result<PrimitiveEntry, LegacyError>)
    ensures p.attributes.None? ==> r == Success(NoAttributes)
    ensures r.Failure? <==>
      && p.attributes.Some?
      && ((p.indices.Some? && Lookup(accessors, p.indices.value).None?) ||
          ((p.indices.None? || IndexKind(Lookup(accessors, p.indices.value).value.componentType).Some?) &&
           exists l :: 0 <= l < |p.attributes.value| && Lookup(accessors, p.attributes.value[l].1).None?))
  {
    if p.attributes.None? then Success(NoAttributes)
    else if p.indices.Some? && Lookup(accessors, p.indices.value).None? then Failure(TypeError)
    else if p.indices.Some? && IndexKind(Lookup(accessors, p.indices.value).value.componentType).None? then Success(Abandoned)
    else
      var attrs := p.attributes.value;
      var strides :- AttributeStridesOf(accessors, attrs);
      var index := if p.indices.Some? then Some(Lookup(accessors, p.indices.value).value) else None;
      Success(Described(PrimitiveDescriptor(
        if index.Some? then IndexKind(index.value.componentType) else None,
        if index.None? then Null else if index.value.count.None? then Undefined else Val(index.value.count.value),
        seq(|attrs|, l requires 0 <= l < |attrs| => attrs[l].0),
        strides,
        p.mode.GetOr(POINTS),
        p.material)))
  }

  /**
   * A described primitive: its index kind comes from the index accessor's code, its index
   * length is that accessor's count, one stride per attribute in attribute order, the mode
   * defaults to POINTS and the material index to `null`.
   */
  lemma DescribedPrimitive(accessors: Collection<LegacyAccessor>, p: LegacyPrimitive)
    requires DescribePrimitive(accessors, p).Success? && DescribePrimitive(accessors, p).value.Described?
    ensures var d := DescribePrimitive(accessors, p).value.d;
      && p.attributes.Some?
      && |d.attributeName| == |d.attributeStride| == |p.attributes.value|
      && (forall l :: 0 <= l < |d.attributeName| ==> d.attributeName[l] == p.attributes.value[l].0)
      && (forall l :: 0 <= l < |d.attributeStride| ==>
            d.attributeStride[l] == StrideOfType(Lookup(accessors, p.attributes.value[l].1).value.elementType))
      && (p.indices.None? <==> d.indexKind.None?)
      && (p.indices.None? <==> d.indexLength.Null?)
      && (p.indices.Some? ==> d.indexKind == IndexKind(Lookup(accessors, p.indices.value).value.componentType))
      && (p.indices.Some? && d.indexLength.Val? ==> Lookup(accessors, p.indices.value).value.count == Some(d.indexLength.v))
      && (p.mode.None? ==> d.primitiveType == POINTS)
      && (p.mode.Some? ==> d.primitiveType == p.mode.value)
      && d.materialIndex == p.material
  {
  }

  /** A primitive is abandoned exactly when its index accessor exists and has a code outside 5120..5125. */
  lemma AbandonedPrimitive(accessors: Collection<LegacyAccessor>, p: LegacyPrimitive)
    ensures DescribePrimitive(accessors, p) == Success(Abandoned) <==>
      && p.attributes.Some? && p.indices.Some? && Lookup(accessors, p.indices.value).Some?
      && var c := Lookup(accessors, p.indices.value).value.componentType;
         !(c.Some? && BYTE <= c.value <= UNSIGNED_INT)
  {
  }

  /**
   * One mesh: a missing primitive list throws, an empty one gives `null`, else each primitive
   * in turn; the mesh throws exactly when its list is missing or one of its primitives throws.
   */
  function DescribeMesh(accessors: Collection<LegacyAccessor>, m: LegacyMesh): (r: Result<MeshEntry, LegacyError>)
    ensures r.Failure? <==>
      m.primitives.None? ||
      exists j :: 0 <= j < |m.primitives.value| && DescribePrimitive(accessors, m.primitives.value[j]).Failure?
    ensures r.Success? ==> (r.value.NullMesh? <==> |m.primitives.value| == 0)
  {
    if m.primitives.None? then Failure(TypeError)
    else
      var prims := m.primitives.value;
      if |prims| == 0 then Success(NullMesh)
      else if forall j :: 0 <= j < |prims| ==> DescribePrimitive(accessors, prims[j]).Success? then
        Success(Primitives(seq(|prims|, j requires 0 <= j < |prims| => DescribePrimitive(accessors, prims[j]).value)))
      else Failure(TypeError)
  }

  /** Abandoning one primitive leaves the others of the mesh described as they would be alone. */
  lemma MeshEntriesIndependent(accessors: Collection<LegacyAccessor>, m: LegacyMesh, j: nat)
    requires DescribeMesh(accessors, m).Success? && DescribeMesh(accessors, m).value.Primitives?
    requires j < |m.primitives.value|
    ensures |DescribeMesh(accessors, m).value.entries| == |m.primitives.value|
    ensures DescribeMesh(accessors, m).value.entries[j] == DescribePrimitive(accessors, m.primitives.value[j]).value
  {
  }

  /** The attribute loop of one primitive. */
  method AttributeStrides(accessors: Collection<LegacyAccessor>, attrs: seq<(string, Key)>) returns (r: Result<seq<Option<nat>>, LegacyError>)
    ensures r == AttributeStridesOf(accessors, attrs)
  {
    var strides: seq<Option<nat>> := [];
    var l := 0;
    while l < |attrs|
      invariant 0 <= l <= |attrs| && |strides| == l
      invariant forall m :: 0 <= m < l ==> Lookup(accessors, attrs[m].1).Some?
      invariant forall m :: 0 <= m < l ==> strides[m] == StrideOfType(Lookup(accessors, attrs[m].1).value.elementType)
    {
      var a := Lookup(accessors, attrs[l].1);
      if a.None? {
        assert !(forall m :: 0 <= m < |attrs| ==> Lookup(accessors, attrs[m].1).Some?);
        return Failure(TypeError);
      }
      strides := strides + [StrideOfType(a.value.elementType)];
      l := l + 1;
    }
    assert strides == seq(|attrs|, l requires 0 <= l < |attrs| => StrideOfType(Lookup(accessors, attrs[l].1).value.elementType));
    r := Success(strides);
  }

  /** The body of the primitive callback of `generateMesh`. */
  method DescribePrimitiveAt(accessors: Collection<LegacyAccessor>, p: LegacyPrimitive) returns (r: Result<PrimitiveEntry, LegacyError>)
    ensures r == DescribePrimitive(accessors, p)
  {
    if p.attributes.None? {
      return Success(NoAttributes);
    }
    var kind: Option<TypedKind> := None;
    var indexLength: JsRef<nat> := Null;
    if p.indices.Some? {
      var index := Lookup(accessors, p.indices.value);
      if index.None? {
        return Failure(TypeError);
      }
      kind := IndexKind(index.value.componentType);
      if kind.None? {
        return Success(Abandoned);
      }
      indexLength := if index.value.count.None? then Undefined else Val(index.value.count.value);
    }
    var attrs := p.attributes.value;
    var names := seq(|attrs|, l requires 0 <= l < |attrs| => attrs[l].0);
    var strides := AttributeStrides(accessors, attrs);
    if strides.Failure? {
      return Failure(TypeError);
    }
    var primitiveType := POINTS;
    if p.mode.Some? {
      primitiveType := p.mode.value;
    }
    r := Success(Described(PrimitiveDescriptor(kind, indexLength, names, strides.value, primitiveType, p.material)));
  }

  /** The primitive loop of one mesh. */
  method DescribeMeshAt(accessors: Collection<LegacyAccessor>, m: LegacyMesh) returns (r: Result<MeshEntry, LegacyError>)
    ensures r == DescribeMesh(accessors, m)
  {
    if m.primitives.None? {
      return Failure(TypeError);
    }
    var prims := m.primitives.value;
    if |prims| == 0 {
      return Success(NullMesh);
    }
    var entries: seq<PrimitiveEntry> := [];
    var j := 0;
    while j < |prims|
      invariant 0 <= j <= |prims| && |entries| == j
      invariant forall i :: 0 <= i < j ==> DescribePrimitive(accessors, prims[i]).Success?
      invariant forall i :: 0 <= i < j ==> entries[i] == DescribePrimitive(accessors, prims[i]).value
    {
      var e := DescribePrimitiveAt(accessors, prims[j]);
      if e.Failure? {
        assert !(forall i :: 0 <= i < |prims| ==> DescribePrimitive(accessors, prims[i]).Success?);
        return Failure(TypeError);
      }
      entries := entries + [e.value];
      j := j + 1;
    }
    assert entries == seq(|prims|, j requires 0 <= j < |prims| => DescribePrimitive(accessors, prims[j]).value);
    r := Success(Primitives(entries));
  }

  /** `generateMesh` answers `null` unless the document, a plain-object `bin`, and all four tables are there. */
  predicate MeshGuard(gltf: Option<LegacyDoc>, bin: BinArg) {
    && gltf.Some? && bin.BinObject?
    && gltf.value.hasNodes && gltf.value.meshes.Some?
    && gltf.value.accessors.Some? && gltf.value.bufferViews.Some?
  }

  /**
   * `generateMesh(gl, gltf, bin)`: one entry per mesh key, under its property name, each the
   * mesh's description; any `TypeError` on the way aborts the whole call.
   */
  method GenerateMesh(gltf: Option<LegacyDoc>, bin: BinArg) returns (r: Result<Option<map<string, MeshEntry>>, LegacyError>)
    ensures !MeshGuard(gltf, bin) ==> r == Success(None)
    ensures MeshGuard(gltf, bin) && !Keyed(gltf.value.meshes.value) ==> r == Failure(TypeError)
    ensures MeshGuard(gltf, bin) && Keyed(gltf.value.meshes.value) ==>
      var meshes, accessors := gltf.value.meshes.value, gltf.value.accessors.value;
      && (r.Success? <==> forall k :: Lookup(meshes, k).Some? ==> DescribeMesh(accessors, Lookup(meshes, k).value).Success?)
      && (r.Success? ==> r.value.Some?)
      && (r.Success? ==> forall k :: PropertyName(k) in r.value.value <==> Lookup(meshes, k).Some?)
      && (r.Success? ==>
           forall k :: Lookup(meshes, k).Some? ==>
             PropertyName(k) in r.value.value &&
             r.value.value[PropertyName(k)] == DescribeMesh(accessors, Lookup(meshes, k).value).value)
  {
    if !MeshGuard(gltf, bin) {
      return Success(None);
    }
    var meshes, accessors := gltf.value.meshes.value, gltf.value.accessors.value;
    var keys := GetKeys(meshes);
    if keys.None? {
      return Failure(TypeError);
    }
    var out: map<string, MeshEntry> := map[];
    var i := 0;
    while i < |keys.value|
      invariant 0 <= i <= |keys.value|
      invariant forall j :: 0 <= j < i ==> PropertyName(keys.value[j]) in out
      invariant forall n :: n in out ==> exists j :: 0 <= j < i && PropertyName(keys.value[j]) == n
      invariant forall n :: n in out ==>
        && Lookup(meshes, Name(n)).Some?
        && DescribeMesh(accessors, Lookup(meshes, Name(n)).value).Success?
        && out[n] == DescribeMesh(accessors, Lookup(meshes, Name(n)).value).value
    {
      var key := keys.value[i];
      GetKeysComplete(meshes, key);
      LookupByName(meshes, key);
      var entry := DescribeMeshAt(accessors, Lookup(meshes, key).value);
      if entry.Failure? {
        assert !(forall k :: Lookup(meshes, k).Some? ==> DescribeMesh(accessors, Lookup(meshes, k).value).Success?);
        return Failure(TypeError);
      }
      out := out[PropertyName(key) := entry.value];
      i := i + 1;
    }
    forall k
      ensures PropertyName(k) in out <==> Lookup(meshes, k).Some?
      ensures PropertyName(k) in out ==> out[PropertyName(k)] == DescribeMesh(accessors, Lookup(meshes, k).value).value
    {
      GetKeysComplete(meshes, k);
      LookupByName(meshes, k);
    }
    r := Success(Some(out));
  }

  // ---------------------------------------------------------------------------------------
  // generateProgram

  const FLOAT_VEC2: int := 35664
  const FLOAT_VEC3: int := 35665
  const FLOAT_VEC4: int := 35666

  /** The stride of an attribute parameter type: 1, 2, 3 or 4 floats; 1 for any other type. */
  function AttributeStride(t: int): (z: nat)
    ensures 1 <= z <= 4
    ensures z == 2 <==> t == FLOAT_VEC2
    ensures z == 3 <==> t == FLOAT_VEC3
    ensures z == 4 <==> t == FLOAT_VEC4
  {
    if t == FLOAT then 1
    else if t == FLOAT_VEC2 then 2
    else if t == FLOAT_VEC3 then 3
    else if t == FLOAT_VEC4 then 4
    else 1
  }

  /** The strides pushed for a list of attribute parameters: one per parameter that has a `type`, in order. */
  function TypedStrides(types: seq<Option<int>>): seq<nat> {
    if types == [] then []
    else if types[0].None? then TypedStrides(types[1..])
    else [AttributeStride(types[0].value)] + TypedStrides(types[1..])
  }

  /** The number of parameters that carry a `type`. */
  function TypedCount(types: seq<Option<int>>): (n: nat)
    ensures n <= |types|
  {
    if types == [] then 0 else (if types[0].Some? then 1 else 0) + TypedCount(types[1..])
  }

  /** The stride list has one entry per typed parameter, so it is never longer than the attribute list. */
  lemma {:induction false} TypedStridesLength(types: seq<Option<int>>)
    ensures |TypedStrides(types)| == TypedCount(types) <= |types|
  {
    if types != [] {
      TypedStridesLength(types[1..]);
    }
  }

  /** When every parameter has a `type`, stride `j` belongs to attribute `j`. */
  lemma {:induction false} TypedStridesAligned(types: seq<Option<int>>)
    requires forall j :: 0 <= j < |types| ==> types[j].Some?
    ensures |TypedStrides(types)| == |types|
    ensures forall j :: 0 <= j < |types| ==> TypedStrides(types)[j] == AttributeStride(types[j].value)
  {
    if types != [] {
      TypedStridesAligned(types[1..]);
    }
  }

  lemma {:induction false} TypedStridesAppend(types: seq<Option<int>>, t: Option<int>)
    ensures TypedStrides(types + [t]) == TypedStrides(types) + (if t.Some? then [AttributeStride(t.value)] else [])
  {
    if types == [] {
      assert types + [t] == [t];
    } else {
      assert (types + [t])[1..] == types[1..] + [t];
      TypedStridesAppend(types[1..], t);
    }
  }

  /** The attribute loop of `generateProgram` for one technique. */
  method AttributeStrideList(types: seq<Option<int>>) returns (strides: seq<nat>)
    ensures strides == TypedStrides(types)
  {
    strides := [];
    var j := 0;
    while j < |types|
      invariant 0 <= j <= |types|
      invariant strides == TypedStrides(types[..j])
    {
      TypedStridesAppend(types[..j], types[j]);
      assert types[..j + 1] == types[..j] + [types[j]];
      if types[j].Some? {
        strides := strides + [AttributeStride(types[j].value)];
      }
      j := j + 1;
    }
    assert types[..j] == types;
  }

  /** `uniformType`, in its key order: each WebGL type code with its uniform setter suffix. INT has no entry. */
  const UNIFORM_TYPES: seq<(int, string)> := [
    (BYTE, "1i"), (UNSIGNED_BYTE, "1i"), (SHORT, "1f"), (UNSIGNED_SHORT, "1f"), (UNSIGNED_INT, "1i"),
    (FLOAT, "1f"), (FLOAT_VEC2, "2fv"), (FLOAT_VEC3, "3fv"), (FLOAT_VEC4, "4fv"),
    (35667, "2iv"), (35668, "3iv"), (35669, "4iv"),
    (35670, "1i"), (35671, "2iv"), (35672, "3iv"), (35673, "4iv"),
    (35674, "matrix2fv"), (35675, "matrix3fv"), (35676, "matrix4fv"),
    (35678, "1i"), (35680, "1i")]

  /** The first table entry from `i` on whose code is `t`. */
  function UniformTypeFrom(t: int, i: nat): (r: Option<string>)
    requires i <= |UNIFORM_TYPES|
    ensures r.Some? <==> exists j :: i <= j < |UNIFORM_TYPES| && UNIFORM_TYPES[j].0 == t
    ensures r.Some? ==> exists j :: i <= j < |UNIFORM_TYPES| && UNIFORM_TYPES[j] == (t, r.value)
    decreases |UNIFORM_TYPES| - i
  {
    if i == |UNIFORM_TYPES| then None
    else if UNIFORM_TYPES[i].0 == t then Some(UNIFORM_TYPES[i].1)
    else UniformTypeFrom(t, i + 1)
  }

  /** The setter suffix of a uniform parameter type; `None` when its `type` is absent or not in the table. */
  function UniformTypeOf(t: Option<int>): Option<string> {
    if t.None? then None else UniformTypeFrom(t.value, 0)
  }

  /** The codes of the table are distinct, so the first match is the only one. */
  lemma UniformCodesDistinct()
    ensures forall i, j :: 0 <= i < j < |UNIFORM_TYPES| ==> UNIFORM_TYPES[i].0 != UNIFORM_TYPES[j].0
  {
  }

  /** A uniform of type INT (5124) finds no entry. */
  lemma IntUniformUntyped()
    ensures UniformTypeOf(Some(INT)) == None
  {
  }

  /** A uniform of type FLOAT (5126) is set with `1f`. */
  lemma FloatUniformTyped()
    ensures UniformTypeOf(Some(FLOAT)) == Some("1f")
  {
    assert UniformTypeFrom(FLOAT, 5) == Some("1f");
    assert UniformTypeFrom(FLOAT, 3) == UniformTypeFrom(FLOAT, 5);
    assert UniformTypeFrom(FLOAT, 0) == UniformTypeFrom(FLOAT, 3);
  }

  /** The loop over `uniname` for one uniform: scan the table in order and stop at the first matching code. */
  method UniformTypeLookup(t: Option<int>) returns (r: Option<string>)
    ensures r == UniformTypeOf(t)
  {
    r := None;
    if t.None? {
      return;
    }
    var i := 0;
    while i < |UNIFORM_TYPES|
      invariant 0 <= i <= |UNIFORM_TYPES|
      invariant UniformTypeFrom(t.value, 0) == UniformTypeFrom(t.value, i)
    {
      if UNIFORM_TYPES[i].0 == t.value {
        return Some(UNIFORM_TYPES[i].1);
      }
      i := i + 1;
    }
  }

  /** The uniform types as `generateProgram` collects them: pushed only when a code matches. */
  function UniformTypesAsWritten(types: seq<Option<int>>): (r: seq<string>)
    ensures |r| <= |types|
  {
    if types == [] then []
    else
      var rest := UniformTypesAsWritten(types[1..]);
      match UniformTypeOf(types[0])
      case Some(u) => [u] + rest
      case None => rest
  }

  /** The values of the entries that are present, in order. */
  function Present(xs: seq<Option<string>>): (r: seq<string>)
    ensures |r| <= |xs|
  {
    if xs == [] then []
    else (if xs[0].Some? then [xs[0].value] else []) + Present(xs[1..])
  }

  /**
   * As written, the type list is the aligned list (one entry per uniform, `None` where a
   * uniform has no type) with its holes closed up: a type moves forward past every untyped
   * uniform before it.
   */
  lemma {:induction false} UniformTypesAsWrittenPresent(types: seq<Option<int>>)
    ensures UniformTypesAsWritten(types) ==
      Present(seq(|types|, j requires 0 <= j < |types| => UniformTypeOf(types[j])))
    decreases |types|
  {
    var aligned := seq(|types|, j requires 0 <= j < |types| => UniformTypeOf(types[j]));
    if types != [] {
      var tail := seq(|types[1..]|, j requires 0 <= j < |types[1..]| => UniformTypeOf(types[1..][j]));
      UniformTypesAsWrittenPresent(types[1..]);
      assert aligned[1..] == tail;
      var u := UniformTypeOf(types[0]);
      assert aligned[0] == u;
      assert UniformTypesAsWritten(types) == (if u.Some? then [u.value] else []) + UniformTypesAsWritten(types[1..]);
      assert Present(aligned) == (if u.Some? then [u.value] else []) + Present(tail);
    }
  }

  /**
   * An INT uniform followed by a FLOAT one: the single pushed type, `1f`, is the FLOAT
   * uniform's, yet it sits at index 0, beside the INT uniform's name.
   */
  lemma UniformTypesMisaligned()
    ensures UniformTypesAsWritten([Some(INT), Some(FLOAT)]) == ["1f"]
    ensures UniformTypeOf(Some(INT)) == None && UniformTypeOf(Some(FLOAT)) == Some("1f")
  {
    FloatUniformTyped();
    IntUniformUntyped();
    var types := [Some(INT), Some(FLOAT)];
    var tail := [Some(FLOAT)];
    assert tail[1..] == [];
    assert UniformTypesAsWritten(tail) == ["1f"];
    assert types[1..] == tail;
    assert UniformTypesAsWritten(types) == UniformTypesAsWritten(tail);
  }

  /**
   * The uniform types kept beside their uniforms, as `uniformValue`, `uniformSemantic` and
   * `uniformNode` are: entry `j` is uniform `j`'s type, `None` (a hole) when it has none.
   */
  method UniformTypes(types: seq<Option<int>>) returns (r: seq<Option<string>>)
    ensures |r| == |types|
    ensures forall j :: 0 <= j < |types| ==> r[j] == UniformTypeOf(types[j])
  {
    r := [];
    var j := 0;
    while j < |types|
      invariant 0 <= j <= |types| && |r| == j
      invariant forall i :: 0 <= i < j ==> r[i] == UniformTypeOf(types[i])
    {
      var u := UniformTypeLookup(types[j]);
      r := r + [u];
      j := j + 1;
    }
  }
}

=== FILE: materials.dfy ===
/**
 * Material resolution inside the `GLTFNode` constructor: a glTF material (section 3.9 of the
 * Khronos glTF 2.0 specification) with optional members becomes five texture slots with
 * fixed defaults. The defaults are the loader's own: metallic and roughness factors of 0.5,
 * where the specification says 1.0.
 */
module Materials {
  import opened Wrappers
  import opened JsValues
  import opened GltfDoc

  /** A decoded image, as `parse` collected it into `data.images`. */
  datatype ImageHandle = ImageHandle(id: nat)

  /** What a texture slot consults: `data.images` and the document's `textures` and `samplers`. */
  datatype MaterialEnv = MaterialEnv(
    images: Option<seq<ImageHandle>>,
    textures: Option<seq<TextureJson>>,
    samplers: Option<seq<SamplerJson>>)

  /** TypeErrors thrown while a texture is looked up. */
  datatype MaterialError =
    | MissingImages    // `data.images` is undefined
    | MissingTexture   // `textures` is undefined or has no entry at the texture index
    | MissingSamplers  // `samplers` is undefined

  /** One texture slot of the resolved material. */
  datatype TextureSlot = TextureSlot(image: JsRef<ImageHandle>, sampler: JsRef<SamplerJson>, index: nat, texCoordIndex: nat)

  /** The resolved material record, slot by slot, with each slot's scalar or vector factor. */
  datatype ResolvedMaterial = ResolvedMaterial(
    baseColorTexture: TextureSlot,
    baseColorFactor: seq<real>,
    metallicRoughnessTexture: TextureSlot,
    metallicFactor: real,
    roughnessFactor: real,
    normalTexture: TextureSlot,
    normalScale: real,
    occlusionTexture: TextureSlot,
    occlusionStrength: real,
    emissiveTexture: TextureSlot,
    emissiveFactor: seq<real>)

  /** A slot whose texture is absent: no image, no sampler, index 0, texture coordinate set 0. */
  const UNUSED_SLOT := TextureSlot(Null, Null, 0, 0)
  const DEFAULT_BASE_COLOR: seq<real> := [1.0, 1.0, 1.0, 1.0]
  const DEFAULT_METALLIC: real := 0.5
  const DEFAULT_ROUGHNESS: real := 0.5
  const DEFAULT_NORMAL_SCALE: real := 1.0
  const DEFAULT_OCCLUSION_STRENGTH: real := 1.0
  const DEFAULT_EMISSIVE: seq<real> := [0.0, 0.0, 0.0]

  /** The material every absent member leads to. */
  const DEFAULT_MATERIAL := ResolvedMaterial(
    UNUSED_SLOT, DEFAULT_BASE_COLOR, UNUSED_SLOT, DEFAULT_METALLIC, DEFAULT_ROUGHNESS,
    UNUSED_SLOT, DEFAULT_NORMAL_SCALE, UNUSED_SLOT, DEFAULT_OCCLUSION_STRENGTH, UNUSED_SLOT, DEFAULT_EMISSIVE)

  /** A texture reference the environment can satisfy without throwing. */
  predicate Resolvable(env: MaterialEnv, t: TextureRef) {
    && env.images.Some?
    && env.textures.Some? && t.index.Some? && t.index.value < |env.textures.value|
    && env.samplers.Some?
  }

  /**
   * One slot: the image is `images[index]`, the sampler `samplers[textures[index].sampler]`
   * (both `undefined` when out of range) and the texture coordinate set defaults to 0. The
   * image lookup throws first, then the texture lookup, then the sampler lookup.
   */
  function ResolveSlot(env: MaterialEnv, t: Option<TextureRef>): (r: Result<TextureSlot, MaterialError>)
    ensures t.None? ==> r == Success(UNUSED_SLOT)
    ensures t.Some? ==> (r.Success? <==> Resolvable(env, t.value))
    ensures t.Some? && env.images.None? ==> r == Failure(MissingImages)
    ensures t.Some? && r.Success? ==>
      var i := t.value.index.value;
      && r.value.index == i
      && r.value.texCoordIndex == t.value.texCoord.GetOr(0)
      && (r.value.image.Val? <==> i < |env.images.value|)
      && (r.value.image.Val? ==> r.value.image.v == env.images.value[i])
      && (r.value.sampler.Val? <==> (env.textures.value[i].sampler.Some? &&
            env.textures.value[i].sampler.value < |env.samplers.value|))
      && (r.value.sampler.Val? ==> r.value.sampler.v == env.samplers.value[env.textures.value[i].sampler.value])
      && !r.value.image.Null? && !r.value.sampler.Null?
  {
    match t
    case None => Success(UNUSED_SLOT)
    case Some(tex) =>
      if env.images.None? then Failure(MissingImages)
      else
        var image := ItemAt(env.images.value, tex.index);
        if env.textures.None? || tex.index.None? || tex.index.value >= |env.textures.value| then Failure(MissingTexture)
        else if env.samplers.None? then Failure(MissingSamplers)
        else
          var sampler := ItemAt(env.samplers.value, env.textures.value[tex.index.value].sampler);
          Success(TextureSlot(image, sampler, tex.index.value, tex.texCoord.GetOr(0)))
  }

  function BaseColorRef(m: MaterialJson): Option<TextureRef> {
    if m.pbrMetallicRoughness.Some? then m.pbrMetallicRoughness.value.baseColorTexture else None
  }

  function MetallicRoughnessRef(m: MaterialJson): Option<TextureRef> {
    if m.pbrMetallicRoughness.Some? then m.pbrMetallicRoughness.value.metallicRoughnessTexture else None
  }

  /**
   * The material part of the `GLTFNode` constructor. It throws exactly when one of the
   * textures the material references cannot be looked up.
   */
  function ResolveMaterial(env: MaterialEnv, m: MaterialJson): (r: Result<ResolvedMaterial, MaterialError>)
    ensures r.Success? <==>
      && (BaseColorRef(m).Some? ==> Resolvable(env, BaseColorRef(m).value))
      && (MetallicRoughnessRef(m).Some? ==> Resolvable(env, MetallicRoughnessRef(m).value))
      && (m.normalTexture.Some? ==> Resolvable(env, m.normalTexture.value))
      && (m.occlusionTexture.Some? ==> Resolvable(env, m.occlusionTexture.value))
      && (m.emissiveTexture.Some? ==> Resolvable(env, m.emissiveTexture.value))
  {
    var pbr := m.pbrMetallicRoughness;
    var baseColor :- ResolveSlot(env, BaseColorRef(m));
    var metallicRoughness :- ResolveSlot(env, MetallicRoughnessRef(m));
    var normal :- ResolveSlot(env, m.normalTexture);
    var occlusion :- ResolveSlot(env, m.occlusionTexture);
    var emissive :- ResolveSlot(env, m.emissiveTexture);
    Success(ResolvedMaterial(
      baseColor,
      if pbr.Some? then pbr.value.baseColorFactor.GetOr(DEFAULT_BASE_COLOR) else DEFAULT_BASE_COLOR,
      metallicRoughness,
      if pbr.Some? then pbr.value.metallicFactor.GetOr(DEFAULT_METALLIC) else DEFAULT_METALLIC,
      if pbr.Some? then pbr.value.roughnessFactor.GetOr(DEFAULT_ROUGHNESS) else DEFAULT_ROUGHNESS,
      normal,
      if m.normalTexture.Some? then m.normalTexture.value.scale.GetOr(DEFAULT_NORMAL_SCALE) else DEFAULT_NORMAL_SCALE,
      occlusion,
      if m.occlusionTexture.Some? then m.occlusionTexture.value.strength.GetOr(DEFAULT_OCCLUSION_STRENGTH)
      else DEFAULT_OCCLUSION_STRENGTH,
      emissive,
      m.emissiveFactor.GetOr(DEFAULT_EMISSIVE)))
  }

  /** A material with no texture and no factor resolves to the defaults, whatever the environment holds. */
  lemma DefaultsWhenEmpty(env: MaterialEnv, name: Option<string>)
    ensures ResolveMaterial(env, MaterialJson(name, None, None, None, None, None)) == Success(DEFAULT_MATERIAL)
    ensures ResolveMaterial(env, MaterialJson(name, Some(PbrJson(None, None, None, None, None)), None, None, None, None))
      == Success(DEFAULT_MATERIAL)
  {
  }

  /** `pbrMetallicRoughness`, or an empty one where the material has none. */
  function PbrOf(m: MaterialJson): PbrJson {
    m.pbrMetallicRoughness.GetOr(PbrJson(None, None, None, None, None))
  }

  // Each member overrides only its own default. Setting or clearing one member of a resolvable
  // material changes the matching field of the result, to the member's value or that field's
  // default, and nothing else; starting from `DefaultsWhenEmpty`, these fix every field.

  /** Setting or clearing `baseColorFactor` changes that field of the result and nothing else. */
  lemma BaseColorFactorOverrideOnly(env: MaterialEnv, m: MaterialJson, x: Option<seq<real>>)
    requires ResolveMaterial(env, m).Success?
    ensures var m' := m.(pbrMetallicRoughness := Some(PbrOf(m).(baseColorFactor := x)));
      ResolveMaterial(env, m') == Success(ResolveMaterial(env, m).value.(baseColorFactor := x.GetOr(DEFAULT_BASE_COLOR)))
  {
  }

  /** Setting or clearing `metallicFactor` changes that field of the result and nothing else. */
  lemma MetallicOverrideOnly(env: MaterialEnv, m: MaterialJson, x: Option<real>)
    requires ResolveMaterial(env, m).Success?
    ensures var m' := m.(pbrMetallicRoughness := Some(PbrOf(m).(metallicFactor := x)));
      ResolveMaterial(env, m') == Success(ResolveMaterial(env, m).value.(metallicFactor := x.GetOr(DEFAULT_METALLIC)))
  {
  }

  /** Setting or clearing `roughnessFactor` changes that field of the result and nothing else. */
  lemma RoughnessOverrideOnly(env: MaterialEnv, m: MaterialJson, x: Option<real>)
    requires ResolveMaterial(env, m).Success?
    ensures var m' := m.(pbrMetallicRoughness := Some(PbrOf(m).(roughnessFactor := x)));
      ResolveMaterial(env, m') == Success(ResolveMaterial(env, m).value.(roughnessFactor := x.GetOr(DEFAULT_ROUGHNESS)))
  {
  }

  /** Setting or clearing `emissiveFactor` changes that field of the result and nothing else. */
  lemma EmissiveFactorOverrideOnly(env: MaterialEnv, m: MaterialJson, x: Option<seq<real>>)
    requires ResolveMaterial(env, m).Success?
    ensures ResolveMaterial(env, m.(emissiveFactor := x))
      == Success(ResolveMaterial(env, m).value.(emissiveFactor := x.GetOr(DEFAULT_EMISSIVE)))
  {
  }

  /** Setting a resolvable base colour texture, or removing it, changes only that slot. */
  lemma BaseColorTextureOverrideOnly(env: MaterialEnv, m: MaterialJson, t: Option<TextureRef>)
    requires ResolveMaterial(env, m).Success? && (t.Some? ==> Resolvable(env, t.value))
    ensures var m' := m.(pbrMetallicRoughness := Some(PbrOf(m).(baseColorTexture := t)));
      ResolveMaterial(env, m') == Success(ResolveMaterial(env, m).value.(baseColorTexture := ResolveSlot(env, t).value))
  {
  }

  /** Setting a resolvable metallic-roughness texture, or removing it, changes only that slot. */
  lemma MetallicRoughnessTextureOverrideOnly(env: MaterialEnv, m: MaterialJson, t: Option<TextureRef>)
    requires ResolveMaterial(env, m).Success? && (t.Some? ==> Resolvable(env, t.value))
    ensures var m' := m.(pbrMetallicRoughness := Some(PbrOf(m).(metallicRoughnessTexture := t)));
      ResolveMaterial(env, m') == Success(ResolveMaterial(env, m).value.(metallicRoughnessTexture := ResolveSlot(env, t).value))
  {
  }

  /** Setting a resolvable normal texture, or removing it, changes only the normal slot and the normal scale. */
  lemma NormalTextureOverrideOnly(env: MaterialEnv, m: MaterialJson, t: Option<TextureRef>)
    requires ResolveMaterial(env, m).Success? && (t.Some? ==> Resolvable(env, t.value))
    ensures ResolveMaterial(env, m.(normalTexture := t)) == Success(ResolveMaterial(env, m).value.(
              normalTexture := ResolveSlot(env, t).value,
              normalScale := if t.Some? then t.value.scale.GetOr(DEFAULT_NORMAL_SCALE) else DEFAULT_NORMAL_SCALE))
  {
  }

  /** Setting a resolvable occlusion texture, or removing it, changes only the occlusion slot and strength. */
  lemma OcclusionTextureOverrideOnly(env: MaterialEnv, m: MaterialJson, t: Option<TextureRef>)
    requires ResolveMaterial(env, m).Success? && (t.Some? ==> Resolvable(env, t.value))
    ensures ResolveMaterial(env, m.(occlusionTexture := t)) == Success(ResolveMaterial(env, m).value.(
              occlusionTexture := ResolveSlot(env, t).value,
              occlusionStrength := if t.Some? then t.value.strength.GetOr(DEFAULT_OCCLUSION_STRENGTH)
                                   else DEFAULT_OCCLUSION_STRENGTH))
  {
  }

  /** Setting a resolvable emissive texture, or removing it, changes only the emissive slot, not the emissive factor. */
  lemma EmissiveTextureOverrideOnly(env: MaterialEnv, m: MaterialJson, t: Option<TextureRef>)
    requires ResolveMaterial(env, m).Success? && (t.Some? ==> Resolvable(env, t.value))
    ensures ResolveMaterial(env, m.(emissiveTexture := t))
      == Success(ResolveMaterial(env, m).value.(emissiveTexture := ResolveSlot(env, t).value))
  {
  }
}

=== FILE: paths.dfy ===
/**
 * The path handling at the start of `load`, in both loaders: the argument is checked, the
 * file name is matched with `/[^\/]+(\.gltf|\.glb)$/`, and the path is split into the
 * directory, the base name and the kind of container to fetch next.
 */
module Paths {
  import opened Wrappers

  /** The argument of `load`: `null`/`undefined`, a string, or a value of any other type. */
  datatype PathArg = NullArg | StringArg(s: string) | OtherArg

  /** The one rejection `load` makes: `invalid path`. */
  datatype PathError = InvalidPath

  /** What `load` goes on to do: `fetchGltf(target)` or `fetchGlb(target)`. */
  datatype Request = FetchGltf(target: string) | FetchGlb(target: string)

  /** The loader's record of a path: `fullPath`, `path` (the directory) and `fileName`. */
  datatype PathSplit = PathSplit(fullPath: string, directory: string, fileName: string, binary: bool)

  const GLTF_EXT := ".gltf"
  const GLB_EXT := ".glb"

  predicate EndsWith(s: string, suffix: string) {
    |suffix| <= |s| && s[|s| - |suffix|..] == suffix
  }

  /** A whole string matching `[^\/]+(\.gltf|\.glb)`. */
  predicate FileNamePattern(x: string) {
    && (forall i :: 0 <= i < |x| ==> x[i] != '/')
    && ((EndsWith(x, GLTF_EXT) && |x| > |GLTF_EXT|) || (EndsWith(x, GLB_EXT) && |x| > |GLB_EXT|))
  }

  /** Where the last segment of `s` starts: just after its last `/`, or at 0. */
  function SegmentStart(s: string): (k: nat)
    ensures k <= |s|
    ensures forall i :: k <= i < |s| ==> s[i] != '/'
    ensures k == 0 || s[k - 1] == '/'
  {
    if |s| == 0 || s[|s| - 1] == '/' then |s|
    else
      var k := SegmentStart(s[..|s| - 1]);
      assert forall i :: k <= i < |s| - 1 ==> s[..|s| - 1][i] == s[i];
      k
  }

  /** When `n` ends `s`, an extension no longer than `n` ends `s` exactly when it ends `n`. */
  lemma SuffixEnds(s: string, n: string, e: string)
    requires EndsWith(s, n) && |e| <= |n|
    ensures EndsWith(s, e) <==> EndsWith(n, e)
  {
    assert s[|s| - |e|..] == n[|n| - |e|..];
  }

  /** No name ends in both extensions: their last characters differ. */
  lemma ExtensionsExclusive(x: string)
    ensures !(EndsWith(x, GLTF_EXT) && EndsWith(x, GLB_EXT))
  {
    if EndsWith(x, GLTF_EXT) {
      assert x[|x| - |GLTF_EXT|..][4] == 'f';
    }
    if EndsWith(x, GLB_EXT) {
      assert x[|x| - |GLB_EXT|..][3] == 'b';
    }
  }

  /** A suffix that matches, inside a run of `/`-free characters, makes the whole run match. */
  lemma SuffixMatch(s: string, k: nat, j: nat)
    requires k <= j <= |s|
    ensures (forall i :: k <= i < |s| ==> s[i] != '/') && FileNamePattern(s[j..]) ==> FileNamePattern(s[k..])
  {
    var x, y := s[k..], s[j..];
    assert EndsWith(x, y) by {
      assert x[|x| - |y|..] == y;
    }
    if |y| > |GLTF_EXT| {
      SuffixEnds(x, y, GLTF_EXT);
    }
    if |y| > |GLB_EXT| {
      SuffixEnds(x, y, GLB_EXT);
    }
    assert forall i :: 0 <= i < |x| ==> x[i] == s[k + i];
  }

  /**
   * `s.match(/[^\/]+(\.gltf|\.glb)$/)[0]`: the leftmost suffix of `s` that matches, `None`
   * when no suffix does.
   */
  function MatchFileName(s: string): (r: Option<string>)
    ensures r.Some? ==> FileNamePattern(r.value) && EndsWith(s, r.value)
    ensures r.Some? ==> forall k :: 0 <= k < |s| - |r.value| ==> !FileNamePattern(s[k..])
    ensures r.None? ==> forall k :: 0 <= k <= |s| ==> !FileNamePattern(s[k..])
  {
    var k := SegmentStart(s);
    assert forall j :: 0 <= j < k ==> s[j..][k - 1 - j] == '/';
    if FileNamePattern(s[k..]) then
      Some(s[k..])
    else
      assert forall j :: k <= j <= |s| ==> !FileNamePattern(s[j..]) by {
        forall j | k <= j <= |s| && FileNamePattern(s[j..]) {
          SuffixMatch(s, k, j);
        }
      }
      None
  }

  /** `path.search(/\.glb$/) > -1`. */
  predicate IsBinary(s: string) {
    EndsWith(s, GLB_EXT)
  }

  /** `t` occurs in `s` at index `j`. */
  predicate OccursAt(s: string, t: string, j: int) {
    0 <= j && j + |t| <= |s| && s[j..j + |t|] == t
  }

  /** The first index from `i` on where `t` occurs in `s`. */
  function IndexFrom(s: string, t: string, i: nat): (r: Option<nat>)
    requires i <= |s|
    ensures r.Some? ==> i <= r.value && OccursAt(s, t, r.value)
    ensures r.Some? ==> forall j :: i <= j < r.value ==> !OccursAt(s, t, j)
    ensures r.None? ==> forall j :: i <= j ==> !OccursAt(s, t, j)
    decreases |s| - i
  {
    if i + |t| > |s| then None
    else if s[i..i + |t|] == t then Some(i)
    else IndexFrom(s, t, i + 1)
  }

  /** `s.indexOf(t)`. */
  function IndexOf(s: string, t: string): Option<nat> {
    IndexFrom(s, t, 0)
  }

  /** `s.replace(t, '')` with a string pattern: only the first occurrence of `t` is removed. */
  function RemoveFirst(s: string, t: string): (r: string)
    ensures IndexOf(s, t).Some? ==> |r| == |s| - |t|
    ensures IndexOf(s, t).Some? ==> r == s[..IndexOf(s, t).value] + s[IndexOf(s, t).value + |t|..]
    ensures IndexOf(s, t).None? ==> r == s
  {
    match IndexOf(s, t)
    case Some(i) => s[..i] + s[i + |t|..]
    case None => s
  }

  /**
   * `path.replace(fileName, '')`, as the loaders compute the directory: the path less one copy
   * of the name, which is the path's own prefix only when the name first occurs at its end.
   */
  function DirectoryAsWritten(s: string, name: string): (d: string)
    ensures EndsWith(s, name) ==> |d| + |name| == |s|
    ensures IndexOf(s, name) == Some(|s| - |name|) ==> d + name == s
  {
    assert EndsWith(s, name) ==> OccursAt(s, name, |s| - |name|);
    RemoveFirst(s, name)
  }

  /** The directory the loaders mean: everything before the file name that ends the path. */
  function Directory(s: string, name: string): (d: string)
    requires EndsWith(s, name)
    ensures d + name == s
  {
    s[..|s| - |name|]
  }

  /**
   * The parts of a matched path: the directory is empty or ends in `/`, prefixed to the name
   * it gives the path back, and the name ends in the extension the path ends in.
   */
  lemma NameParts(s: string)
    requires MatchFileName(s).Some?
    ensures var n := MatchFileName(s).value;
      && Directory(s, n) + n == s
      && (Directory(s, n) == [] || Directory(s, n)[|Directory(s, n)| - 1] == '/')
      && (EndsWith(n, GLB_EXT) <==> IsBinary(s))
      && (EndsWith(n, GLTF_EXT) <==> !IsBinary(s))
  {
    var n := MatchFileName(s).value;
    var d := Directory(s, n);
    if d != [] {
      var k := |d| - 1;
      assert !FileNamePattern(s[k..]);
      forall i | k < i < |s|
        ensures s[i] == n[i - |d|]
      {
      }
      SuffixMatch(s, k, |d|);
      assert s[k..] == [s[k]] + n;
    }
    SuffixEnds(s, n, GLB_EXT);
    ExtensionsExclusive(n);
  }

  /** When the file name occurs nowhere earlier in the path, the code as written finds the right directory. */
  lemma AsWrittenWhenUnique(s: string, name: string)
    requires EndsWith(s, name)
    requires IndexOf(s, name) == Some(|s| - |name|)
    ensures DirectoryAsWritten(s, name) == Directory(s, name)
  {
  }

  /** A matched name never reaches back over a `/` of the path. */
  lemma NameAfterSlash(s: string, n: string, j: nat)
    requires EndsWith(s, n) && FileNamePattern(n)
    requires j < |s| && s[j] == '/'
    ensures |n| < |s| - j
  {
  }

  /** The path that shows the misplaced directory: `b.gltf` in the directory `ab.gltf/`. */
  const SAMPLE_PATH := "ab.gltf/b.gltf"
  const SAMPLE_NAME := "b.gltf"

  lemma SampleName()
    ensures MatchFileName(SAMPLE_PATH) == Some(SAMPLE_NAME)
  {
    var s := SAMPLE_PATH;
    assert s[8..] == SAMPLE_NAME;
    assert FileNamePattern(s[8..]);
    var n := MatchFileName(s).value;
    NameAfterSlash(s, n, 7);
    assert n == s[8..];
  }

  lemma SampleIndex()
    ensures IndexOf(SAMPLE_PATH, SAMPLE_NAME) == Some(1)
  {
    var s, t := SAMPLE_PATH, SAMPLE_NAME;
    assert !OccursAt(s, t, 0) by {
      assert s[0..6][0] == 'a';
    }
    assert s[1..7] == t;
  }

  /** For `ab.gltf/b.gltf` the file name `b.gltf` is removed where it first occurs, inside the directory. */
  lemma AsWrittenMisplacesDirectory()
    ensures MatchFileName(SAMPLE_PATH) == Some(SAMPLE_NAME)
    ensures DirectoryAsWritten(SAMPLE_PATH, SAMPLE_NAME) == "a/b.gltf"
    ensures Directory(SAMPLE_PATH, SAMPLE_NAME) == "ab.gltf/"
  {
    SampleName();
    SampleIndex();
    var s := SAMPLE_PATH;
    assert s[..1] + s[7..] == "a/b.gltf";
  }

  /** So the newer loader, given `ab.gltf/b.gltf`, records `a/b.gltf` and asks for `a/b.gltf` + `b.gltf`. */
  lemma AsWrittenMisplacesRequest()
    ensures SplitPath(StringArg(SAMPLE_PATH), false) == Success(PathSplit(SAMPLE_PATH, "a/b.gltf", "b", false))
    ensures Url(RequestOf(SplitPath(StringArg(SAMPLE_PATH), false).value)) == "a/b.gltf" + SAMPLE_NAME
  {
    var s, n := SAMPLE_PATH, SAMPLE_NAME;
    AsWrittenMisplacesDirectory();
    var d := DirectoryAsWritten(s, n);
    assert !IsBinary(s) by {
      assert s[|s| - |GLB_EXT|..][3] == 'f';
    }
    var base := StripSuffix(n, GLTF_EXT);
    assert base == "b" by {
      assert n[|n| - |GLTF_EXT|..] == GLTF_EXT;
      assert n[..1] == "b";
    }
    assert SplitPath(StringArg(s), false) == Success(PathSplit(s, d, base, false));
    Reassociate(d, base, GLTF_EXT);
  }

  /** `fileName[0].replace(suffix-regex, '')` on a name that has no `/`: the suffix dropped when present. */
  function StripSuffix(x: string, suffix: string): (r: string)
    ensures EndsWith(x, suffix) ==> r + suffix == x
    ensures !EndsWith(x, suffix) ==> r == x
  {
    if EndsWith(x, suffix) then x[..|x| - |suffix|] else x
  }

  /**
   * The path check and split of `load`. `legacy` selects the older loader, which strips only
   * a `.gltf` extension and so keeps `.glb` in the file name.
   */
  function SplitPath(arg: PathArg, legacy: bool): (r: Result<PathSplit, PathError>)
    ensures !arg.StringArg? || arg.s == "" ==> r == Failure(InvalidPath)
    ensures r.Success? ==> arg.StringArg? && MatchFileName(arg.s).Some?
    ensures r.Success? ==> r.value.fullPath == arg.s && (r.value.binary <==> IsBinary(arg.s))
    ensures r.Success? ==> |r.value.directory| + |MatchFileName(arg.s).value| == |arg.s|
  {
    if !arg.StringArg? || arg.s == "" then Failure(InvalidPath)
    else
      var s := arg.s;
      match MatchFileName(s)
      case None => Failure(InvalidPath)
      case Some(name) =>
        var binary := IsBinary(s);
        var base := if binary && !legacy then StripSuffix(name, GLB_EXT) else StripSuffix(name, GLTF_EXT);
        Success(PathSplit(s, DirectoryAsWritten(s, name), base, binary))
  }

  /** `fetchGlb(this.path + this.fileName)` for a `.glb` path, `fetchGltf(…)` otherwise. */
  function RequestOf(p: PathSplit): Request {
    if p.binary then FetchGlb(p.directory + p.fileName) else FetchGltf(p.directory + p.fileName)
  }

  /** The URL each fetch asks for: the target with `.gltf` or `.glb` appended. */
  function Url(r: Request): string {
    match r
    case FetchGltf(t) => t + GLTF_EXT
    case FetchGlb(t) => t + GLB_EXT
  }

  /** `load` accepts exactly the strings with a suffix matching the file-name pattern, in both loaders. */
  lemma SplitAccepts(arg: PathArg, legacy: bool)
    ensures SplitPath(arg, legacy).Success? <==>
      arg.StringArg? && exists k :: 0 <= k <= |arg.s| && FileNamePattern(arg.s[k..])
  {
    if arg.StringArg? && MatchFileName(arg.s).Some? {
      var n := MatchFileName(arg.s).value;
      assert arg.s[|arg.s| - |n|..] == n;
    }
  }

  lemma Reassociate(a: string, b: string, c: string)
    ensures a + b + c == a + (b + c)
  {
  }

  /**
   * The newer loader records the full path and asks for the directory it computed followed by
   * the matched file name; that is the path it was given exactly when the name first occurs
   * at the path's end.
   */
  lemma Gl3RequestsPath(arg: PathArg)
    requires SplitPath(arg, false).Success?
    ensures var p := SplitPath(arg, false).value;
      var n := MatchFileName(arg.s).value;
      && p.fullPath == arg.s
      && (p.binary <==> EndsWith(arg.s, GLB_EXT))
      && p.fileName + (if p.binary then GLB_EXT else GLTF_EXT) == n
      && Url(RequestOf(p)) == DirectoryAsWritten(arg.s, n) + n
      && (IndexOf(arg.s, n) == Some(|arg.s| - |n|) ==> Url(RequestOf(p)) == arg.s)
  {
    var s := arg.s;
    var n := MatchFileName(s).value;
    NameParts(s);
    var p := SplitPath(arg, false).value;
    var e := if p.binary then GLB_EXT else GLTF_EXT;
    assert p.fileName + e == n;
    Reassociate(p.directory, p.fileName, e);
  }

  /**
   * The older loader strips only `.gltf`: a `.gltf` path is requested as the directory plus
   * the name, while a `.glb` path keeps `.glb` in `fileName` and gets `.glb` appended again.
   */
  lemma LegacyRequestsPath(arg: PathArg)
    requires SplitPath(arg, true).Success?
    ensures var p := SplitPath(arg, true).value;
      var n := MatchFileName(arg.s).value;
      && p.fullPath == arg.s
      && (p.binary ==> p.fileName == n && Url(RequestOf(p)) == DirectoryAsWritten(arg.s, n) + n + GLB_EXT)
      && (!p.binary ==> Url(RequestOf(p)) == DirectoryAsWritten(arg.s, n) + n)
      && (IndexOf(arg.s, n) == Some(|arg.s| - |n|) ==>
            Url(RequestOf(p)) == if p.binary then arg.s + GLB_EXT else arg.s)
  {
    var s := arg.s;
    var n := MatchFileName(s).value;
    NameParts(s);
    var p := SplitPath(arg, true).value;
    if !p.binary {
      assert p.fileName + GLTF_EXT == n;
      Reassociate(p.directory, p.fileName, GLTF_EXT);
    }
  }

  /** The loader object: `load` records the path's parts in its fields before fetching. */
  class Loader {
    const legacy: bool
    var path: string
    var fullPath: string
    var fileName: string

    constructor (legacy: bool)
      ensures this.legacy == legacy
      ensures path == "" && fullPath == "" && fileName == ""
    {
      this.legacy := legacy;
      path := "";
      fullPath := "";
      fileName := "";
    }

    /** `load(path)`: an invalid path is rejected before any field changes. */
    method Load(arg: PathArg) returns (r: Result<Request, PathError>)
      modifies this
      ensures r.Failure? <==> SplitPath(arg, legacy).Failure?
      ensures r.Failure? ==> path == old(path) && fullPath == old(fullPath) && fileName == old(fileName)
      ensures r.Success? ==>
        var p := SplitPath(arg, legacy).value;
        && fullPath == p.fullPath && path == p.directory && fileName == p.fileName
        && r.value == RequestOf(p)
    {
      var split := SplitPath(arg, legacy);
      if split.Failure? {
        return Failure(split.error);
      }
      fullPath := split.value.fullPath;
      fileName := split.value.fileName;
      path := split.value.directory;
      if split.value.binary {
        r := Success(FetchGlb(path + fileName));
      } else {
        r := Success(FetchGltf(path + fileName));
      }
    }
  }
}

=== FILE: scenegraph.dfy ===
/**
 * Scene-tree construction of the current loader: the `GLTFNode` constructor builds a node's
 * mesh primitives and then its children in list order, recursively, while appending every
 * resolved material to `data.materials[material.name]` and every named child to
 * `data.nodes[name]`. This module holds the specification of that recursion as functions
 * that thread the two name indexes through the traversal, and the lemmas about it.
 */
module SceneGraph {
  import opened Wrappers
  import opened JsValues
  import opened GltfDoc
  import opened BufferViews
  import opened Materials

  /** `PRIMITIVE_TYPE[mode]`: the seven WebGL primitive names, `undefined` otherwise (also when `mode` is absent). */
  function PrimitiveTypeName(mode: Option<int>): (r: Option<string>)
    ensures r.Some? <==> mode.Some? && 0 <= mode.value <= 6
    ensures mode == Some(4) ==> r == Some("TRIANGLES")
  {
    if mode.None? then None
    else if mode.value == 0 then Some("POINTS")
    else if mode.value == 1 then Some("LINES")
    else if mode.value == 2 then Some("LINE_LOOP")
    else if mode.value == 3 then Some("LINE_STRIP")
    else if mode.value == 4 then Some("TRIANGLES")
    else if mode.value == 5 then Some("TRIANGLE_STRIP")
    else if mode.value == 6 then Some("TRIANGLE_FAN")
    else None
  }

  /** The attribute semantics `ATTRIBUTE_TYPE` knows. */
  predicate KnownSemantic(s: string) {
    s in {"POSITION", "NORMAL", "TANGENT", "TEXCOORD_0", "TEXCOORD_1", "COLOR_0", "JOINTS_0", "WEIGHTS_0"}
  }

  /** The member name an attribute is stored under: `ATTRIBUTE_TYPE[semantic]`, which is the key "undefined" for an unknown semantic. */
  function AttributeKey(semantic: string): (k: string)
    ensures !KnownSemantic(semantic) <==> k == "undefined"
  {
    if semantic == "POSITION" then "position"
    else if semantic == "NORMAL" then "normal"
    else if semantic == "TANGENT" then "tangent"
    else if semantic == "TEXCOORD_0" then "texCoord0"
    else if semantic == "TEXCOORD_1" then "texCoord1"
    else if semantic == "COLOR_0" then "color"
    else if semantic == "JOINTS_0" then "joints"
    else if semantic == "WEIGHTS_0" then "weights"
    else "undefined"
  }

  /** Distinct known semantics are stored under distinct names, so none overwrites another. */
  lemma AttributeKeyInjective(s: string, t: string)
    requires KnownSemantic(s) && KnownSemantic(t) && s != t
    ensures AttributeKey(s) != AttributeKey(t)
  {
  }

  /** A built primitive. `materialKey` records the `data.materials` key its material was appended under. */
  datatype PrimitiveOut = PrimitiveOut(
    primitiveType: Option<string>,
    attributes: map<string, JsRef<ParsedBuffer>>,
    indices: Option<JsRef<ParsedBuffer>>,
    material: Option<ResolvedMaterial>,
    materialKey: Option<string>)

  /** A built `GLTFNode`. */
  datatype SceneNode = SceneNode(
    name: Option<string>,
    mesh: Option<seq<PrimitiveOut>>,
    matrix: Option<seq<real>>,
    translation: Option<seq<real>>,
    rotation: Option<seq<real>>,
    scale: Option<seq<real>>,
    children: seq<SceneNode>)

  /** The exceptions the constructor can throw. */
  datatype SceneError =
    | MissingMesh                    // `meshes` undefined or no mesh at the index
    | MissingPrimitives              // the mesh has no `primitives`
    | MissingAttributes              // `Object.keys(undefined)` on a primitive without `attributes`
    | MissingMaterial                // `materials` undefined or no material at the index
    | BadTexture(cause: MaterialError)
    | MissingNode                    // `nodes` undefined or no node at a child index
    | TooDeep                        // the recursion exceeds the stack (a cyclic or too deep hierarchy)
    | InvalidSceneData               // the guard of `getScene`

  /** The `data` members the constructor reads. */
  datatype Doc = Doc(
    gltf: Gltf,
    binaries: Option<seq<BinaryEntry>>,
    parsedBuffers: seq<ParsedBuffer>,
    images: Option<seq<ImageHandle>>)

  function Env(doc: Doc): MaterialEnv {
    MaterialEnv(doc.images, doc.gltf.textures, doc.gltf.samplers)
  }

  /** `data.materials[material.name]` uses the key "undefined" for a material without a name. */
  function MaterialKey(m: MaterialJson): string {
    m.name.GetOr("undefined")
  }

  /**
   * The attribute loop: each attribute in key order stores `parsedBuffers[index]` under its
   * member name, a later attribute overwriting an earlier one with the same name.
   */
  function AttributeMap(attrs: seq<(string, nat)>, parsed: seq<ParsedBuffer>, i: nat,
                        acc: map<string, JsRef<ParsedBuffer>>): map<string, JsRef<ParsedBuffer>>
    requires i <= |attrs|
    decreases |attrs| - i
  {
    if i == |attrs| then acc
    else AttributeMap(attrs, parsed, i + 1, acc[AttributeKey(attrs[i].0) := ItemAt(parsed, Some(attrs[i].1))])
  }

  /** The names the attribute loop stores under are exactly the names of the attributes. */
  lemma {:induction false} AttributeMapKeys(attrs: seq<(string, nat)>, parsed: seq<ParsedBuffer>, i: nat,
                                            acc: map<string, JsRef<ParsedBuffer>>, k: string)
    requires i <= |attrs|
    ensures k in AttributeMap(attrs, parsed, i, acc) <==>
      k in acc || exists j :: i <= j < |attrs| && AttributeKey(attrs[j].0) == k
    decreases |attrs| - i
  {
    if i < |attrs| {
      var key := AttributeKey(attrs[i].0);
      AttributeMapKeys(attrs, parsed, i + 1, acc[key := ItemAt(parsed, Some(attrs[i].1))], k);
      if key == k {
        assert i <= i < |attrs| && AttributeKey(attrs[i].0) == k;
      }
      if exists j :: i <= j < |attrs| && AttributeKey(attrs[j].0) == k {
        var j :| i <= j < |attrs| && AttributeKey(attrs[j].0) == k;
        assert j == i || (i + 1 <= j < |attrs| && AttributeKey(attrs[j].0) == k);
      }
    }
  }

  /** An attribute whose name no later attribute reuses keeps its own buffer. */
  lemma {:induction false} AttributeMapLast(attrs: seq<(string, nat)>, parsed: seq<ParsedBuffer>, i: nat,
                                            acc: map<string, JsRef<ParsedBuffer>>, j: nat)
    requires i <= j < |attrs|
    requires forall l :: j < l < |attrs| ==> AttributeKey(attrs[l].0) != AttributeKey(attrs[j].0)
    ensures AttributeKey(attrs[j].0) in AttributeMap(attrs, parsed, i, acc)
    ensures AttributeMap(attrs, parsed, i, acc)[AttributeKey(attrs[j].0)] == ItemAt(parsed, Some(attrs[j].1))
    decreases |attrs| - i
  {
    var next := acc[AttributeKey(attrs[i].0) := ItemAt(parsed, Some(attrs[i].1))];
    if i < j {
      AttributeMapLast(attrs, parsed, i + 1, next, j);
    } else {
      AttributeMapKeep(attrs, parsed, i + 1, next, AttributeKey(attrs[j].0));
    }
  }

  /** A name no remaining attribute uses keeps the value it already has. */
  lemma {:induction false} AttributeMapKeep(attrs: seq<(string, nat)>, parsed: seq<ParsedBuffer>, i: nat,
                                            acc: map<string, JsRef<ParsedBuffer>>, k: string)
    requires i <= |attrs| && k in acc
    requires forall l :: i <= l < |attrs| ==> AttributeKey(attrs[l].0) != k
    ensures k in AttributeMap(attrs, parsed, i, acc) && AttributeMap(attrs, parsed, i, acc)[k] == acc[k]
    decreases |attrs| - i
  {
    if i < |attrs| {
      AttributeMapKeep(attrs, parsed, i + 1, acc[AttributeKey(attrs[i].0) := ItemAt(parsed, Some(attrs[i].1))], k);
    }
  }

  /**
   * One mesh primitive of the constructor: type, attributes, indices, then the material. It
   * succeeds exactly when it has attributes and any material it names exists and resolves.
   */
  function BuildPrimitive(doc: Doc, p: PrimitiveJson): (r: Result<PrimitiveOut, SceneError>)
    ensures r.Success? <==>
      && p.attributes.Some?
      && (p.material.Some? ==>
            && doc.gltf.materials.Some? && p.material.value < |doc.gltf.materials.value|
            && ResolveMaterial(Env(doc), doc.gltf.materials.value[p.material.value]).Success?)
    ensures r.Failure? && r.error.BadTexture? ==> p.material.Some? && p.attributes.Some?
  {
    if p.attributes.None? then Failure(MissingAttributes)
    else
      var attributes := AttributeMap(p.attributes.value, doc.parsedBuffers, 0, map[]);
      var indices := if p.indices.Some? then Some(ItemAt(doc.parsedBuffers, p.indices)) else None;
      if p.material.None? then Success(PrimitiveOut(PrimitiveTypeName(p.mode), attributes, indices, None, None))
      else if doc.gltf.materials.None? || p.material.value >= |doc.gltf.materials.value| then Failure(MissingMaterial)
      else
        var m := doc.gltf.materials.value[p.material.value];
        match ResolveMaterial(Env(doc), m)
        case Failure(e) => Failure(BadTexture(e))
        case Success(resolved) =>
          Success(PrimitiveOut(PrimitiveTypeName(p.mode), attributes, indices, Some(resolved), Some(MaterialKey(m))))
  }

  /**
   * A primitive throws without `attributes`; otherwise its type is `PRIMITIVE_TYPE[mode]`, its
   * indices are present exactly when the JSON has `indices`, and it carries a material (and the
   * key it is filed under) exactly when the JSON names one, resolved from `materials[material]`.
   */
  lemma BuildPrimitiveShape(doc: Doc, p: PrimitiveJson)
    ensures p.attributes.None? ==> BuildPrimitive(doc, p) == Failure(MissingAttributes)
    ensures p.material.Some? && (doc.gltf.materials.None? || p.material.value >= |doc.gltf.materials.value|) ==>
      BuildPrimitive(doc, p) == Failure(MissingMaterial) || p.attributes.None?
    ensures var r := BuildPrimitive(doc, p);
      r.Success? ==>
      && r.value.primitiveType == PrimitiveTypeName(p.mode)
      && (r.value.indices.Some? <==> p.indices.Some?)
      && (r.value.indices.Some? ==> r.value.indices.value == ItemAt(doc.parsedBuffers, p.indices))
      && (r.value.material.Some? <==> p.material.Some?)
      && (r.value.materialKey.Some? <==> p.material.Some?)
      && (p.material.Some? ==>
            && doc.gltf.materials.Some? && p.material.value < |doc.gltf.materials.value|
            && var m := doc.gltf.materials.value[p.material.value];
            && ResolveMaterial(Env(doc), m) == Success(r.value.material.value)
            && r.value.materialKey.value == MaterialKey(m))
  {
  }

  /** A primitive with a known semantic listed once stores that attribute's parsed buffer under its member name. */
  lemma PrimitiveAttribute(doc: Doc, p: PrimitiveJson, j: nat)
    requires p.attributes.Some? && j < |p.attributes.value| && BuildPrimitive(doc, p).Success?
    requires forall l :: 0 <= l < |p.attributes.value| && l != j ==> p.attributes.value[l].0 != p.attributes.value[j].0
    requires KnownSemantic(p.attributes.value[j].0)
    ensures var key := AttributeKey(p.attributes.value[j].0);
      key in BuildPrimitive(doc, p).value.attributes &&
      BuildPrimitive(doc, p).value.attributes[key] == ItemAt(doc.parsedBuffers, Some(p.attributes.value[j].1))
  {
    var attrs := p.attributes.value;
    forall l | j < l < |attrs|
      ensures AttributeKey(attrs[l].0) != AttributeKey(attrs[j].0)
    {
      if KnownSemantic(attrs[l].0) {
        AttributeKeyInjective(attrs[l].0, attrs[j].0);
      }
    }
    AttributeMapLast(attrs, doc.parsedBuffers, 0, map[], j);
  }

  /** The two name indexes of `data`: `data.nodes` and `data.materials`. */
  datatype Names = Names(nodes: map<string, seq<SceneNode>>, materials: map<string, seq<ResolvedMaterial>>)

  const NO_NAMES := Names(map[], map[])

  /** `(m[k] ||= []).push(x)`. */
  function Push<T>(m: map<string, seq<T>>, k: string, x: T): map<string, seq<T>> {
    m[k := (if k in m then m[k] else []) + [x]]
  }

  /** Pushing a list of keyed entries in order. */
  function PushAll<T>(m: map<string, seq<T>>, entries: seq<(string, T)>): map<string, seq<T>>
    decreases |entries|
  {
    if entries == [] then m else PushAll(Push(m, entries[0].0, entries[0].1), entries[1..])
  }

  lemma {:induction false} PushAllAppend<T>(m: map<string, seq<T>>, a: seq<(string, T)>, b: seq<(string, T)>)
    ensures PushAll(m, a + b) == PushAll(PushAll(m, a), b)
    decreases |a|
  {
    if a == [] {
      assert a + b == b;
    } else {
      assert (a + b)[1..] == a[1..] + b;
      PushAllAppend(Push(m, a[0].0, a[0].1), a[1..], b);
    }
  }

  /** The values of the entries filed under `k`, in order. */
  function ValuesAt<T>(entries: seq<(string, T)>, k: string): seq<T>
    decreases |entries|
  {
    if entries == [] then []
    else (if entries[0].0 == k then [entries[0].1] else []) + ValuesAt(entries[1..], k)
  }

  /** After pushing, a key holds what it held before followed by the entries filed under it, in order. */
  lemma {:induction false} PushAllAt<T>(m: map<string, seq<T>>, entries: seq<(string, T)>, k: string)
    ensures k in PushAll(m, entries) <==> k in m || ValuesAt(entries, k) != []
    ensures k in PushAll(m, entries) ==>
      PushAll(m, entries)[k] == (if k in m then m[k] else []) + ValuesAt(entries, k)
    decreases |entries|
  {
    if entries != [] {
      PushAllAt(Push(m, entries[0].0, entries[0].1), entries[1..], k);
    }
  }

  /** Pushing adds exactly the keys of the entries. */
  lemma {:induction false} PushAllKeys<T>(m: map<string, seq<T>>, entries: seq<(string, T)>)
    ensures PushAll(m, entries).Keys == m.Keys + set e | e in entries :: e.0
    decreases |entries|
  {
    if entries != [] {
      PushAllKeys(Push(m, entries[0].0, entries[0].1), entries[1..]);
      assert (set e | e in entries :: e.0) == {entries[0].0} + (set e | e in entries[1..] :: e.0) by {
        forall e | e in entries ensures e == entries[0] || e in entries[1..] {
          var i :| 0 <= i < |entries| && entries[i] == e;
          if i > 0 {
            assert entries[1..][i - 1] == e;
          }
        }
      }
    }
  }

  /** The entries one primitive adds to `data.materials`. */
  function PrimitiveEntries(p: PrimitiveOut): seq<(string, ResolvedMaterial)> {
    if p.material.Some? && p.materialKey.Some? then [(p.materialKey.value, p.material.value)] else []
  }

  function MeshEntries(ps: seq<PrimitiveOut>): seq<(string, ResolvedMaterial)>
    decreases |ps|
  {
    if ps == [] then [] else PrimitiveEntries(ps[0]) + MeshEntries(ps[1..])
  }

  /** The primitive loop: primitives in order, each with a material appending it once. */
  function BuildPrimitives(doc: Doc, prims: seq<PrimitiveJson>, i: nat, acc: seq<PrimitiveOut>, st: Names)
    : (Result<seq<PrimitiveOut>, SceneError>, Names)
    requires i <= |prims|
    decreases |prims| - i
  {
    if i == |prims| then (Success(acc), st)
    else
      match BuildPrimitive(doc, prims[i])
      case Failure(e) => (Failure(e), st)
      case Success(p) =>
        BuildPrimitives(doc, prims, i + 1, acc + [p], st.(materials := PushAll(st.materials, PrimitiveEntries(p))))
  }

  /** The list a node's children follow: a non-empty `nodes` list (a scene), else `children`. */
  function ChildList(c: NodeJson): seq<nat> {
    if c.nodes.Some? && |c.nodes.value| > 0 then c.nodes.value else c.children.GetOr([])
  }

  /** The mesh part of the constructor: `null` without a mesh, else the primitive loop. */
  function BuildMesh(doc: Doc, c: NodeJson, st: Names): (Result<Option<seq<PrimitiveOut>>, SceneError>, Names) {
    if c.mesh.None? then (Success(None), st)
    else if doc.gltf.meshes.None? || c.mesh.value >= |doc.gltf.meshes.value| then (Failure(MissingMesh), st)
    else
      var mesh := doc.gltf.meshes.value[c.mesh.value];
      if mesh.primitives.None? then (Failure(MissingPrimitives), st)
      else
        var (r, st') := BuildPrimitives(doc, mesh.primitives.value, 0, [], st);
        (if r.Failure? then Failure(r.error) else Success(Some(r.value)), st')
  }

  /**
   * `new GLTFNode(c, data)`, with `fuel` bounding the depth of the recursion. The result is
   * the node (or the exception) with the name indexes as the constructor leaves them; after
   * an exception they hold whatever was appended before it.
   */
  function BuildNode(doc: Doc, c: NodeJson, fuel: nat, st: Names): (r: (Result<SceneNode, SceneError>, Names))
    ensures fuel == 0 ==> r.0 == Failure(TooDeep)
    ensures r.0.Success? ==>
      && r.0.value.name == c.name && r.0.value.matrix == c.matrix && r.0.value.translation == c.translation
      && r.0.value.rotation == c.rotation && r.0.value.scale == c.scale
      && (r.0.value.mesh.Some? <==> c.mesh.Some?)
      && |r.0.value.children| == |ChildList(c)|
    decreases fuel, 0, 0
  {
    if fuel == 0 then (Failure(TooDeep), st)
    else
      var (mesh, st1) := BuildMesh(doc, c, st);
      if mesh.Failure? then (Failure(mesh.error), st1)
      else
        var (kids, st2) := BuildChildren(doc, ChildList(c), 0, [], fuel - 1, st1);
        if kids.Failure? then (Failure(kids.error), st2)
        else (Success(SceneNode(c.name, mesh.value, c.matrix, c.translation, c.rotation, c.scale, kids.value)), st2)
  }

  /** The child loop: build `nodes[list[i]]`, append it, and file it under its name if it has one. */
  function BuildChildren(doc: Doc, list: seq<nat>, i: nat, acc: seq<SceneNode>, fuel: nat, st: Names)
    : (r: (Result<seq<SceneNode>, SceneError>, Names))
    requires i <= |list|
    ensures r.0.Success? ==> |r.0.value| == |acc| + |list| - i
    ensures (exists j :: i <= j < |list| && (doc.gltf.nodes.None? || list[j] >= |doc.gltf.nodes.value|)) ==>
      r.0.Failure?
    decreases fuel, 1, |list| - i
  {
    if i == |list| then (Success(acc), st)
    else if doc.gltf.nodes.None? || list[i] >= |doc.gltf.nodes.value| then (Failure(MissingNode), st)
    else
      var (r, st1) := BuildNode(doc, doc.gltf.nodes.value[list[i]], fuel, st);
      if r.Failure? then (Failure(r.error), st1)
      else BuildChildren(doc, list, i + 1, acc + [r.value], fuel, st1.(nodes := PushAll(st1.nodes, NodeEntry(r.value))))
  }

  /** The entry a child adds to `data.nodes`: one if it is named, none otherwise. */
  function NodeEntry(n: SceneNode): seq<(string, SceneNode)> {
    if n.name.Some? then [(n.name.value, n)] else []
  }

  /** What a subtree adds to `data.nodes`: each named child after its own subtree (post-order). */
  function NamedDescendants(t: SceneNode): seq<(string, SceneNode)>
    decreases t, 1
  {
    ChildrenNamed(t.children)
  }

  function ChildrenNamed(cs: seq<SceneNode>): seq<(string, SceneNode)>
    decreases cs, 0
  {
    if cs == [] then [] else NamedDescendants(cs[0]) + NodeEntry(cs[0]) + ChildrenNamed(cs[1..])
  }

  /** What a subtree adds to `data.materials`: its own primitives' materials, then its children's (pre-order). */
  function MaterialsOf(t: SceneNode): seq<(string, ResolvedMaterial)>
    decreases t, 1
  {
    MeshEntries(t.mesh.GetOr([])) + ChildrenMaterials(t.children)
  }

  function ChildrenMaterials(cs: seq<SceneNode>): seq<(string, ResolvedMaterial)>
    decreases cs, 0
  {
    if cs == [] then [] else MaterialsOf(cs[0]) + ChildrenMaterials(cs[1..])
  }

  /** The primitive loop never touches `data.nodes`. */
  lemma {:induction false} BuildPrimitivesKeepNodes(doc: Doc, prims: seq<PrimitiveJson>, i: nat, acc: seq<PrimitiveOut>, st: Names)
    requires i <= |prims|
    ensures BuildPrimitives(doc, prims, i, acc, st).1.nodes == st.nodes
    decreases |prims| - i
  {
    if i < |prims| && BuildPrimitive(doc, prims[i]).Success? {
      var p := BuildPrimitive(doc, prims[i]).value;
      BuildPrimitivesKeepNodes(doc, prims, i + 1, acc + [p], st.(materials := PushAll(st.materials, PrimitiveEntries(p))));
    }
  }

  /** The primitive loop keeps what it built and appends each primitive's material once, in order. */
  lemma {:induction false} BuildPrimitivesEffects(doc: Doc, prims: seq<PrimitiveJson>, i: nat, acc: seq<PrimitiveOut>, st: Names)
    requires i <= |prims|
    requires BuildPrimitives(doc, prims, i, acc, st).0.Success?
    ensures var ps := BuildPrimitives(doc, prims, i, acc, st).0.value;
      && |ps| == |acc| + |prims| - i && ps[..|acc|] == acc
      && BuildPrimitives(doc, prims, i, acc, st).1.materials == PushAll(st.materials, MeshEntries(ps[|acc|..]))
    decreases |prims| - i
  {
    if i == |prims| {
      assert acc[|acc|..] == [];
    } else {
      var p := BuildPrimitive(doc, prims[i]).value;
      var st1 := st.(materials := PushAll(st.materials, PrimitiveEntries(p)));
      assert BuildPrimitives(doc, prims, i, acc, st) == BuildPrimitives(doc, prims, i + 1, acc + [p], st1);
      BuildPrimitivesEffects(doc, prims, i + 1, acc + [p], st1);
      var ps := BuildPrimitives(doc, prims, i + 1, acc + [p], st1).0.value;
      assert ps[..|acc|] == (acc + [p])[..|acc|];
      var rest := ps[|acc|..];
      assert rest[0] == ps[..|acc| + 1][|acc|];
      assert rest[1..] == ps[|acc| + 1..];
      PushAllAppend(st.materials, PrimitiveEntries(p), MeshEntries(rest[1..]));
    }
  }

  /** The primitives a loop builds do not depend on the name indexes it is given. */
  lemma {:induction false} BuildPrimitivesIgnoresNames(doc: Doc, prims: seq<PrimitiveJson>, i: nat, acc: seq<PrimitiveOut>,
                                                       st: Names, st2: Names)
    requires i <= |prims|
    ensures BuildPrimitives(doc, prims, i, acc, st).0 == BuildPrimitives(doc, prims, i, acc, st2).0
    decreases |prims| - i
  {
    if i < |prims| && BuildPrimitive(doc, prims[i]).Success? {
      var p := BuildPrimitive(doc, prims[i]).value;
      BuildPrimitivesIgnoresNames(doc, prims, i + 1, acc + [p],
        st.(materials := PushAll(st.materials, PrimitiveEntries(p))),
        st2.(materials := PushAll(st2.materials, PrimitiveEntries(p))));
    }
  }

  /** The tree a constructor builds does not depend on the name indexes: they are only written. */
  lemma {:induction false} BuildNodeIgnoresNames(doc: Doc, c: NodeJson, fuel: nat, st: Names, st2: Names)
    ensures BuildNode(doc, c, fuel, st).0 == BuildNode(doc, c, fuel, st2).0
    decreases fuel, 0, 0
  {
    if fuel > 0 {
      if c.mesh.Some? && doc.gltf.meshes.Some? && c.mesh.value < |doc.gltf.meshes.value| {
        var mesh := doc.gltf.meshes.value[c.mesh.value];
        if mesh.primitives.Some? {
          BuildPrimitivesIgnoresNames(doc, mesh.primitives.value, 0, [], st, st2);
        }
      }
      var (mesh, st1) := BuildMesh(doc, c, st);
      var (mesh2, st12) := BuildMesh(doc, c, st2);
      if mesh.Success? {
        BuildChildrenIgnoresNames(doc, ChildList(c), 0, [], fuel - 1, st1, st12);
      }
    }
  }

  lemma {:induction false} BuildChildrenIgnoresNames(doc: Doc, list: seq<nat>, i: nat, acc: seq<SceneNode>, fuel: nat,
                                                     st: Names, st2: Names)
    requires i <= |list|
    ensures BuildChildren(doc, list, i, acc, fuel, st).0 == BuildChildren(doc, list, i, acc, fuel, st2).0
    decreases fuel, 1, |list| - i
  {
    if i < |list| && doc.gltf.nodes.Some? && list[i] < |doc.gltf.nodes.value| {
      var child := doc.gltf.nodes.value[list[i]];
      BuildNodeIgnoresNames(doc, child, fuel, st, st2);
      var (r, st1) := BuildNode(doc, child, fuel, st);
      var (r2, st12) := BuildNode(doc, child, fuel, st2);
      if r.Success? {
        BuildChildrenIgnoresNames(doc, list, i + 1, acc + [r.value], fuel,
          st1.(nodes := PushAll(st1.nodes, NodeEntry(r.value))), st12.(nodes := PushAll(st12.nodes, NodeEntry(r2.value))));
      }
    }
  }

  /** One successful step of the child loop, unfolded. */
  lemma ChildStep(doc: Doc, list: seq<nat>, i: nat, acc: seq<SceneNode>, fuel: nat, st: Names)
    requires i < |list| && BuildChildren(doc, list, i, acc, fuel, st).0.Success?
    ensures doc.gltf.nodes.Some? && list[i] < |doc.gltf.nodes.value|
    ensures var b := BuildNode(doc, doc.gltf.nodes.value[list[i]], fuel, st);
      && b.0.Success?
      && BuildChildren(doc, list, i, acc, fuel, st) ==
         BuildChildren(doc, list, i + 1, acc + [b.0.value], fuel, b.1.(nodes := PushAll(b.1.nodes, NodeEntry(b.0.value))))
  {
  }

  /** A successful constructor call, unfolded: its mesh and child loop both succeeded. */
  lemma NodeStep(doc: Doc, c: NodeJson, fuel: nat, st: Names)
    requires BuildNode(doc, c, fuel, st).0.Success?
    ensures fuel > 0
    ensures var m := BuildMesh(doc, c, st);
      var k := BuildChildren(doc, ChildList(c), 0, [], fuel - 1, m.1);
      && m.0.Success? && k.0.Success?
      && BuildNode(doc, c, fuel, st) ==
         (Success(SceneNode(c.name, m.0.value, c.matrix, c.translation, c.rotation, c.scale, k.0.value)), k.1)
  {
  }

  /** The child loop keeps what it had already built in front and adds one child per remaining entry. */
  lemma {:induction false} BuildChildrenPrefix(doc: Doc, list: seq<nat>, i: nat, acc: seq<SceneNode>, fuel: nat, st: Names)
    requires i <= |list|
    requires BuildChildren(doc, list, i, acc, fuel, st).0.Success?
    ensures var cs := BuildChildren(doc, list, i, acc, fuel, st).0.value;
      |cs| == |acc| + |list| - i && cs[..|acc|] == acc
    decreases |list| - i
  {
    if i < |list| {
      ChildStep(doc, list, i, acc, fuel, st);
      var b := BuildNode(doc, doc.gltf.nodes.value[list[i]], fuel, st);
      var st2 := b.1.(nodes := PushAll(b.1.nodes, NodeEntry(b.0.value)));
      BuildChildrenPrefix(doc, list, i + 1, acc + [b.0.value], fuel, st2);
      var cs := BuildChildren(doc, list, i + 1, acc + [b.0.value], fuel, st2).0.value;
      assert cs[..|acc| + 1][..|acc|] == cs[..|acc|];
    }
  }

  /** Child `j` of the loop is the node the constructor builds from `nodes[list[j]]`. */
  lemma {:induction false} BuildChildrenMirror(doc: Doc, list: seq<nat>, i: nat, acc: seq<SceneNode>, fuel: nat, st: Names)
    requires i <= |list|
    requires BuildChildren(doc, list, i, acc, fuel, st).0.Success?
    ensures var cs := BuildChildren(doc, list, i, acc, fuel, st).0.value;
      |cs| == |acc| + |list| - i &&
      forall j :: i <= j < |list| ==>
        && doc.gltf.nodes.Some? && list[j] < |doc.gltf.nodes.value|
        && BuildNode(doc, doc.gltf.nodes.value[list[j]], fuel, NO_NAMES).0 == Success(cs[|acc| + j - i])
    decreases |list| - i
  {
    BuildChildrenPrefix(doc, list, i, acc, fuel, st);
    if i < |list| {
      ChildStep(doc, list, i, acc, fuel, st);
      var child := doc.gltf.nodes.value[list[i]];
      var b := BuildNode(doc, child, fuel, st);
      var st2 := b.1.(nodes := PushAll(b.1.nodes, NodeEntry(b.0.value)));
      BuildChildrenMirror(doc, list, i + 1, acc + [b.0.value], fuel, st2);
      BuildChildrenPrefix(doc, list, i + 1, acc + [b.0.value], fuel, st2);
      BuildNodeIgnoresNames(doc, child, fuel, st, NO_NAMES);
      var cs := BuildChildren(doc, list, i + 1, acc + [b.0.value], fuel, st2).0.value;
      assert cs[|acc|] == cs[..|acc| + 1][|acc|] == b.0.value;
      forall j | i < j < |list|
        ensures BuildNode(doc, doc.gltf.nodes.value[list[j]], fuel, NO_NAMES).0 == Success(cs[|acc| + j - i])
      {
        assert |acc + [b.0.value]| + j - (i + 1) == |acc| + j - i;
      }
    }
  }

  /** A built node's children mirror its child list: a scene's `nodes`, or else its `children`. */
  lemma BuildNodeMirror(doc: Doc, c: NodeJson, fuel: nat, st: Names)
    requires BuildNode(doc, c, fuel, st).0.Success?
    ensures var t := BuildNode(doc, c, fuel, st).0.value;
      && fuel > 0
      && t.name == c.name && t.matrix == c.matrix && t.translation == c.translation
      && t.rotation == c.rotation && t.scale == c.scale
      && (t.mesh.Some? <==> c.mesh.Some?)
      && |t.children| == |ChildList(c)|
      && forall j :: 0 <= j < |ChildList(c)| ==>
           && doc.gltf.nodes.Some? && ChildList(c)[j] < |doc.gltf.nodes.value|
           && BuildNode(doc, doc.gltf.nodes.value[ChildList(c)[j]], fuel - 1, NO_NAMES).0 == Success(t.children[j])
  {
    NodeStep(doc, c, fuel, st);
    var list := ChildList(c);
    var k := BuildChildren(doc, list, 0, [], fuel - 1, BuildMesh(doc, c, st).1);
    BuildChildrenMirror(doc, list, 0, [], fuel - 1, BuildMesh(doc, c, st).1);
    var t := BuildNode(doc, c, fuel, st).0.value;
    assert t.children == k.0.value;
    forall j | 0 <= j < |list|
      ensures doc.gltf.nodes.Some? && list[j] < |doc.gltf.nodes.value|
      ensures BuildNode(doc, doc.gltf.nodes.value[list[j]], fuel - 1, NO_NAMES).0 == Success(t.children[j])
    {
      var empty: seq<SceneNode> := [];
      assert |empty| + j - 0 == j;
    }
  }

  /**
   * The side effects of the constructor are exactly a traversal of what it built: every named
   * descendant is appended to `data.nodes` after its own subtree (post-order), and every
   * primitive with a material appends that material once, a node's own primitives before its
   * children's (pre-order).
   */
  lemma {:induction false} BuildNodeNames(doc: Doc, c: NodeJson, fuel: nat, st: Names)
    requires BuildNode(doc, c, fuel, st).0.Success?
    ensures var t := BuildNode(doc, c, fuel, st).0.value;
      && BuildNode(doc, c, fuel, st).1.nodes == PushAll(st.nodes, NamedDescendants(t))
      && BuildNode(doc, c, fuel, st).1.materials == PushAll(st.materials, MaterialsOf(t))
    decreases fuel, 0, 0
  {
    NodeStep(doc, c, fuel, st);
    var m := BuildMesh(doc, c, st);
    var st1 := m.1;
    var meshEntries := MeshEntries(m.0.value.GetOr([]));
    if c.mesh.Some? {
      var prims := doc.gltf.meshes.value[c.mesh.value].primitives.value;
      BuildPrimitivesKeepNodes(doc, prims, 0, [], st);
      BuildPrimitivesEffects(doc, prims, 0, [], st);
      assert m.0.value.value[0..] == m.0.value.value;
    }
    assert st1.nodes == st.nodes && st1.materials == PushAll(st.materials, meshEntries);
    var list := ChildList(c);
    var k := BuildChildren(doc, list, 0, [], fuel - 1, st1);
    BuildChildrenNames(doc, list, 0, [], fuel - 1, st1);
    assert k.0.value[0..] == k.0.value;
    PushAllAppend(st.materials, meshEntries, ChildrenMaterials(k.0.value));
  }

  lemma {:induction false} BuildChildrenNames(doc: Doc, list: seq<nat>, i: nat, acc: seq<SceneNode>, fuel: nat, st: Names)
    requires i <= |list|
    requires BuildChildren(doc, list, i, acc, fuel, st).0.Success?
    ensures var cs := BuildChildren(doc, list, i, acc, fuel, st).0.value;
      && |cs| >= |acc|
      && BuildChildren(doc, list, i, acc, fuel, st).1.nodes == PushAll(st.nodes, ChildrenNamed(cs[|acc|..]))
      && BuildChildren(doc, list, i, acc, fuel, st).1.materials == PushAll(st.materials, ChildrenMaterials(cs[|acc|..]))
    decreases fuel, 1, |list| - i
  {
    if i == |list| {
      assert acc[|acc|..] == [];
    } else {
      ChildStep(doc, list, i, acc, fuel, st);
      var child := doc.gltf.nodes.value[list[i]];
      var b := BuildNode(doc, child, fuel, st);
      var t := b.0.value;
      BuildNodeNames(doc, child, fuel, st);
      var st2 := b.1.(nodes := PushAll(b.1.nodes, NodeEntry(t)));
      BuildChildrenNames(doc, list, i + 1, acc + [t], fuel, st2);
      BuildChildrenPrefix(doc, list, i + 1, acc + [t], fuel, st2);
      var cs := BuildChildren(doc, list, i + 1, acc + [t], fuel, st2).0.value;
      var rest := cs[|acc|..];
      assert rest[0] == cs[..|acc| + 1][|acc|] == t;
      assert rest[1..] == cs[|acc| + 1..];
      assert ChildrenNamed(rest) == NamedDescendants(t) + NodeEntry(t) + ChildrenNamed(rest[1..]);
      assert ChildrenMaterials(rest) == MaterialsOf(t) + ChildrenMaterials(rest[1..]);
      PushAllAppend(st.nodes, NamedDescendants(t), NodeEntry(t));
      PushAllAppend(st.nodes, NamedDescendants(t) + NodeEntry(t), ChildrenNamed(rest[1..]));
      PushAllAppend(st.materials, MaterialsOf(t), ChildrenMaterials(rest[1..]));
    }
  }

  // ---------------------------------------------------------------------------------------
  // The depth bound matters only for cycles

  /**
   * A rank for the document's node hierarchy: every child index in range has a smaller rank
   * than its parent. A hierarchy without cycles has one below `|nodes|`: each node's height.
   */
  predicate Ranked(nodes: seq<NodeJson>, rank: seq<nat>) {
    && |rank| == |nodes|
    && (forall i :: 0 <= i < |rank| ==> rank[i] < |nodes|)
    && forall i, j :: 0 <= i < |nodes| && 0 <= j < |ChildList(nodes[i])| && ChildList(nodes[i])[j] < |nodes| ==>
         rank[ChildList(nodes[i])[j]] < rank[i]
  }

  /** The primitive loop never runs out of depth: it does not recurse into nodes. */
  lemma {:induction false} BuildPrimitivesNotTooDeep(doc: Doc, prims: seq<PrimitiveJson>, i: nat, acc: seq<PrimitiveOut>, st: Names)
    requires i <= |prims|
    ensures BuildPrimitives(doc, prims, i, acc, st).0 != Failure(TooDeep)
    decreases |prims| - i
  {
    if i < |prims| && BuildPrimitive(doc, prims[i]).Success? {
      var p := BuildPrimitive(doc, prims[i]).value;
      BuildPrimitivesNotTooDeep(doc, prims, i + 1, acc + [p], st.(materials := PushAll(st.materials, PrimitiveEntries(p))));
    }
  }

  /** A node whose children all rank below `fuel - 1` is built without running out of depth. */
  lemma {:induction false} BuildNodeNotTooDeep(doc: Doc, c: NodeJson, fuel: nat, st: Names, rank: seq<nat>)
    requires doc.gltf.nodes.Some? && Ranked(doc.gltf.nodes.value, rank)
    requires fuel >= 1
    requires forall j :: 0 <= j < |ChildList(c)| && ChildList(c)[j] < |rank| ==> rank[ChildList(c)[j]] + 1 < fuel
    ensures BuildNode(doc, c, fuel, st).0 != Failure(TooDeep)
    decreases fuel, 0, 0
  {
    var (mesh, st1) := BuildMesh(doc, c, st);
    if c.mesh.Some? && doc.gltf.meshes.Some? && c.mesh.value < |doc.gltf.meshes.value| {
      var m := doc.gltf.meshes.value[c.mesh.value];
      if m.primitives.Some? {
        BuildPrimitivesNotTooDeep(doc, m.primitives.value, 0, [], st);
      }
    }
    if mesh.Success? {
      BuildChildrenNotTooDeep(doc, ChildList(c), 0, [], fuel - 1, st1, rank);
    }
  }

  /** A child loop whose remaining entries all rank below `fuel` never runs out of depth. */
  lemma {:induction false} BuildChildrenNotTooDeep(doc: Doc, list: seq<nat>, i: nat, acc: seq<SceneNode>, fuel: nat, st: Names,
                                                   rank: seq<nat>)
    requires doc.gltf.nodes.Some? && Ranked(doc.gltf.nodes.value, rank)
    requires i <= |list|
    requires forall j :: i <= j < |list| && list[j] < |rank| ==> rank[list[j]] < fuel
    ensures BuildChildren(doc, list, i, acc, fuel, st).0 != Failure(TooDeep)
    decreases fuel, 1, |list| - i
  {
    var nodes := doc.gltf.nodes.value;
    if i < |list| && list[i] < |nodes| {
      var x := list[i];
      assert rank[x] < fuel;
      forall j | 0 <= j < |ChildList(nodes[x])| && ChildList(nodes[x])[j] < |rank|
        ensures rank[ChildList(nodes[x])[j]] + 1 < fuel
      {
        assert rank[ChildList(nodes[x])[j]] < rank[x];
      }
      BuildNodeNotTooDeep(doc, nodes[x], fuel, st, rank);
      var (r, st1) := BuildNode(doc, nodes[x], fuel, st);
      if r.Success? {
        BuildChildrenNotTooDeep(doc, list, i + 1, acc + [r.value], fuel, st1.(nodes := PushAll(st1.nodes, NodeEntry(r.value))), rank);
      }
    }
  }

  /**
   * On a document whose hierarchy has no cycle, any depth bound above `|nodes|` is never
   * reached: the bound only ever decides the outcome for a cyclic hierarchy.
   */
  lemma AcyclicWithinBound(doc: Doc, c: NodeJson, fuel: nat, st: Names, rank: seq<nat>)
    requires doc.gltf.nodes.Some? && Ranked(doc.gltf.nodes.value, rank)
    requires fuel > |doc.gltf.nodes.value|
    ensures BuildNode(doc, c, fuel, st).0 != Failure(TooDeep)
  {
    BuildNodeNotTooDeep(doc, c, fuel, st, rank);
  }
}

=== FILE: scenes.dfy ===
/**
 * `getScene` and the `GLTFNode` constructor as the loader runs them: the `data` object whose
 * `nodes` and `materials` dictionaries the constructor fills while it recurses, and whose
 * `scenes` list `getScene` fills scene by scene. Each method is proved against the
 * specification functions of `SceneGraph`.
 */
module Scenes {
  import opened Wrappers
  import opened JsValues
  import opened GltfDoc
  import opened BufferViews
  import opened Materials
  import opened SceneGraph

  /**
   * The guard of `getScene`: a non-empty `scenes` array, non-empty `binaries` and `accessors`
   * arrays, and `images` either absent or non-empty.
   */
  predicate SceneGuard(doc: Doc) {
    && doc.gltf.scenes.Some? && |doc.gltf.scenes.value| > 0
    && doc.binaries.Some? && |doc.binaries.value| > 0
    && doc.gltf.accessors.Some? && |doc.gltf.accessors.value| > 0
    && !(doc.images.Some? && |doc.images.value| == 0)
  }

  /**
   * The scene loop of `getScene`: the scenes built so far, and the name indexes. It keeps the
   * scenes it was given, adds at most one per entry, and succeeds exactly when it adds one for each.
   */
  function BuildScenes(doc: Doc, list: seq<NodeJson>, i: nat, acc: seq<SceneNode>, fuel: nat, st: Names)
    : (r: (Result<(), SceneError>, seq<SceneNode>, Names))
    requires i <= |list|
    ensures |acc| <= |r.1| <= |acc| + |list| - i && r.1[..|acc|] == acc
    ensures r.0.Success? <==> |r.1| == |acc| + |list| - i
    decreases |list| - i
  {
    if i == |list| then (Success(()), acc, st)
    else
      var b := BuildNode(doc, list[i], fuel, st);
      if b.0.Failure? then (Failure(b.0.error), acc, b.1)
      else BuildScenes(doc, list, i + 1, acc + [b.0.value], fuel, b.1)
  }

  /** On a hierarchy without cycles, `getScene` with a depth bound above `|gltf.nodes|` never runs out of depth. */
  lemma {:induction false} ScenesWithinBound(doc: Doc, list: seq<NodeJson>, i: nat, acc: seq<SceneNode>, fuel: nat, st: Names,
                                             rank: seq<nat>)
    requires i <= |list|
    requires doc.gltf.nodes.Some? && Ranked(doc.gltf.nodes.value, rank)
    requires fuel > |doc.gltf.nodes.value|
    ensures BuildScenes(doc, list, i, acc, fuel, st).0 != Failure(TooDeep)
    decreases |list| - i
  {
    if i < |list| {
      AcyclicWithinBound(doc, list[i], fuel, st, rank);
      var b := BuildNode(doc, list[i], fuel, st);
      if b.0.Success? {
        ScenesWithinBound(doc, list, i + 1, acc + [b.0.value], fuel, b.1, rank);
      }
    }
  }

  /** The entries all scenes add to `data.nodes`: the scenes themselves are not filed, their descendants are. */
  function ScenesNamed(ss: seq<SceneNode>): seq<(string, SceneNode)>
    decreases |ss|
  {
    if ss == [] then [] else NamedDescendants(ss[0]) + ScenesNamed(ss[1..])
  }

  function ScenesMaterials(ss: seq<SceneNode>): seq<(string, ResolvedMaterial)>
    decreases |ss|
  {
    if ss == [] then [] else MaterialsOf(ss[0]) + ScenesMaterials(ss[1..])
  }

  /** One successful step of the scene loop, unfolded. */
  lemma SceneStep(doc: Doc, list: seq<NodeJson>, i: nat, acc: seq<SceneNode>, fuel: nat, st: Names)
    requires i < |list| && BuildScenes(doc, list, i, acc, fuel, st).0.Success?
    ensures var b := BuildNode(doc, list[i], fuel, st);
      && b.0.Success?
      && BuildScenes(doc, list, i, acc, fuel, st) == BuildScenes(doc, list, i + 1, acc + [b.0.value], fuel, b.1)
  {
  }

  /**
   * After a successful scene loop there is one scene per entry of `scenes`, each the tree the
   * constructor builds from it, whatever the name indexes held.
   */
  lemma {:induction false} BuildScenesMirror(doc: Doc, list: seq<NodeJson>, i: nat, acc: seq<SceneNode>, fuel: nat, st: Names)
    requires i <= |list|
    requires BuildScenes(doc, list, i, acc, fuel, st).0.Success?
    ensures var ss := BuildScenes(doc, list, i, acc, fuel, st).1;
      && |ss| == |acc| + |list| - i && ss[..|acc|] == acc
      && forall j :: i <= j < |list| ==> BuildNode(doc, list[j], fuel, NO_NAMES).0 == Success(ss[|acc| + j - i])
    decreases |list| - i
  {
    if i < |list| {
      SceneStep(doc, list, i, acc, fuel, st);
      var b := BuildNode(doc, list[i], fuel, st);
      BuildNodeIgnoresNames(doc, list[i], fuel, st, NO_NAMES);
      BuildScenesMirror(doc, list, i + 1, acc + [b.0.value], fuel, b.1);
      var ss := BuildScenes(doc, list, i + 1, acc + [b.0.value], fuel, b.1).1;
      assert ss[..|acc| + 1][..|acc|] == ss[..|acc|];
      assert ss[|acc|] == ss[..|acc| + 1][|acc|] == b.0.value;
      forall j | i < j < |list|
        ensures BuildNode(doc, list[j], fuel, NO_NAMES).0 == Success(ss[|acc| + j - i])
      {
        assert |acc + [b.0.value]| + j - (i + 1) == |acc| + j - i;
      }
    }
  }

  /** The two dictionaries hold exactly the traversal of all scenes, in order. */
  lemma {:induction false} BuildScenesNames(doc: Doc, list: seq<NodeJson>, i: nat, acc: seq<SceneNode>, fuel: nat, st: Names)
    requires i <= |list|
    requires BuildScenes(doc, list, i, acc, fuel, st).0.Success?
    ensures var ss := BuildScenes(doc, list, i, acc, fuel, st).1;
      && |ss| >= |acc|
      && BuildScenes(doc, list, i, acc, fuel, st).2.nodes == PushAll(st.nodes, ScenesNamed(ss[|acc|..]))
      && BuildScenes(doc, list, i, acc, fuel, st).2.materials == PushAll(st.materials, ScenesMaterials(ss[|acc|..]))
    decreases |list| - i
  {
    if i == |list| {
      assert acc[|acc|..] == [];
    } else {
      SceneStep(doc, list, i, acc, fuel, st);
      var b := BuildNode(doc, list[i], fuel, st);
      var t := b.0.value;
      BuildNodeNames(doc, list[i], fuel, st);
      BuildScenesNames(doc, list, i + 1, acc + [t], fuel, b.1);
      BuildScenesMirror(doc, list, i + 1, acc + [t], fuel, b.1);
      var ss := BuildScenes(doc, list, i + 1, acc + [t], fuel, b.1).1;
      var rest := ss[|acc|..];
      assert rest[0] == ss[..|acc| + 1][|acc|] == t;
      assert rest[1..] == ss[|acc| + 1..];
      assert ScenesNamed(rest) == NamedDescendants(t) + ScenesNamed(rest[1..]);
      assert ScenesMaterials(rest) == MaterialsOf(t) + ScenesMaterials(rest[1..]);
      PushAllAppend(st.nodes, NamedDescendants(t), ScenesNamed(rest[1..]));
      PushAllAppend(st.materials, MaterialsOf(t), ScenesMaterials(rest[1..]));
    }
  }

  /** The `data` object of a load, from `getScene` on. */
  class SceneData {
    const doc: Doc
    var scenes: seq<SceneNode>
    var nodes: map<string, seq<SceneNode>>
    var materials: map<string, seq<ResolvedMaterial>>
    var activeScene: nat

    constructor (doc: Doc)
      ensures this.doc == doc && scenes == [] && nodes == map[] && materials == map[] && activeScene == 0
    {
      this.doc := doc;
      scenes := [];
      nodes := map[];
      materials := map[];
      activeScene := 0;
    }

    /** The two dictionaries the constructor fills. */
    function Index(): Names
      reads this
    {
      Names(nodes, materials)
    }

    /** One entry of `mesh.primitives`, with its attribute loop. */
    method BuildPrimitiveAt(p: PrimitiveJson) returns (r: Result<PrimitiveOut, SceneError>)
      ensures r == BuildPrimitive(doc, p)
    {
      if p.attributes.None? {
        return Failure(MissingAttributes);
      }
      var attrs := p.attributes.value;
      var slots: map<string, JsRef<ParsedBuffer>> := map[];
      var i := 0;
      while i < |attrs|
        invariant 0 <= i <= |attrs|
        invariant AttributeMap(attrs, doc.parsedBuffers, i, slots) == AttributeMap(attrs, doc.parsedBuffers, 0, map[])
      {
        slots := slots[AttributeKey(attrs[i].0) := ItemAt(doc.parsedBuffers, Some(attrs[i].1))];
        i := i + 1;
      }
      var indices := if p.indices.Some? then Some(ItemAt(doc.parsedBuffers, p.indices)) else None;
      if p.material.None? {
        return Success(PrimitiveOut(PrimitiveTypeName(p.mode), slots, indices, None, None));
      }
      if doc.gltf.materials.None? || p.material.value >= |doc.gltf.materials.value| {
        return Failure(MissingMaterial);
      }
      var m := doc.gltf.materials.value[p.material.value];
      var resolved := ResolveMaterial(Env(doc), m);
      if resolved.Failure? {
        return Failure(BadTexture(resolved.error));
      }
      return Success(PrimitiveOut(PrimitiveTypeName(p.mode), slots, indices, Some(resolved.value), Some(MaterialKey(m))));
    }

    /** The mesh part of the constructor: `null` without a mesh, else the primitive loop. */
    method BuildMeshAt(current: NodeJson) returns (r: Result<Option<seq<PrimitiveOut>>, SceneError>)
      modifies this
      ensures (r, Index()) == BuildMesh(doc, current, old(Index()))
      ensures scenes == old(scenes) && nodes == old(nodes) && activeScene == old(activeScene)
    {
      ghost var st0 := Index();
      if current.mesh.None? {
        return Success(None);
      }
      if doc.gltf.meshes.None? || current.mesh.value >= |doc.gltf.meshes.value| {
        return Failure(MissingMesh);
      }
      var meshJson := doc.gltf.meshes.value[current.mesh.value];
      if meshJson.primitives.None? {
        return Failure(MissingPrimitives);
      }
      var prims := meshJson.primitives.value;
      var built: seq<PrimitiveOut> := [];
      var i := 0;
      while i < |prims|
        invariant 0 <= i <= |prims|
        invariant BuildPrimitives(doc, prims, i, built, Index()) == BuildPrimitives(doc, prims, 0, [], st0)
        invariant scenes == old(scenes) && nodes == old(nodes) && activeScene == old(activeScene)
      {
        var p := BuildPrimitiveAt(prims[i]);
        if p.Failure? {
          assert BuildPrimitives(doc, prims, 0, [], st0) == (Failure(p.error), Index());
          return Failure(p.error);
        }
        ghost var before := Index();
        if p.value.material.Some? && p.value.materialKey.Some? {
          materials := Push(materials, p.value.materialKey.value, p.value.material.value);
        }
        assert Index() == before.(materials := PushAll(before.materials, PrimitiveEntries(p.value)));
        built := built + [p.value];
        i := i + 1;
      }
      return Success(Some(built));
    }

    /**
     * `new GLTFNode(current, data)`: the mesh primitives, each material appended to
     * `materials` under its name, then the children in list order, each named child appended
     * to `nodes` once its own subtree is built. `fuel` bounds the depth of the recursion.
     */
    method NewGltfNode(current: NodeJson, fuel: nat) returns (r: Result<SceneNode, SceneError>)
      modifies this
      ensures (r, Index()) == BuildNode(doc, current, fuel, old(Index()))
      ensures scenes == old(scenes) && activeScene == old(activeScene)
      decreases fuel
    {
      if fuel == 0 {
        return Failure(TooDeep);
      }
      var mesh := BuildMeshAt(current);
      if mesh.Failure? {
        return Failure(mesh.error);
      }
      ghost var st1 := Index();
      var list := ChildList(current);
      var children: seq<SceneNode> := [];
      var j := 0;
      while j < |list|
        invariant 0 <= j <= |list|
        invariant BuildChildren(doc, list, j, children, fuel - 1, Index()) == BuildChildren(doc, list, 0, [], fuel - 1, st1)
        invariant scenes == old(scenes) && activeScene == old(activeScene)
      {
        if doc.gltf.nodes.None? || list[j] >= |doc.gltf.nodes.value| {
          assert BuildChildren(doc, list, 0, [], fuel - 1, st1) == (Failure(MissingNode), Index());
          return Failure(MissingNode);
        }
        ghost var before := Index();
        var child := NewGltfNode(doc.gltf.nodes.value[list[j]], fuel - 1);
        if child.Failure? {
          assert BuildChildren(doc, list, j, children, fuel - 1, before) == (Failure(child.error), Index());
          return Failure(child.error);
        }
        ghost var after := Index();
        if child.value.name.Some? {
          nodes := Push(nodes, child.value.name.value, child.value);
        }
        assert Index() == after.(nodes := PushAll(after.nodes, NodeEntry(child.value)));
        children := children + [child.value];
        j := j + 1;
      }
      return Success(SceneNode(current.name, mesh.value, current.matrix, current.translation, current.rotation, current.scale, children));
    }

    /**
     * `getScene(data)`: throws on invalid scene data; otherwise resets `scenes`, `nodes` and
     * `materials`, sets `activeScene` to `gltf.scene` or 0, and builds every scene in order.
     */
    method GetScene(depth: nat) returns (r: Result<(), SceneError>)
      modifies this
      ensures !SceneGuard(doc) ==>
        r == Failure(InvalidSceneData) && scenes == old(scenes) && nodes == old(nodes) &&
        materials == old(materials) && activeScene == old(activeScene)
      ensures SceneGuard(doc) ==>
        && activeScene == doc.gltf.scene.GetOr(0)
        && (r, scenes, Index()) == BuildScenes(doc, doc.gltf.scenes.value, 0, [], depth, NO_NAMES)
    {
      if !SceneGuard(doc) {
        return Failure(InvalidSceneData);
      }
      scenes := [];
      nodes := map[];
      materials := map[];
      activeScene := if doc.gltf.scene.Some? then doc.gltf.scene.value else 0;
      var list := doc.gltf.scenes.value;
      var i := 0;
      while i < |list|
        invariant 0 <= i <= |list|
        invariant activeScene == doc.gltf.scene.GetOr(0)
        invariant BuildScenes(doc, list, i, scenes, depth, Index()) == BuildScenes(doc, list, 0, [], depth, NO_NAMES)
      {
        var s := NewGltfNode(list[i], depth);
        if s.Failure? {
          return Failure(s.error);
        }
        scenes := scenes + [s.value];
        i := i + 1;
      }
      return Success(());
    }
  }
}

=== FILE: tables.dfy ===
/**
 * The fixed tables both loaders share: WebGL component-type codes and the typed-array kind
 * each selects, and the accessor element types with their per-element component counts.
 */
module Tables {
  import opened Wrappers

  const BYTE: int := 5120
  const UNSIGNED_BYTE: int := 5121
  const SHORT: int := 5122
  const UNSIGNED_SHORT: int := 5123
  const INT: int := 5124
  const UNSIGNED_INT: int := 5125
  const FLOAT: int := 5126

  /** The typed-array constructors the loader chooses among. */
  datatype TypedKind = Int8 | Uint8 | Int16 | Uint16 | Int32 | Uint32 | Float32

  /** The component-type code that selects a kind. */
  function CodeOf(k: TypedKind): (c: int)
    ensures BYTE <= c <= FLOAT
  {
    match k
    case Int8 => BYTE
    case Uint8 => UNSIGNED_BYTE
    case Int16 => SHORT
    case Uint16 => UNSIGNED_SHORT
    case Int32 => INT
    case Uint32 => UNSIGNED_INT
    case Float32 => FLOAT
  }

  /** `BYTES_PER_ELEMENT` of each typed-array kind. */
  function BytesPerElement(k: TypedKind): (n: nat)
    ensures n == 1 || n == 2 || n == 4
  {
    match k
    case Int8 => 1
    case Uint8 => 1
    case Int16 => 2
    case Uint16 => 2
    case Int32 => 4
    case Uint32 => 4
    case Float32 => 4
  }

  /**
   * `getTypedArrayFunctionFromComponent`: codes 5120..5126 select the seven kinds one to
   * one; every other code selects nothing (`null`).
   */
  function TypedArrayFor(componentType: int): (r: Option<TypedKind>)
    ensures r.Some? <==> BYTE <= componentType <= FLOAT
    ensures r.Some? ==> CodeOf(r.value) == componentType
  {
    if componentType == BYTE then Some(Int8)
    else if componentType == UNSIGNED_BYTE then Some(Uint8)
    else if componentType == SHORT then Some(Int16)
    else if componentType == UNSIGNED_SHORT then Some(Uint16)
    else if componentType == INT then Some(Int32)
    else if componentType == UNSIGNED_INT then Some(Uint32)
    else if componentType == FLOAT then Some(Float32)
    else None
  }

  /** Selecting by the code of a kind gives that kind back: the table is a bijection. */
  lemma TypedArrayForCodeOf(k: TypedKind)
    ensures TypedArrayFor(CodeOf(k)) == Some(k)
  {
  }

  /** The accessor `type` strings the stride table knows. */
  datatype ElementType = Scalar | Vec2 | Vec3 | Vec4 | Mat2 | Mat3 | Mat4

  function ElementTypeName(e: ElementType): string {
    match e
    case Scalar => "SCALAR"
    case Vec2 => "VEC2"
    case Vec3 => "VEC3"
    case Vec4 => "VEC4"
    case Mat2 => "MAT2"
    case Mat3 => "MAT3"
    case Mat4 => "MAT4"
  }

  /** Looking a string up in the stride table: `None` for any string the table lacks. */
  function ParseElementType(s: string): (r: Option<ElementType>)
    ensures r.Some? ==> ElementTypeName(r.value) == s
  {
    if s == "SCALAR" then Some(Scalar)
    else if s == "VEC2" then Some(Vec2)
    else if s == "VEC3" then Some(Vec3)
    else if s == "VEC4" then Some(Vec4)
    else if s == "MAT2" then Some(Mat2)
    else if s == "MAT3" then Some(Mat3)
    else if s == "MAT4" then Some(Mat4)
    else None
  }

  lemma ParseElementTypeName(e: ElementType)
    ensures ParseElementType(ElementTypeName(e)) == Some(e)
  {
  }

  /** `STRIDE_TYPE`: components per element. */
  function Components(e: ElementType): (n: nat)
    ensures 1 <= n <= 16
    ensures e.Scalar? <==> n == 1
    ensures (e.Mat2? || e.Vec4?) <==> n == 4
  {
    match e
    case Scalar => 1
    case Vec2 => 2
    case Vec3 => 3
    case Vec4 => 4
    case Mat2 => 4
    case Mat3 => 9
    case Mat4 => 16
  }

  /** `STRIDE_TYPE[type]`, `None` (JavaScript `undefined`) for an unknown type string. */
  function StrideOf(typeName: string): (r: Option<nat>)
    ensures r.Some? <==> ParseElementType(typeName).Some?
    ensures r.Some? ==> r.value == Components(ParseElementType(typeName).value)
  {
    match ParseElementType(typeName)
    case Some(e) => Some(Components(e))
    case None => None
  }
}

=== FILE: transform.dfy ===
/**
 * The renderer-side `Node` of `gl3GLTF.js`: a tree of objects, each caching its model, view,
 * projection and derived matrices behind a dirty flag. Matrix arithmetic is not interpreted:
 * a matrix is the term that names how it was computed, so only the control behaviour (which
 * matrices are recomputed, which are cached, what each child is handed) is stated and proved.
 */
module Transform {
  import opened Wrappers
  import opened SceneGraph

  /** A rotation: a quaternion given as four numbers, or `qtn.rotate(angle, vec3.normalize(axis))`. */
  datatype Rot = Quat(q: seq<real>) | Rotate(angle: real, axis: seq<real>)

  /** A 4x4 matrix, as the term of the `mat4` operations that produced it. */
  datatype Mat =
    | Identity
    | Given(entries: seq<real>)                                     // a matrix from the document
    | Compose(position: seq<real>, rotation: Rot, scaling: seq<real>) // `mat4.compose`
    | Multiply(a: Mat, b: Mat)                                      // `mat4.multiply(a, b)`
    | Inverse(m: Mat)
    | Transpose(m: Mat)

  /** The state of one node, field by field. */
  datatype Frame = Frame(
    position: seq<real>,
    rotation: Rot,
    scaling: seq<real>,
    dirty: bool,           // `modelMatrixIsUpdate`
    parentMatrix: Mat,
    defaultMatrix: Option<Mat>,
    mMatrix: Mat,
    vMatrix: Mat,
    pMatrix: Mat,
    mvMatrix: Mat,
    mvpMatrix: Mat,
    inverseMatrix: Mat,
    normalMatrix: Mat)

  /** The state of a node and of its whole subtree. */
  datatype Tree = Tree(frame: Frame, kids: seq<Tree>)

  /** The node's own transform: composed from position, rotation and scaling, then the document's matrix. */
  function LocalMatrix(f: Frame): Mat {
    var m := Compose(f.position, f.rotation, f.scaling);
    if f.defaultMatrix.None? then m else Multiply(m, f.defaultMatrix.value)
  }

  /**
   * One node's part of `updateMatrix`: the model matrix is recomputed only when the node is
   * dirty or forced; a view or projection argument that is absent reuses the cached one, one
   * that is present replaces it; the derived matrices follow from those; the flag is cleared.
   */
  function Refresh(f: Frame, v: Option<Mat>, p: Option<Mat>, force: bool): Frame {
    Derive(Recompute(f, force), v, p)
  }

  /** The model matrix, recomputed from the parent and local matrices when dirty or forced; the flag cleared. */
  function Recompute(f: Frame, force: bool): Frame {
    var m := if f.dirty || force then Multiply(f.parentMatrix, LocalMatrix(f)) else f.mMatrix;
    f.(dirty := false, mMatrix := m)
  }

  /** The view and projection resolved, and the matrices derived from them and the model matrix. */
  function Derive(f: Frame, v: Option<Mat>, p: Option<Mat>): Frame {
    var vm := v.GetOr(f.vMatrix);
    var pm := p.GetOr(f.pMatrix);
    f.(vMatrix := vm, pMatrix := pm,
       mvMatrix := Multiply(vm, f.mMatrix), mvpMatrix := Multiply(pm, Multiply(vm, f.mMatrix)),
       inverseMatrix := Inverse(f.mMatrix), normalMatrix := Transpose(Inverse(f.mMatrix)))
  }

  /**
   * `updateMatrix(v, p, force)` on a subtree whose parent matrix is `parent`: refresh the
   * node, then hand every child this node's model matrix as its parent matrix and update it
   * with the resolved view and projection, forced when this node was recomputed.
   */
  function UpdateTree(t: Tree, parent: Mat, v: Option<Mat>, p: Option<Mat>, force: bool): (r: Tree)
    ensures !r.frame.dirty && r.frame.parentMatrix == parent && |r.kids| == |t.kids|
    ensures v.Some? ==> r.frame.vMatrix == v.value
    ensures v.None? ==> r.frame.vMatrix == t.frame.vMatrix
    ensures p.Some? ==> r.frame.pMatrix == p.value
    ensures p.None? ==> r.frame.pMatrix == t.frame.pMatrix
    ensures forall i :: 0 <= i < |r.kids| ==>
      && r.kids[i].frame.parentMatrix == r.frame.mMatrix
      && r.kids[i].frame.vMatrix == r.frame.vMatrix && r.kids[i].frame.pMatrix == r.frame.pMatrix
    decreases t
  {
    var f := Refresh(t.frame.(parentMatrix := parent), v, p, force);
    Tree(f, seq(|t.kids|, i requires 0 <= i < |t.kids| =>
      UpdateTree(t.kids[i], f.mMatrix, Some(f.vMatrix), Some(f.pMatrix), t.frame.dirty || force)))
  }

  /** No node of the subtree is dirty. */
  predicate Clean(t: Tree)
    decreases t
  {
    !t.frame.dirty && forall i :: 0 <= i < |t.kids| ==> Clean(t.kids[i])
  }

  /** The derived matrices of a frame agree with its model, view and projection matrices. */
  predicate Derived(f: Frame) {
    && f.mvMatrix == Multiply(f.vMatrix, f.mMatrix)
    && f.mvpMatrix == Multiply(f.pMatrix, f.mvMatrix)
    && f.inverseMatrix == Inverse(f.mMatrix)
    && f.normalMatrix == Transpose(f.inverseMatrix)
  }

  /**
   * A settled subtree: nothing is dirty, every node's derived matrices are up to date, and
   * every child holds its parent's model matrix as parent matrix and its parent's view and
   * projection matrices.
   */
  predicate Consistent(t: Tree)
    decreases t
  {
    && !t.frame.dirty
    && Derived(t.frame)
    && forall i :: 0 <= i < |t.kids| ==>
         && t.kids[i].frame.parentMatrix == t.frame.mMatrix
         && t.kids[i].frame.vMatrix == t.frame.vMatrix
         && t.kids[i].frame.pMatrix == t.frame.pMatrix
         && Consistent(t.kids[i])
  }

  /** Every model matrix of the subtree is its parent matrix times its own local transform. */
  predicate AllFresh(t: Tree)
    decreases t
  {
    && t.frame.mMatrix == Multiply(t.frame.parentMatrix, LocalMatrix(t.frame))
    && forall i :: 0 <= i < |t.kids| ==> AllFresh(t.kids[i])
  }

  /** Two subtrees of the same shape with the same model matrices throughout. */
  predicate SameModel(a: Tree, b: Tree)
    decreases a
  {
    && a.frame.mMatrix == b.frame.mMatrix
    && |a.kids| == |b.kids|
    && forall i :: 0 <= i < |a.kids| ==> SameModel(a.kids[i], b.kids[i])
  }

  /** Whatever the state before, an update leaves the subtree settled and the node keeps its parent matrix argument. */
  lemma {:induction false} UpdateConsistent(t: Tree, parent: Mat, v: Option<Mat>, p: Option<Mat>, force: bool)
    ensures var r := UpdateTree(t, parent, v, p, force);
      && Consistent(r) && Clean(r) && r.frame.parentMatrix == parent && |r.kids| == |t.kids|
    decreases t
  {
    var r := UpdateTree(t, parent, v, p, force);
    forall i | 0 <= i < |t.kids|
      ensures Consistent(r.kids[i]) && Clean(r.kids[i])
    {
      UpdateConsistent(t.kids[i], r.frame.mMatrix, Some(r.frame.vMatrix), Some(r.frame.pMatrix), t.frame.dirty || force);
    }
  }

  /**
   * A settled subtree is a fixed point of an unforced update that passes no new matrices or
   * the ones it already caches.
   */
  lemma {:induction false} ConsistentFixedPoint(t: Tree, v: Option<Mat>, p: Option<Mat>)
    requires Consistent(t)
    requires v == None || v == Some(t.frame.vMatrix)
    requires p == None || p == Some(t.frame.pMatrix)
    ensures UpdateTree(t, t.frame.parentMatrix, v, p, false) == t
    decreases t
  {
    var r := UpdateTree(t, t.frame.parentMatrix, v, p, false);
    assert r.frame == t.frame;
    forall i | 0 <= i < |t.kids|
      ensures r.kids[i] == t.kids[i]
    {
      ConsistentFixedPoint(t.kids[i], Some(t.frame.vMatrix), Some(t.frame.pMatrix));
    }
    assert r.kids == t.kids;
  }

  /** Updating twice, the second time with no new matrices and no force, changes nothing more. */
  lemma UpdateIdempotent(t: Tree, parent: Mat, v: Option<Mat>, p: Option<Mat>, force: bool)
    ensures var r := UpdateTree(t, parent, v, p, force);
      UpdateTree(r, parent, None, None, false) == r
  {
    UpdateConsistent(t, parent, v, p, force);
    ConsistentFixedPoint(UpdateTree(t, parent, v, p, force), None, None);
  }

  /** A node that is recomputed forces its whole subtree: every model matrix comes from its parent's. */
  lemma {:induction false} ForcedUpdateFresh(t: Tree, parent: Mat, v: Option<Mat>, p: Option<Mat>, force: bool)
    requires t.frame.dirty || force
    ensures AllFresh(UpdateTree(t, parent, v, p, force))
    decreases t
  {
    var r := UpdateTree(t, parent, v, p, force);
    forall i | 0 <= i < |t.kids|
      ensures AllFresh(r.kids[i])
    {
      ForcedUpdateFresh(t.kids[i], r.frame.mMatrix, Some(r.frame.vMatrix), Some(r.frame.pMatrix), true);
    }
  }

  /** Without a dirty flag anywhere and without force, no model matrix of the subtree is recomputed. */
  lemma {:induction false} CleanKeepsModel(t: Tree, parent: Mat, v: Option<Mat>, p: Option<Mat>)
    requires Clean(t)
    ensures SameModel(UpdateTree(t, parent, v, p, false), t)
    decreases t
  {
    var r := UpdateTree(t, parent, v, p, false);
    forall i | 0 <= i < |t.kids|
      ensures SameModel(r.kids[i], t.kids[i])
    {
      CleanKeepsModel(t.kids[i], r.frame.mMatrix, Some(r.frame.vMatrix), Some(r.frame.pMatrix));
    }
  }

  /**
   * The invariant the renderer keeps between updates: a node that is not dirty holds its
   * parent matrix times its local transform as model matrix, and hands that model matrix to
   * each child as parent matrix. Nothing is asked of a dirty node's own matrices: the next
   * update recomputes it and forces its subtree.
   */
  predicate Settled(t: Tree)
    decreases t
  {
    && (!t.frame.dirty ==>
          && t.frame.mMatrix == Multiply(t.frame.parentMatrix, LocalMatrix(t.frame))
          && forall i :: 0 <= i < |t.kids| ==> t.kids[i].frame.parentMatrix == t.frame.mMatrix)
    && forall i :: 0 <= i < |t.kids| ==> Settled(t.kids[i])
  }

  /**
   * From a settled subtree, an update under the node's own parent matrix (as `updateMatrix`
   * always is), or a forced one, leaves every model matrix its parent's times its local transform.
   */
  lemma {:induction false} SettledUpdateFresh(t: Tree, parent: Mat, v: Option<Mat>, p: Option<Mat>, force: bool)
    requires Settled(t)
    requires t.frame.dirty || force || parent == t.frame.parentMatrix
    ensures AllFresh(UpdateTree(t, parent, v, p, force))
    decreases t
  {
    if t.frame.dirty || force {
      ForcedUpdateFresh(t, parent, v, p, force);
    } else {
      var r := UpdateTree(t, parent, v, p, force);
      forall i | 0 <= i < |t.kids|
        ensures AllFresh(r.kids[i])
      {
        SettledUpdateFresh(t.kids[i], r.frame.mMatrix, Some(r.frame.vMatrix), Some(r.frame.pMatrix), false);
      }
    }
  }

  /** A subtree that is consistent and fresh throughout is settled. */
  lemma {:induction false} FreshConsistentSettled(t: Tree)
    requires AllFresh(t) && Consistent(t)
    ensures Settled(t)
    decreases t
  {
    forall i | 0 <= i < |t.kids|
      ensures Settled(t.kids[i])
    {
      FreshConsistentSettled(t.kids[i]);
    }
  }

  /** `updateMatrix` keeps the invariant: from a settled subtree it yields a settled, fresh and consistent one. */
  lemma UpdateKeepsSettled(t: Tree, parent: Mat, v: Option<Mat>, p: Option<Mat>, force: bool)
    requires Settled(t)
    requires t.frame.dirty || force || parent == t.frame.parentMatrix
    ensures var r := UpdateTree(t, parent, v, p, force);
      Settled(r) && AllFresh(r) && Consistent(r)
  {
    SettledUpdateFresh(t, parent, v, p, force);
    UpdateConsistent(t, parent, v, p, force);
    FreshConsistentSettled(UpdateTree(t, parent, v, p, force));
  }

  /**
   * The constructor reads the misspelt member `sclae`, which a `GLTFNode` never has, so the
   * initial scaling is always the unit vector.
   */
  function ScalingAsWritten(t: SceneNode): seq<real> {
    [1.0, 1.0, 1.0]
  }

  /** The scaling the constructor evidently means: the node's `scale`, else the unit vector. */
  function InitialScaling(t: SceneNode): (s: seq<real>)
    ensures t.scale.Some? ==> s == t.scale.value
    ensures t.scale.None? ==> s == [1.0, 1.0, 1.0]
  {
    t.scale.GetOr([1.0, 1.0, 1.0])
  }

  /** A node scaled by 2 in the document is drawn at unit scale by the constructor as written. */
  lemma ScaleIgnoredAsWritten()
    ensures exists t: SceneNode :: t.scale.Some? && ScalingAsWritten(t) != t.scale.value
  {
    var t := SceneNode(None, None, None, None, None, Some([2.0, 2.0, 2.0]), []);
    assert ScalingAsWritten(t)[0] != t.scale.value[0];
  }

  /**
   * The frame the constructor sets up before its first update: the document's translation and
   * rotation or zero vectors, the unit scaling of the code as written, the parent's model
   * matrix or the identity, the document's matrix when there is one, and clean.
   */
  function InitialFrame(t: SceneNode, parentMatrix: Option<Mat>): (f: Frame)
    ensures !f.dirty && f.scaling == [1.0, 1.0, 1.0]
    ensures t.translation.Some? ==> f.position == t.translation.value
    ensures t.translation.None? ==> f.position == [0.0, 0.0, 0.0]
    ensures parentMatrix.Some? ==> f.parentMatrix == parentMatrix.value
    ensures parentMatrix.None? ==> f.parentMatrix == Identity
    ensures f.defaultMatrix.Some? <==> t.matrix.Some?
  {
    Frame(
      t.translation.GetOr([0.0, 0.0, 0.0]),
      Quat(t.rotation.GetOr([0.0, 0.0, 0.0, 0.0])),
      ScalingAsWritten(t),
      false,
      parentMatrix.GetOr(Identity),
      if t.matrix.Some? then Some(Given(t.matrix.value)) else None,
      Identity, Identity, Identity, Identity, Identity, Identity, Identity)
  }

  /** A freshly constructed node: the initial frame, forced through one update. */
  function Constructed(t: SceneNode, parentMatrix: Option<Mat>): Tree {
    UpdateTree(Tree(InitialFrame(t, parentMatrix), []), parentMatrix.GetOr(Identity), None, None, true)
  }

  /** Whatever `scale` the document gives, a constructed node starts at unit scale. */
  lemma ConstructedAtUnitScale(t: SceneNode, parentMatrix: Option<Mat>)
    ensures Constructed(t, parentMatrix).frame.scaling == [1.0, 1.0, 1.0]
    ensures Constructed(t, parentMatrix).frame.position == InitialFrame(t, parentMatrix).position
  {
  }

  /** The tree `generateNodeFromGltf` builds: each child is constructed under its parent's model matrix. */
  function Spawned(t: SceneNode, parentMatrix: Option<Mat>): Tree
    decreases t
  {
    var n := Constructed(t, parentMatrix);
    Tree(n.frame, seq(|t.children|, i requires 0 <= i < |t.children| => Spawned(t.children[i], Some(n.frame.mMatrix))))
  }

  /** The generated renderer tree starts settled, with every model matrix computed from its parent's. */
  lemma {:induction false} SpawnedSettled(t: SceneNode, parentMatrix: Option<Mat>)
    ensures Consistent(Spawned(t, parentMatrix)) && AllFresh(Spawned(t, parentMatrix))
    ensures Settled(Spawned(t, parentMatrix))
    ensures |Spawned(t, parentMatrix).kids| == |t.children|
    decreases t
  {
    var s := Spawned(t, parentMatrix);
    forall i | 0 <= i < |t.children|
      ensures Consistent(s.kids[i]) && AllFresh(s.kids[i])
    {
      SpawnedSettled(t.children[i], Some(s.frame.mMatrix));
    }
    assert Consistent(s) && AllFresh(s);
    FreshConsistentSettled(s);
  }

  /** A vector argument of a setter: an `Array`, a `Float32Array`, or anything else. */
  datatype VecArg = ArrayArg(xs: seq<real>) | Float32Arg(xs: seq<real>) | OtherArg

  /** The setters accept an `Array` or a `Float32Array` of length 3. */
  predicate Accepts(a: VecArg) {
    (a.ArrayArg? || a.Float32Arg?) && |a.xs| == 3
  }

  /**
   * A node of the renderer. The node itself is an object whose fields change in place; the
   * subtree below it is held as values (`Tree`), each child updated through `UpdateTree`.
   */
  class Node {
    const name: Option<string>
    const isRoot: bool
    var dirty: bool
    var children: seq<Tree>
    var position: seq<real>
    var rotation: Rot
    var scaling: seq<real>
    var parentMatrix: Mat
    const defaultMatrix: Option<Mat>
    var mMatrix: Mat
    var vMatrix: Mat
    var pMatrix: Mat
    var mvMatrix: Mat
    var mvpMatrix: Mat
    var inverseMatrix: Mat
    var normalMatrix: Mat

    function CurrentFrame(): Frame
      reads this
    {
      Frame(position, rotation, scaling, dirty, parentMatrix, defaultMatrix,
            mMatrix, vMatrix, pMatrix, mvMatrix, mvpMatrix, inverseMatrix, normalMatrix)
    }

    /** The state of the subtree rooted here. */
    function Model(): Tree
      reads this
    {
      Tree(CurrentFrame(), children)
    }

    /** `new Node(t, parent, root)`: the initial frame, then `updateMatrix(null, null, true)`. */
    constructor (t: SceneNode, parent: Option<Mat>, root: bool)
      ensures name == t.name && isRoot == root
      ensures Model() == Constructed(t, parent)
    {
      name := t.name;
      isRoot := root;
      dirty := false;
      children := [];
      position := t.translation.GetOr([0.0, 0.0, 0.0]);
      rotation := Quat(t.rotation.GetOr([0.0, 0.0, 0.0, 0.0]));
      scaling := ScalingAsWritten(t);
      parentMatrix := parent.GetOr(Identity);
      defaultMatrix := if t.matrix.Some? then Some(Given(t.matrix.value)) else None;
      mMatrix := Identity;
      vMatrix := Identity;
      pMatrix := Identity;
      mvMatrix := Identity;
      mvpMatrix := Identity;
      inverseMatrix := Identity;
      normalMatrix := Identity;
      new;
      UpdateMatrix(None, None, true);
    }

    /** `setPosition(v)`: only an array of length 3 is taken, and it marks the node dirty. */
    method SetPosition(a: VecArg)
      modifies this
      ensures Accepts(a) ==> Model() == old(Model()).(frame := old(CurrentFrame()).(position := a.xs, dirty := true))
      ensures !Accepts(a) ==> Model() == old(Model())
      ensures old(Settled(Model())) ==> Settled(Model())
    {
      if Accepts(a) {
        position := a.xs;
        dirty := true;
      }
    }

    /** `setRotate(angle, v)`: also needs an angle; the rotation becomes the quaternion about `v`. */
    method SetRotate(angle: Option<real>, a: VecArg)
      modifies this
      ensures angle.Some? && Accepts(a) ==>
        Model() == old(Model()).(frame := old(CurrentFrame()).(rotation := Rotate(angle.value, a.xs), dirty := true))
      ensures !(angle.Some? && Accepts(a)) ==> Model() == old(Model())
      ensures old(Settled(Model())) ==> Settled(Model())
    {
      if angle.Some? && Accepts(a) {
        rotation := Rotate(angle.value, a.xs);
        dirty := true;
      }
    }

    /** `setScale(v)`: as `setPosition`, for the scaling. */
    method SetScale(a: VecArg)
      modifies this
      ensures Accepts(a) ==> Model() == old(Model()).(frame := old(CurrentFrame()).(scaling := a.xs, dirty := true))
      ensures !Accepts(a) ==> Model() == old(Model())
      ensures old(Settled(Model())) ==> Settled(Model())
    {
      if Accepts(a) {
        scaling := a.xs;
        dirty := true;
      }
    }

    /** The node's own part of `updateMatrix`, before its children are visited. */
    method RefreshSelf(v: Option<Mat>, p: Option<Mat>, force: bool) returns (vm: Mat, pm: Mat, recompute: bool)
      modifies this
      ensures CurrentFrame() == Refresh(old(CurrentFrame()), v, p, force)
      ensures vm == vMatrix && pm == pMatrix && recompute == (old(dirty) || force)
      ensures children == old(children)
    {
      recompute := dirty || force;
      RecomputeSelf(force);
      vm, pm := DeriveSelf(v, p);
    }

    method RecomputeSelf(force: bool)
      modifies this
      ensures CurrentFrame() == Recompute(old(CurrentFrame()), force)
      ensures children == old(children)
    {
      if dirty || force {
        mMatrix := Multiply(parentMatrix, LocalMatrix(CurrentFrame()));
      }
      dirty := false;
    }

    method DeriveSelf(v: Option<Mat>, p: Option<Mat>) returns (vm: Mat, pm: Mat)
      modifies this
      ensures CurrentFrame() == Derive(old(CurrentFrame()), v, p)
      ensures vm == vMatrix && pm == pMatrix
      ensures children == old(children)
    {
      vm := v.GetOr(vMatrix);
      pm := p.GetOr(pMatrix);
      vMatrix := vm;
      pMatrix := pm;
      mvMatrix := Multiply(vm, mMatrix);
      mvpMatrix := Multiply(pm, mvMatrix);
      inverseMatrix := Inverse(mMatrix);
      normalMatrix := Transpose(inverseMatrix);
    }

    /**
     * `updateMatrix(v, p, force)`. The parent matrix is never null (the constructor defaults
     * it to the identity and parents hand over their model matrix), so it is always applied.
     * Each child, in order, is handed this node's model matrix and updated with the resolved
     * view and projection, forced when this node was recomputed.
     */
    method UpdateMatrix(v: Option<Mat>, p: Option<Mat>, force: bool)
      modifies this
      ensures Model() == UpdateTree(old(Model()), old(parentMatrix), v, p, force)
      ensures old(Settled(Model())) ==> Settled(Model()) && AllFresh(Model())
    {
      ghost var before, goal := Model(), UpdateTree(Model(), parentMatrix, v, p, force);
      var vm, pm, recompute := RefreshSelf(v, p, force);
      assert CurrentFrame() == goal.frame;
      UpdateChildren(vm, pm, recompute);
      assert children == goal.kids;
      if Settled(before) {
        UpdateKeepsSettled(before, before.frame.parentMatrix, v, p, force);
      }
    }

    /** The child loop of `updateMatrix`: each child is updated under this node's model matrix. */
    method UpdateChildren(vm: Mat, pm: Mat, recompute: bool)
      modifies this
      ensures CurrentFrame() == old(CurrentFrame())
      ensures |children| == |old(children)|
      ensures forall i :: 0 <= i < |children| ==>
        children[i] == UpdateTree(old(children)[i], mMatrix, Some(vm), Some(pm), recompute)
    {
      var i := 0;
      while i < |children|
        invariant 0 <= i <= |children| == |old(children)|
        invariant CurrentFrame() == old(CurrentFrame())
        invariant forall j :: 0 <= j < i ==> children[j] == UpdateTree(old(children)[j], mMatrix, Some(vm), Some(pm), recompute)
        invariant children[i..] == old(children)[i..]
      {
        children := children[i := UpdateTree(children[i], mMatrix, Some(vm), Some(pm), recompute)];
        i := i + 1;
      }
    }

    /** `children.push(c)`. */
    method AddChild(c: Tree)
      modifies this
      ensures Model() == old(Model()).(kids := old(children) + [c])
      ensures old(Settled(Model())) && Settled(c) && (old(dirty) || c.frame.parentMatrix == old(mMatrix)) ==>
        Settled(Model())
    {
      children := children + [c];
    }
  }

  /**
   * `generateNodeFromGltf(t, parentMatrix, root)`: construct the node, then generate each
   * child under this node's model matrix and append it.
   */
  method GenerateNode(t: SceneNode, parentMatrix: Option<Mat>, root: bool) returns (node: Node)
    ensures fresh(node)
    ensures node.name == t.name && node.isRoot == root
    ensures node.Model() == Spawned(t, parentMatrix)
    ensures Settled(node.Model()) && AllFresh(node.Model())
    decreases t
  {
    node := new Node(t, parentMatrix, root);
    ghost var goal := Spawned(t, parentMatrix);
    var i := 0;
    while i < |t.children|
      invariant 0 <= i <= |t.children|
      invariant node.name == t.name && node.isRoot == root
      invariant node.CurrentFrame() == goal.frame
      invariant node.children == goal.kids[..i]
    {
      var child := GenerateNode(t.children[i], Some(node.mMatrix), false);
      node.AddChild(child.Model());
      i := i + 1;
    }
    SpawnedSettled(t, parentMatrix);
  }

  /** `generate(data)`: one root node per scene, each generated without a parent matrix. */
  method Generate(scenes: seq<SceneNode>) returns (roots: seq<Node>)
    ensures |roots| == |scenes|
    ensures forall i :: 0 <= i < |scenes| ==> roots[i].isRoot && roots[i].Model() == Spawned(scenes[i], None)
  {
    roots := [];
    var i := 0;
    while i < |scenes|
      invariant 0 <= i <= |scenes| && |roots| == i
      invariant forall j :: 0 <= j < i ==> roots[j].isRoot && roots[j].Model() == Spawned(scenes[j], None)
    {
      var root := GenerateNode(scenes[i], None, true);
      roots := roots + [root];
      i := i + 1;
    }
  }
}

=== FILE: wrappers.dfy ===
/** Optional values and failure results shared by every module of the model. */
module Wrappers {

  /** A value that may be absent: JavaScript's `undefined`/`null`, or a JSON member left out. */
  datatype Option<+T> = None | Some(value: T) {
    function GetOr(default: T): T {
      match this
      case Some(v) => v
      case None => default
    }
  }

  /** The outcome of an operation that may throw (or reject) with an error value. */
  datatype Result<+T, +E> = Success(value: T) | Failure(error: E) {
    predicate IsFailure() {
      Failure?
    }

    function PropagateFailure<U>(): Result<U, E>
      requires Failure?
    {
      Failure(error)
    }

    function Extract(): T
      requires Success?
    {
      value
    }
  }
}
